=== FILE: README.md ===
# TBMHelper stop selection, modelled in Dafny

TBMHelper is a web app for the Bordeaux transit network (TBM). Its store
keeps two things in step with the URL query:

- the list of stop areas the user has selected;
- the stop points the user has excluded from those areas.

This project models that store (`src/store/StopsManager.ts`) together with
the pure logic it relies on:

- the `eSP` codec, which writes the excluded pairs into one query value and
  reads them back against the current query;
- the operations `addStop`, `removeStopPoint`, `removeStopArea`,
  `getWantedStops`, `queryUpdated` and `provideQuery`;
- the echo flag that makes the store ignore the router event caused by its
  own push;
- from the transit-API client (`src/store/TBM/index.ts`): the `stop_area`
  filter of the stop search, the stop-point and route pruning of stop-area
  details, the `waittime` parser of real-time passes, and the cut and
  time-of-day wrap of vehicle journeys;
- `duration` and `unique` from `src/store/index.ts`.

How the model is built:

- The module-level variables become one immutable `State`. Each operation
  maps a state to the next one.
- `router.push({ query })` appends a copy of the query to
  `State.navigation`.
- The URL query is a JavaScript object. It is modelled in `JsObject` as an
  ordered list of entries with distinct keys, in JavaScript's enumeration
  order: array-index keys first in ascending order, then the other keys in
  insertion order. The order matters twice: `serializeExcludedStopPoints`
  takes the *first* key holding a name, and `queryUpdated` sorts
  `Object.keys`.
- The two HTTP endpoints the store reads become the functions of
  `Tbm.Api`. They return `[]` or `None` wherever the source's `try/catch`
  does.
- `await` is sequential and nothing else runs in between, so each async
  operation is one function.

Files:

| file | contents |
|---|---|
| `wrappers.dfy` | `Option` |
| `seqs.dfy` | `filter`, `find`, `findIndex`, `indexOf`, `unique`, an in-place `forEach` |
| `text.dfy` | digit strings, `parseInt`, `split`/`join`, `endsWith`, `substring`, `/\d{2}/g` |
| `jsobject.dfy` | the query object: `Object.keys`, `q[k]`, `q[k] = v`, `delete` |
| `key_order.dfy` | the numeric keys `queryUpdated` visits, in stable sorted order |
| `tbm.dfy` | the TBM client's records and pure logic |
| `codec.dfy` | the `eSP` codec and its round trip |
| `stops_manager.dfy` | the store's state and operations |
| `duration.dfy` | `duration` and reading its long form back |

Notes on what the store's code does, which the model follows:

- Query slots hold stop-area **names**, not ids. Every lookup from the
  query goes by name.
- Nothing re-indexes the slots after `removeStopArea`. The key of the
  removed area is deleted and the other keys are left as they are.
- `addStop` answers 1 as soon as the selected area has **any** exclusion,
  even when some of its stop points are still wanted.
- `addStop` answers -2 when no search result has the name and -3 when the
  details cannot be fetched.
- `queryUpdated` appends newly loaded areas at the end of the selection,
  in the order it meets their keys.
- After the loop, `queryUpdated` keeps the selected areas whose name is
  **any** query value, `eSP` included, not only the value of a numeric key.

## Model

| member | source | states |
|---|---|---|
| StopsManager.ProvideQuery | src/store/StopsManager.ts:21-23 | The store's query becomes the given one. Selection, exclusions, search results, echo flag and navigation are unchanged. |
| StopsManager.StoreExclusions | src/store/StopsManager.ts:118-119 | After re-encoding, `eSP` holds the encoding when it is non-empty. It is absent when the encoding is empty. Every other key keeps its value and its place: once `eSP` is deleted from both, the result equals the old query. An existing `eSP` stays where it was; a new one is appended last, since `eSP` is no array index. |
| StopsManager.GetWantedStops | src/store/StopsManager.ts:183-200 | A tagged stop point is in the result iff some given area has that id, lists that stop point, and the (area, stop point) pair is not excluded. The length is the number of non-excluded stop points over all areas, counted with repetition. |
| StopsManager.WantedOf | src/store/StopsManager.ts:187-196 | One area's contribution: entry i is the area's i-th non-excluded stop point tagged with the area id, so length and order follow the filter. Membership: exactly the non-excluded stop points of the area. |
| StopsManager.Unexcluded | src/store/StopsManager.ts:187-193 | The `filter`: a sub-list of the area's stop points holding each one whose pair is not excluded, as often as the area lists it, and no other. |
| StopsManager.GetWantedStopsOne | src/store/StopsManager.ts:184-198 | The `reduce` over a single area is that area's contribution. |
| StopsManager.Tag | src/store/StopsManager.ts:194-196 | The `map` keeps length and order. Entry i is stop point i tagged with the area id. |
| StopsManager.GetWantedStopsConcat | src/store/StopsManager.ts:184-199 | The `reduce` is a fold: the stops of `a + b` are the stops of `a` followed by those of `b`. |
| StopsManager.GetWantedStopsAll | src/store/StopsManager.ts:183-200 | With nothing excluded, the result has one entry per stop point of every area, counted with repetition. |
| StopsManager.WithoutArea | src/store/StopsManager.ts:117 | A sub-list of the exclusions keeping every pair of another area as often as before, and no pair of this area. |
| StopsManager.AddStop | src/store/StopsManager.ts:113-137 | Codes, each with both directions. 1: the name is selected and has some exclusion; the area's exclusions are dropped, leaving a sub-list in which every other pair keeps its multiplicity, `eSP` is re-encoded, and a push made. -1: selected with no exclusion. -2: not selected and not among the search results. -3: found but its details fail. Every negative code leaves the state unchanged. 0: the appended area is the first search result with the name, with exactly the details `fetchStopAreaDetails` gives for it; its name is written under the key `String(keys + 1)`, other keys are unchanged and stay in their order (the query equals the old one once that key is deleted from both), and a push is made. |
| StopsManager.RemoveStopArea | src/store/StopsManager.ts:158-181 | The selection and the exclusions are sub-lists that lose exactly the area's entries; every other exclusion keeps its multiplicity. No query value is the area's name any more: keys holding it are deleted and other keys except `eSP` are unchanged. Away from `eSP` the new query is an in-order sub-list of the old one. With exclusions, `eSP` holds the re-encoding of what is left, absent when that is empty or is the name; without, `eSP` is only deleted if it held the name. A push happens iff the area had exclusions or its name was a query value; otherwise query, exclusions, flag and navigation are unchanged. |
| StopsManager.RemoveStopAreaIdempotent | src/store/StopsManager.ts:158-181 | Removing the same area twice is the same as removing it once. |
| StopsManager.RemoveStopPoint | src/store/StopsManager.ts:139-156 | An already excluded pair is a no-op. Otherwise a push is made and the pair is appended to the exclusions. If some stop point of the area is still not excluded, the selection is kept and `eSP` re-encoded. If none is left, `removeStopArea` follows: the selection and exclusions lose exactly the area's entries, and the exclusions are exactly the old ones of the other areas in their order. Keys naming the area are deleted, other keys but `eSP` keep their value, and away from `eSP` the query is an in-order sub-list of the old one; `eSP` holds the re-encoding against the pushed query, and the two pushed queries are appended to the navigation in order. |
| StopsManager.CascadeSelection | src/store/StopsManager.ts:154-159 | After the push of the new pair, `removeStopArea` leaves exactly the other areas and the other areas' pairs, with their multiplicities. |
| StopsManager.CascadeExcluded | src/store/StopsManager.ts:147-165 | After the push of the new pair, `removeStopArea` leaves exactly the original exclusions with the area's pairs filtered out, in order. |
| StopsManager.CascadeQuery | src/store/StopsManager.ts:149-180 | After the push of the new pair, `removeStopArea` leaves no key naming the area and pushes again: both pushed queries follow the old navigation, in order. |
| StopsManager.CascadeKeys | src/store/StopsManager.ts:170-175 | Keys other than `eSP` that did not name the area keep their values; those that did are gone. |
| StopsManager.CascadeOrder | src/store/StopsManager.ts:149-175 | Away from `eSP`, the final query is an in-order sub-list of the query before `removeStopPoint`. |
| StopsManager.CascadeEncoding | src/store/StopsManager.ts:163-168 | When the area has a pair, `removeStopArea` stores the re-encoding of the remaining pairs in `eSP`, or deletes `eSP` when that is empty or is the area's name. |
| StopsManager.RemoveThenAddAgain | src/store/StopsManager.ts:113-156 | Excluding a stop point of a selected area, then calling `addStop` with the area's name, answers 1. The resulting exclusions are exactly the original ones of the other areas: the original list with this area's pairs filtered out, in order and with multiplicity. |
| StopsManager.Load | src/store/StopsManager.ts:38-51 | The stop found by name, then its details. The result has the searched name. It is None iff no search result has the name or its details fail. |
| StopsManager.VisitKey | src/store/StopsManager.ts:35-52 | One loop iteration: stops and exclusions are unchanged and the selection grows by at most one area at its end. Keys other than the visited one keep their value, and the query is a sub-list of the one before. If the key survives, its name is selected. Either navigation, query and flag are untouched, or the key is deleted and the new query pushed with the flag set. |
| StopsManager.VisitKeyLoads | src/store/StopsManager.ts:37-52 | An iteration appends only areas it loaded itself: what `Load` gives for a name no earlier area had. |
| StopsManager.VisitKeyLoadsOne | src/store/StopsManager.ts:38-52 | A name not selected that loads appends exactly one loaded area. |
| StopsManager.VisitKeyKeeps | src/store/StopsManager.ts:37-51 | The visited key survives iff its name was selected or loads. |
| StopsManager.VisitKeys | src/store/StopsManager.ts:32-53 | The whole loop: stops and exclusions unchanged, the selection only grows at its end, keys not visited keep their value, and the query is a sub-list of the starting one. The navigation only grows; it is unchanged only if the query is, and otherwise its last entry is the final query. |
| StopsManager.VisitKeyLastPush | src/store/StopsManager.ts:40-49 | One iteration keeps the old navigation as a prefix, and when it pushes, the pushed entry is the new query. |
| StopsManager.LastPushTrans | src/store/StopsManager.ts:32-53 | Two stretches of the loop that each keep the history and end with the current query compose into one. |
| StopsManager.VisitKeyPushes | src/store/StopsManager.ts:40-49 | The entry one iteration pushes is the new query, a sub-list of the old one. |
| StopsManager.PushesTrans | src/store/StopsManager.ts:32-53 | The entries pushed over two stretches of the loop all lie between the final and the starting query. |
| StopsManager.VisitKeysPushes | src/store/StopsManager.ts:32-53 | Every entry the loop pushes lies, in the sub-list order, between the final query and the starting one. |
| StopsManager.VisitKeysLoads | src/store/StopsManager.ts:32-53 | The areas appended by the loop are loaded by the loop itself, each under a visited key, in strictly increasing order of the first key naming them. |
| StopsManager.LoadedStep | src/store/StopsManager.ts:37-52 | One iteration extends the loaded-in-key-order fact from the remaining keys to the whole list. |
| StopsManager.LoadedShift | src/store/StopsManager.ts:37-51 | A visit that loads nothing keeps the later loads in key order, one key later. |
| StopsManager.LoadedPrepend | src/store/StopsManager.ts:52 | A visit that loads puts the new area before every later load. |
| StopsManager.LoadedSubseq | src/store/StopsManager.ts:56 | Filtering the loaded areas keeps them loaded and in key order. |
| StopsManager.VisitKeysKeeps | src/store/StopsManager.ts:32-53 | Over the whole loop, each visited key survives iff its name was selected at the start or loads. |
| StopsManager.KeepsThroughVisit | src/store/StopsManager.ts:37-52 | Appending areas loaded by the loop does not change whether a later name counts as selected-or-loadable. |
| StopsManager.FirstKeyNaming | src/store/StopsManager.ts:32-35 | The position of the first visited key whose value is the name, or the length when there is none. |
| StopsManager.VisitKeyFacts | src/store/StopsManager.ts:35-52 | One loop iteration on a present key leaves stops and exclusions alone and only appends to the selection. Either the query is untouched, or the visited key alone is deleted, with one push and the flag set. If the key survives, its name is selected. |
| StopsManager.VisitKeySelection | src/store/StopsManager.ts:37-52 | One iteration only appends to the selection. If the visited key survives, its name is selected afterwards. |
| StopsManager.VisitKeyQuery | src/store/StopsManager.ts:37-51 | One iteration either leaves the query, navigation and flag alone, or deletes only the visited key and pushes the new query. |
| StopsManager.VisitKeyKnown | src/store/StopsManager.ts:37 | A name that is already selected is skipped: the state is unchanged. |
| StopsManager.VisitKeyDropped | src/store/StopsManager.ts:39-51 | A name that cannot be loaded has its key deleted: the query shrinks by one entry and the new query is pushed. |
| StopsManager.VisitKeyAdded | src/store/StopsManager.ts:52 | A loaded area is appended to the selection, after which its name is found there. |
| StopsManager.VisitKeysFacts | src/store/StopsManager.ts:32-53 | Over the whole loop, the query only loses visited keys, with exactly one push per lost key. The flag is set iff some key was lost. The selection only grows at its end. Every visited key that survives names a selected area. |
| StopsManager.VisitKeysNoop | src/store/StopsManager.ts:32-37 | When every visited key already names a selected area, the loop changes nothing. |
| StopsManager.SelectedGrows | src/store/StopsManager.ts:37 | A name found in the selection is still found after areas are appended. |
| StopsManager.QueryUpdated | src/store/StopsManager.ts:25-61 | An echo only clears the flag. Otherwise: search results are unchanged; the query is a sub-list of the router's; only numeric keys are dropped, and a numeric key survives iff its name was already selected or loads; every selected area's name is a query value; an area selected before stays iff its name is a query value; the selection is the old areas still named, in order, followed by areas loaded by the loop for names not selected before, in the order of their first key; every numeric key left whose name was not selected before finds what loading it gives; every numeric key left names a selected area; the exclusions are the decoding of `eSP` against the final query and selection; the flag is set iff the query was corrected; there is one push per dropped key. The old navigation is kept as a prefix. Every pushed entry lies between the final query and the router's, in the sub-list order. When the query was corrected, the last entry is the final query. |
| StopsManager.QueryUpdatedHistory | src/store/StopsManager.ts:32-53 | The navigation after the loop keeps the old entries; its new entries lie between the final query and the router's, and the last is the final query when a key was dropped. |
| StopsManager.StillNamed | src/store/StopsManager.ts:55-56 | The final `filter`: a sub-list of the selection holding exactly the areas whose name is a query value. |
| StopsManager.StillNamedConcat | src/store/StopsManager.ts:56 | The filter of the old areas followed by the loaded ones is the filter of each part in turn. |
| StopsManager.QueryUpdatedKeys | src/store/StopsManager.ts:32-53 | After the loop, a numeric key of the router's query is present iff its name was selected before or loads. |
| StopsManager.QueryUpdatedSelection | src/store/StopsManager.ts:32-56 | After the final filter, an old area stays iff named; the old areas still named come first, in order, then areas loaded by the loop in key order. |
| StopsManager.QueryUpdatedLoaded | src/store/StopsManager.ts:37-56 | A surviving numeric key whose name was not selected before finds in the final selection exactly what loading the name gives. |
| StopsManager.LoadedFound | src/store/StopsManager.ts:37-56 | A name found in the final selection but not in the old one is found on an area the loop loaded, which is what loading the name gives. |
| StopsManager.QueryUpdatedFacts | src/store/StopsManager.ts:55-56 | After the final filter, every remaining numeric key names an area that survives the filter. |
| StopsManager.QueryUpdatedIdempotent | src/store/StopsManager.ts:25-61 | Replaying the same router query after a non-echo update changes nothing except clearing the flag. |
| StopsManager.AddStopOverwritesSlot | src/store/StopsManager.ts:130 | Counterexample: from the query {"2": "B"} with B selected, adding C answers 0 and writes C over key "2". B is still selected but no query value names it. |
| StopsManager.MaxDigitKey | src/store/StopsManager.ts:130 | Bounds the numeric value of every plain digit key. |
| StopsManager.FreshSlot | src/store/StopsManager.ts:130 | A canonical numeral that no key of the query uses. |
| StopsManager.AddStopFreshSlot | src/store/StopsManager.ts:113-137 | `addStop` with the new name written under a fresh key. Codes other than 0 are as in `addStop`. On 0 the query grows by one entry, every old key keeps its value, every old value is still present, and the new name is a value. |
| StopsManager.ValuesKept | src/store/StopsManager.ts:130 | Writing an unused key keeps every old key's value and every old value. |
| StopsManager.SelectedByNameFinds | src/store/StopsManager.ts:37 | `find` by name succeeds on any selected area's name. |
| StopsManager.DeleteFacts | src/store/StopsManager.ts:40 | Deleting a present key removes one entry and adds none. |
| ExclusionCodec.Suffix | src/store/StopsManager.ts:105 | `substring("stop_point:".length)` drops exactly the first 11 characters, and is "" on a shorter id. |
| ExclusionCodec.AreaIds | src/store/StopsManager.ts:95 | The area id of each exclusion, in order. |
| ExclusionCodec.OfArea | src/store/StopsManager.ts:104 | Exactly one area's exclusions. |
| ExclusionCodec.Suffixes | src/store/StopsManager.ts:105 | Each exclusion's stop-point suffix, in order. |
| ExclusionCodec.EncodeGroups | src/store/StopsManager.ts:95-108 | At most one group per distinct area. Each group contains the `-` that follows its key. |
| ExclusionCodec.Serialize | src/store/StopsManager.ts:92-111 | The encoding is empty iff no excluded area is both selected and named under some query key. |
| ExclusionCodec.DistinctAreaIds | src/store/StopsManager.ts:95 | `map(...).filter(unique)` holds exactly the areas that have exclusions. |
| ExclusionCodec.EncodeGroupsEmpty | src/store/StopsManager.ts:95-100 | No group is written iff no listed area has a key. |
| ExclusionCodec.DecodeTokens | src/store/StopsManager.ts:81-86 | Each decoded pair is the area's id and one of its stop points, never more pairs than tokens. A first token with a match yields the area's id and that stop point first; a first token without one is skipped. |
| ExclusionCodec.DecodeTokensConcat | src/store/StopsManager.ts:81-86 | The loop over tokens is a fold: the pairs of `a + b` are those of `a` followed by those of `b`. |
| ExclusionCodec.StopPointOf | src/store/StopsManager.ts:82 | The first stop point of the area whose id ends with the token. None iff there is none. |
| ExclusionCodec.DecodeSegment | src/store/StopsManager.ts:69-86 | The segment is skipped when it has no leading digits, when its key is absent or empty, or when no selected area has that name. Each pair it yields names a selected area, with a non-empty name that is a query value, and one of that area's stop points. |
| ExclusionCodec.DecodeSegments | src/store/StopsManager.ts:69-87 | Every pair from all segments has the provenance `DecodeSegment` guarantees. |
| ExclusionCodec.Deserialize | src/store/StopsManager.ts:63-90 | Never fails. The empty text decodes to nothing. Every pair names a selected area under a query value and one of its stop points. |
| ExclusionCodec.RegroupPermutation | src/store/StopsManager.ts:95-106 | Grouping by area in first-seen order only reorders: the multiset of pairs is the same. |
| ExclusionCodec.RegroupIdsCount | src/store/StopsManager.ts:95-106 | Over distinct ids, each pair of a listed area appears as often as in the input, and other pairs not at all. |
| ExclusionCodec.RoundTrip | src/store/StopsManager.ts:63-111 | The decoding of the encoding is the exclusions grouped by area in first-seen order. Requires distinct selected names and recoverable pairs: the area is selected, its name is held only by digit keys, and the suffix is separator-free and matches only its own stop point. |
| ExclusionCodec.GroupsRoundTrip | src/store/StopsManager.ts:69-108 | Decoding the joined groups of distinct area ids gives each area's exclusions in turn. |
| ExclusionCodec.GroupRoundTrip | src/store/StopsManager.ts:69-106 | One group decodes to exactly its area's exclusions. |
| ExclusionCodec.AreaKey | src/store/StopsManager.ts:99 | The key chosen for a recoverable area is a non-empty digit string whose value is the area's name. |
| ExclusionCodec.SuffixesFree | src/store/StopsManager.ts:105 | Recoverable suffixes hold neither `-` nor `,`. |
| ExclusionCodec.SuffixFree | src/store/StopsManager.ts:105 | One recoverable suffix holds neither `-` nor `,`. |
| ExclusionCodec.DecodeSegmentOf | src/store/StopsManager.ts:70-79 | A segment led by a key naming a selected area decodes its `-`-tokens against that area. |
| ExclusionCodec.GroupString | src/store/StopsManager.ts:102-106 | `key-s1-...-sn` has no `,`, its leading digits are the key, and its `-`-split after the first part is the suffixes. |
| ExclusionCodec.GroupLeading | src/store/StopsManager.ts:70 | `^\d+` of `key-...` is the key. |
| ExclusionCodec.GroupSplit | src/store/StopsManager.ts:79 | Splitting a group on `-` gives back its suffixes after the key. |
| ExclusionCodec.SelectedByNameIsArea | src/store/StopsManager.ts:76 | With distinct names, finding the area by its name gives the area found by its id. |
| ExclusionCodec.DecodeTokensRoundTrip | src/store/StopsManager.ts:81-86 | The suffixes of one area's recoverable exclusions decode back to those exclusions, in order. |
| ExclusionCodec.StopPointOfSuffix | src/store/StopsManager.ts:82 | A recoverable pair's suffix finds its own stop point. |
| KeyOrder.NumericKeys | src/store/StopsManager.ts:32-34 | The visited keys are exactly the keys `parseInt` reads a number from, each once, in ascending order of that number. |
| KeyOrder.SortBy | src/store/StopsManager.ts:34 | The sort is a permutation and its result is ordered by number. |
| KeyOrder.SortStable | src/store/StopsManager.ts:34 | Stability: the keys reading the same number keep their relative order. |
| KeyOrder.InsertBy | src/store/StopsManager.ts:34 | One insertion adds exactly the inserted key. |
| KeyOrder.InsertSorted | src/store/StopsManager.ts:34 | Inserting into an ordered list keeps it ordered. |
| KeyOrder.InsertStable | src/store/StopsManager.ts:34 | Among equal numbers, the inserted key goes after the ones already present. |
| KeyOrder.SortNoDup | src/store/StopsManager.ts:32-34 | Sorting distinct keys gives distinct keys. |
| JsObject.KeyOfValue | src/store/StopsManager.ts:99 | `Object.keys(q).find((k) => q[k] === v)`: the first key in enumeration order holding v. None iff v is no value. |
| JsObject.Set | src/store/StopsManager.ts:130 | `q[k] = v`: k reads v and other keys are unchanged. An existing key keeps its place. A new key adds one entry. A new non-index key goes last. Once k is deleted from both, the result equals the old object, so a new index key leaves every other entry in its order. |
| JsObject.ReplaceFrame | src/store/StopsManager.ts:130 | Overwriting an existing key leaves every other entry where it was. |
| JsObject.DeleteSubseq | src/store/StopsManager.ts:40 | Deleting a key keeps the in-order sub-list relation between two objects. |
| JsObject.Delete | src/store/StopsManager.ts:40 | `delete q[k]`: k reads undefined and the other keys are unchanged. A present key removes one entry. An absent key changes nothing. |
| JsObject.DeleteWhereValue | src/store/StopsManager.ts:170-175 | The `forEach` delete: no value is v afterwards. Keys with other values are unchanged. Keys holding v are gone. Nothing changes when v is no value. |
| JsObject.Get | src/store/StopsManager.ts:73 | `q[k]` is defined iff k is a key, and its value is the entry's value. |
| JsObject.Values | src/store/StopsManager.ts:55 | `Object.keys(q).map((k) => q[k])` lists the values in enumeration order. |
| Text.ParseIntDigits | src/store/StopsManager.ts:33 | `parseInt` of a digit string is its decimal value. |
| Text.ParseInt | src/store/StopsManager.ts:33 | `parseInt` gives a number only on a string holding some decimal digit. |
| Text.ParseMagnitude | src/store/StopsManager.ts:33 | After the sign, a number is read only when a decimal digit comes first. |
| Text.TrimStart | src/store/StopsManager.ts:33 | The white space skipped by `parseInt`: what is left does not start with white space. |
| Text.TrimStartSuffix | src/store/StopsManager.ts:33 | What is left after the white space is a suffix of the input. |
| Text.LeadingDigits | src/store/StopsManager.ts:70 | `match(/^\d+/)` is the longest all-digit prefix. |
| Text.Split | src/store/StopsManager.ts:64 | `split` never returns an empty list, and no part contains the separator. |
| Text.SplitJoin | src/store/StopsManager.ts:79 | Splitting the join of separator-free parts gives back the parts. |
| Text.JoinSplit | src/store/StopsManager.ts:64 | Joining the parts of a split with the same separator gives back the string, so `split` loses nothing. |
| Text.TwoDigitMatches | src/store/TBM/index.ts:227 | `match(/\d{2}/g)` yields two-digit strings only. |
| Text.NatToStringCanonical | src/store/StopsManager.ts:130 | `String(n)` is a canonical numeral whose value is n. |
| Text.CanonicalInjective | src/store/StopsManager.ts:130 | Distinct canonical numerals have distinct values. |
| Seqs.IndexOf | src/store/index.ts:266 | `indexOf` is -1 iff the value is absent; otherwise it is the first index holding the value. |
| Seqs.UniqueIffFirst | src/store/index.ts:265-267 | `unique(arr[i], i, arr)` holds iff no earlier element equals `arr[i]`. |
| Seqs.FilterUniqueFirstOccurrences | src/store/index.ts:265-267 | `arr.filter(unique)` holds exactly the elements of `arr`, each once, in order of first occurrence. |
| Seqs.Find | src/store/StopsManager.ts:37 | `find` returns the first element satisfying the test, and None iff none does. |
| Seqs.FindIndex | src/store/TBM/index.ts:272-275 | The first index satisfying the test, or None iff there is none. |
| Seqs.Filter | src/store/StopsManager.ts:56 | `filter` keeps exactly the satisfying elements, in order, with their multiplicities. |
| Seqs.ForEachInPlaceSteps | src/store/TBM/index.ts:78-86 | Entry i is the callback run at i on the array as it stands then: earlier entries already rewritten, later ones as received. |
| Tbm.StopAreasOnly | src/store/TBM/index.ts:21 | Keeps exactly the `stop_area` results, in order, with their multiplicities. |
| Tbm.FetchStops | src/store/TBM/index.ts:17-25 | The results are exactly the `stop_area` results of the search, as a sub-list, each as often as the search returned it. |
| Tbm.KeepStopPoints | src/store/TBM/index.ts:66-77 | A stop point stays iff one of its routes is not served by a different stop point with more routes. Order is kept. |
| Tbm.PruneRoutes | src/store/TBM/index.ts:78-86 | Stop points keep number, order and every field but `routes`, and keep a sub-list of their routes. A route of stop point i is dropped iff an earlier stop point, already pruned, or a later one, as received, serves it with fewer routes than i had. |
| Tbm.PruneRoutesSteps | src/store/TBM/index.ts:78-86 | The pruning facts for every index of the in-place pass. |
| Tbm.PruneRoutesAt | src/store/TBM/index.ts:80-85 | The pruning facts at one index, from the snapshot the callback sees. |
| Tbm.PruneAtRoute | src/store/TBM/index.ts:82-84 | A stop point never drops a route because of itself. |
| Tbm.PruneStepShape | src/store/TBM/index.ts:80 | The callback only filters `routes`. |
| Tbm.FetchStopAreaDetails | src/store/TBM/index.ts:61-94 | None iff the details fail. Otherwise the result is the stop itself plus its details, with only `stopPoints` changed, and those are the stop points kept by the first filter with their routes pruned by the `forEach`. |
| Tbm.PruneStopPoints | src/store/TBM/index.ts:66-86 | Both passes: one entry per kept stop point, in order, each equal to it but for `routes`, which is a sub-list of its routes. |
| Tbm.GroupMillis | src/store/TBM/index.ts:228 | A group's weight is non-negative, and 0 iff the group reads 0. |
| Tbm.ReduceGroupsZero | src/store/TBM/index.ts:228 | The `reduce` is 0 iff it starts at 0 and every group reads 0. |
| Tbm.ReduceGroups | src/store/TBM/index.ts:228 | The `reduce` never goes below its start, and adds at least the current group's weight. |
| Tbm.WaitTime | src/store/TBM/index.ts:225-228 | A wait time is positive. It is `Infinity` iff every two-digit group reads 0, which includes having no group. |
| Tbm.ClockGroups | src/store/TBM/index.ts:227 | The groups of "HH:MM:SS" are HH, MM and SS. |
| Tbm.WaitTimeOfClock | src/store/TBM/index.ts:225-228 | On "HH:MM:SS" the wait time is `(HH*3600 + MM*60 + SS)*1000`, or `Infinity` when that is 0. |
| Tbm.ClockMillisOfThree | src/store/TBM/index.ts:228 | Three groups weigh hours, minutes and seconds in milliseconds. |
| Tbm.ScheduleMillis | src/store/TBM/index.ts:284-287 | The time of day is non-negative, and `NaN` iff there is no two-digit group. |
| Tbm.HmsDiff | src/store/TBM/index.ts:289-293 | The difference, plus one day when negative. It lies in [0, one day) when both times of day do. |
| Tbm.Trunc | src/store/TBM/index.ts:297 | Rounds toward zero. |
| Tbm.TimeClip | src/store/TBM/index.ts:297 | `new Date(x).getTime()` is valid iff abs(x) is at most 8.64e15 ms, and is then x rounded toward zero. |
| Tbm.CutAtReference | src/store/TBM/index.ts:272-275 | Without the reference stop point the journey is whole. With it, the result is the suffix starting at its first occurrence, and the dropped prefix does not contain it. |
| Tbm.DepartureTime | src/store/TBM/index.ts:277-298 | `NaN` when the schedule has no group. For in-range times of day, the departure lies between the reference instant and one day later, and when that stays within the `Date` range it is exactly the reference instant plus the truncated `HMSdiff`. |
| Tbm.TimeJourney | src/store/TBM/index.ts:283-299 | One entry per entry of the cut journey, in order, each carrying its departure time. |
| Duration.Decompose | src/store/index.ts:236-252 | The components recompose `ms` exactly and each is below its radix: at most 11 months, 30 days, 23 hours, 59 minutes, 59 seconds. |
| Duration.DecomposeUnique | src/store/index.ts:238-252 | The floor-and-subtract steps give the only normal decomposition of `ms`. |
| Duration.NormalUnique | src/store/index.ts:238-252 | Two normal decompositions with the same total are equal. |
| Duration.DurationSign | src/store/index.ts:236 | The sign of `ms` is ignored. |
| Duration.Words | src/store/index.ts:255-259 | One word per shown component, in order. |
| Duration.RawIsSpaced | src/store/index.ts:255-259 | The template is each shown component's word followed by a space. |
| Duration.Duration | src/store/index.ts:235-260 | The output is the words of the non-zero components, largest first, seconds only if asked for, separated by single spaces. |
| Duration.DurationEnds | src/store/index.ts:255-259 | The output never ends with a space. It is empty iff there is no whole second, or no whole minute when seconds are left out. |
| Duration.SmallParts | src/store/index.ts:238-252 | Below a minute only seconds can be non-zero; below a second nothing is. |
| Duration.UnitOfWord | src/store/index.ts:240-253 | Every long-form unit word, singular or plural, names its unit. |
| Duration.ParseTokensRoundTrip | src/store/index.ts:255-259 | Number and unit-word tokens of positive components read back as the components. |
| Duration.LongFormReadsBack | src/store/index.ts:235-260 | The long form with seconds reads back as exactly the non-zero components with their units. Only the milliseconds below a second are lost. |

## Findings

| source | as written | input that shows it | evidently intended | confidence | as-written member | corrected member |
|---|---|---|---|---|---|---|
| src/store/StopsManager.ts:130 | the new area goes under the key `String(Object.keys(query).length + 1)` | query {"1": "A", "2": "B"}; `removeStopArea(A)` leaves {"2": "B"}; `addStop("C")` writes C over "2", so B stays selected but leaves the URL | the new name goes under a key not already in use, so no area already in the query is replaced | not executed | StopsManager.AddStopOverwritesSlot | StopsManager.AddStopFreshSlot |

## Left out

- HTTP, `encodeURI`, axios timeouts and errors: the two endpoints are the
  oracle functions of `Tbm.Api`. `fetchStopPointDetails`,
  `fetchLineDetails` and the request half of `fetchRouteRealtime` and
  `fetchVehicleJourney` only forward a response and are not modelled.
- Vue reactivity, the router itself and interleaved `await`s: each
  operation runs to completion on one state.
- Query values that vue-router gives as arrays or `null`: every value is a
  string here.
- `Date.now()`, `Date.parse` and the local time zone. `departure_delay` and
  `fetched` of real-time passes are left out. The reference time of day of
  `fetchVehicleJourney` is a parameter (`referenceDayMillis`) rather than
  computed from `getHours`, `getMinutes` and `getSeconds`.
- Floating point: `waittime`, the schedule times and `HMSdiff` are computed
  in exact reals. The rounding of IEEE doubles is not modelled.
- Duration.Decompose: `ms` is an integer number of milliseconds. Fractional
  milliseconds, `Infinity`, `NaN` and the rounding of `Math.sqrt(ms ** 2)`
  are not modelled.
- KeyOrder.NumericKeys: keys are compared by their exact `parseInt` value.
  The loss of precision of keys above 2^53 is not modelled.
- Text.ParseInt: the contract states only that a number needs some
  decimal digit in the input. The value read is stated for digit strings,
  by `Text.ParseIntDigits`; for signed, hexadecimal or padded keys it is
  given by the definition alone.
- ExclusionCodec.Suffix: the `stop_point:` prefix is dropped by length
  without checking it, as the source does. Ids with a different prefix are
  not treated specially.
- Strings are sequences of Unicode code points, while JavaScript's
  `length`, `substring`, `endsWith` and `split` count UTF-16 code units.
  The two agree on the ASCII ids (`stop_point:…`, `stop_area:…`), keys and
  separators the store handles; names outside the Basic Multilingual Plane
  are not modelled in code units.
- QueryUpdated: a push other than the last is stated only to lie between
  the final query and the router's, in the sub-list order; which keys it
  still holds is given by the definition of `VisitKeys` alone.
- `fetchRouteRealtime`'s concatenation of the destinations' lists is left
  out: it is a plain `reduce` with spread.
- The template strings of `duration` use the `y < Infinity` guard, which is
  always true for finite integers.

=== FILE: codec.dfy ===
/** The `eSP` query value (src/store/StopsManager.ts): a compact text form of
    the excluded (stop area, stop point) pairs. Each excluded stop area gives
    one group `<key>-<s1>-<s2>...`, where `<key>` is the query key whose value
    is the area's name and each `<sN>` a stop-point id without its
    `stop_point:` prefix; groups are joined with `,`. Decoding resolves the
    key against the current query and the area's stop points by suffix. */
module ExclusionCodec {
  import opened Wrappers
  import opened Text
  import opened Seqs
  import opened JsObject
  import opened Tbm

  /** An excluded stop point: (stop area id, stop point id). */
  type Exclusion = (string, string)

  /** `"stop_point:".length`. */
  const PrefixLength: nat := |"stop_point:"|

  /** `id.substring("stop_point:".length)`: drops the first 11 characters,
      whatever they are. */
  function Suffix(stopPointId: string): (s: string)
    ensures EndsWith(stopPointId, s)
    ensures |stopPointId| >= PrefixLength ==>
      |s| == |stopPointId| - PrefixLength && stopPointId == stopPointId[..PrefixLength] + s
    ensures |stopPointId| < PrefixLength ==> s == ""
  {
    SubstringFrom(stopPointId, PrefixLength)
  }

  function AreaIds(excluded: seq<Exclusion>): (ids: seq<string>)
    ensures |ids| == |excluded|
    ensures forall i :: 0 <= i < |ids| ==> ids[i] == excluded[i].0
  {
    seq(|excluded|, i requires 0 <= i < |excluded| => excluded[i].0)
  }

  /** `selected.find((s) => s.id === id)`. */
  function SelectedById(selected: seq<FullStopArea>, id: string): Option<FullStopArea> {
    Find((s: FullStopArea) => s.Id() == id, selected)
  }

  /** `selected.find((s) => s.name === name)`. */
  function SelectedByName(selected: seq<FullStopArea>, name: string): Option<FullStopArea> {
    Find((s: FullStopArea) => s.Name() == name, selected)
  }

  /** The exclusions of one stop area, in order. */
  function OfArea(excluded: seq<Exclusion>, areaId: string): (r: seq<Exclusion>)
    ensures forall e :: e in r <==> e in excluded && e.0 == areaId
  {
    Filter((e: Exclusion) => e.0 == areaId, excluded)
  }

  function Suffixes(excluded: seq<Exclusion>): (r: seq<string>)
    ensures |r| == |excluded|
    ensures forall i :: 0 <= i < |r| ==> r[i] == Suffix(excluded[i].1)
  {
    seq(|excluded|, i requires 0 <= i < |excluded| => Suffix(excluded[i].1))
  }

  /** The query key a stop area is encoded under, if it is selected and its
      name is the value of some key. */
  function KeyOfArea(excluded: seq<Exclusion>, selected: seq<FullStopArea>, query: Object, areaId: string): Option<string> {
    match SelectedById(selected, areaId)
    case None => None
    case Some(area) => KeyOfValue(query, area.Name())
  }

  /** The group strings for the area ids `ids`, in order, skipping areas that
      have no key. */
  function EncodeGroups(ids: seq<string>, excluded: seq<Exclusion>, selected: seq<FullStopArea>, query: Object): (r: seq<string>)
    ensures |r| <= |ids|
    ensures forall g :: g in r ==> '-' in g
    decreases |ids|
  {
    if |ids| == 0 then []
    else
      var rest := EncodeGroups(ids[1..], excluded, selected, query);
      match KeyOfArea(excluded, selected, query, ids[0])
      case None => rest
      case Some(key) =>
        var g := key + "-" + Join(Suffixes(OfArea(excluded, ids[0])), '-');
        assert g[|key|] == '-';
        [g] + rest
  }

  /** `serializeExcludedStopPoints`: the groups joined with `,`. Every group
      holds a `-`, so the encoding is empty exactly when no excluded area is
      selected with its name under a query key. */
  function Serialize(excluded: seq<Exclusion>, selected: seq<FullStopArea>, query: Object): (r: string)
    ensures r == "" <==> forall e :: e in excluded ==> KeyOfArea(excluded, selected, query, e.0).None?
  {
    var ids := FilterUnique(AreaIds(excluded));
    DistinctAreaIds(excluded);
    var groups := EncodeGroups(ids, excluded, selected, query);
    EncodeGroupsEmpty(ids, excluded, selected, query);
    assert |groups| > 0 ==> |Join(groups, ',')| > 0 by {
      if |groups| > 0 {
        assert '-' in groups[0];
        JoinNonEmpty(groups, ',');
      }
    }
    Join(groups, ',')
  }

  /** The distinct area ids are exactly the areas of the exclusions. */
  lemma DistinctAreaIds(excluded: seq<Exclusion>)
    ensures forall id :: id in FilterUnique(AreaIds(excluded)) <==> exists e :: e in excluded && e.0 == id
  {
    var ids := AreaIds(excluded);
    FilterUniqueFirstOccurrences(ids);
    forall id ensures id in ids <==> exists e :: e in excluded && e.0 == id {
      if id in ids {
        var i :| 0 <= i < |ids| && ids[i] == id;
        assert excluded[i] in excluded;
      }
      if e :| e in excluded && e.0 == id {
        var i :| 0 <= i < |excluded| && excluded[i] == e;
        assert ids[i] == id;
      }
    }
  }

  lemma {:induction false} EncodeGroupsEmpty(ids: seq<string>, excluded: seq<Exclusion>, selected: seq<FullStopArea>, query: Object)
    ensures |EncodeGroups(ids, excluded, selected, query)| == 0 <==>
      forall id :: id in ids ==> KeyOfArea(excluded, selected, query, id).None?
    decreases |ids|
  {
    if |ids| > 0 {
      EncodeGroupsEmpty(ids[1..], excluded, selected, query);
      assert forall id :: id in ids <==> id == ids[0] || id in ids[1..];
    }
  }

  lemma JoinNonEmpty(parts: seq<string>, c: char)
    requires |parts| > 0 && |parts[0]| > 0
    ensures |Join(parts, c)| > 0
  {
  }

  // ---------------------------------------------------------------------
  // Decoding

  /** Each token names the first stop point of `area` whose id ends with it;
      a token that matches none is dropped. */
  function DecodeTokens(area: FullStopArea, tokens: seq<string>): (r: seq<Exclusion>)
    ensures forall e :: e in r ==> e.0 == area.Id() && exists sp :: sp in area.details.stopPoints && sp.id == e.1
    ensures |r| <= |tokens|
    ensures |tokens| > 0 && StopPointOf(area, tokens[0]).Some? ==>
      |r| > 0 && r[0] == (area.Id(), StopPointOf(area, tokens[0]).value.id)
    ensures |tokens| > 0 && StopPointOf(area, tokens[0]).None? ==> r == DecodeTokens(area, tokens[1..])
    decreases |tokens|
  {
    if |tokens| == 0 then []
    else
      var rest := DecodeTokens(area, tokens[1..]);
      match StopPointOf(area, tokens[0])
      case None => rest
      case Some(sp) => [(area.Id(), sp.id)] + rest
  }

  /** The loop over the tokens is a fold: the tokens of `a + b` decode to
      the pairs of `a` followed by those of `b`. */
  lemma {:induction false} DecodeTokensConcat(area: FullStopArea, a: seq<string>, b: seq<string>)
    ensures DecodeTokens(area, a + b) == DecodeTokens(area, a) + DecodeTokens(area, b)
    decreases |a|
  {
    if |a| == 0 {
      assert a + b == b;
    } else {
      assert (a + b)[0] == a[0] && (a + b)[1..] == a[1..] + b;
      DecodeTokensConcat(area, a[1..], b);
    }
  }

  /** `stopArea.stopPoints.find((sp) => sp.id.endsWith(token))`. */
  function StopPointOf(area: FullStopArea, token: string): (r: Option<StopPoint>)
    ensures r.Some? ==> r.value in area.details.stopPoints && EndsWith(r.value.id, token)
    ensures r.Some? ==> exists i :: (0 <= i < |area.details.stopPoints| && area.details.stopPoints[i] == r.value
      && forall j :: 0 <= j < i ==> !EndsWith(area.details.stopPoints[j].id, token))
    ensures r.None? <==> forall sp :: sp in area.details.stopPoints ==> !EndsWith(sp.id, token)
  {
    Find((sp: StopPoint) => EndsWith(sp.id, token), area.details.stopPoints)
  }

  /** One `,`-separated segment: its leading digits are a query key whose
      value must be the name of a selected area; the `-`-separated tokens
      after the first are stop-point suffixes. */
  function DecodeSegment(segment: string, query: Object, selected: seq<FullStopArea>): (r: seq<Exclusion>)
    ensures LeadingDigits(segment) == "" ==> r == []
    ensures Get(query, LeadingDigits(segment)) in {None, Some("")} ==> r == []
    ensures (forall v :: Get(query, LeadingDigits(segment)) == Some(v) ==> SelectedByName(selected, v).None?) ==> r == []
    ensures forall e :: e in r ==>
      exists area :: area in selected && area.Id() == e.0 && area.Name() != "" && area.Name() in Values(query)
        && exists sp :: sp in area.details.stopPoints && sp.id == e.1
  {
    var key := LeadingDigits(segment);
    if key == "" then []
    else
      match Get(query, key)
      case None => []
      case Some(name) =>
        if name == "" then []
        else
          match SelectedByName(selected, name)
          case None => []
          case Some(area) =>
            assert (key, name) in query;
            var i :| 0 <= i < |query| && query[i] == (key, name);
            assert Values(query)[i] == name;
            DecodeTokens(area, Split(segment, '-')[1..])
  }

  function DecodeSegments(segments: seq<string>, query: Object, selected: seq<FullStopArea>): (r: seq<Exclusion>)
    ensures forall e :: e in r ==>
      exists area :: area in selected && area.Id() == e.0 && area.Name() != "" && area.Name() in Values(query)
        && exists sp :: sp in area.details.stopPoints && sp.id == e.1
    decreases |segments|
  {
    if |segments| == 0 then []
    else DecodeSegment(segments[0], query, selected) + DecodeSegments(segments[1..], query, selected)
  }

  /** `deserializeExcludedStopPoints`: never fails; every pair it yields names
      a selected area whose name is a query value, and one of its stop points. */
  function Deserialize(text: string, query: Object, selected: seq<FullStopArea>): (r: seq<Exclusion>)
    ensures text == "" ==> r == []
    ensures forall e :: e in r ==>
      exists area :: area in selected && area.Id() == e.0 && area.Name() != "" && area.Name() in Values(query)
        && exists sp :: sp in area.details.stopPoints && sp.id == e.1
  {
    if text == "" then
      assert Split(text, ',') == [""];
      assert DecodeSegment("", query, selected) == [];
      []
    else DecodeSegments(Split(text, ','), query, selected)
  }

  // ---------------------------------------------------------------------
  // Round trip

  /** The exclusions regrouped by stop area, areas in first-seen order. */
  function Regroup(excluded: seq<Exclusion>): seq<Exclusion> {
    RegroupIds(FilterUnique(AreaIds(excluded)), excluded)
  }

  function RegroupIds(ids: seq<string>, excluded: seq<Exclusion>): seq<Exclusion>
    decreases |ids|
  {
    if |ids| == 0 then [] else OfArea(excluded, ids[0]) + RegroupIds(ids[1..], excluded)
  }

  /** Regrouping only reorders: the same pairs, as many times each. */
  lemma RegroupPermutation(excluded: seq<Exclusion>)
    ensures multiset(Regroup(excluded)) == multiset(excluded)
  {
    var ids := FilterUnique(AreaIds(excluded));
    FilterUniqueFirstOccurrences(AreaIds(excluded));
    DistinctAreaIds(excluded);
    RegroupIdsCount(ids, excluded);
    forall x ensures multiset(Regroup(excluded))[x] == multiset(excluded)[x] {
      if x in excluded {
        assert x.0 in ids;
      } else {
        assert multiset(excluded)[x] == 0;
      }
    }
  }

  lemma {:induction false} RegroupIdsCount(ids: seq<string>, excluded: seq<Exclusion>)
    requires NoDup(ids)
    ensures forall x :: multiset(RegroupIds(ids, excluded))[x] == if x.0 in ids then multiset(excluded)[x] else 0
    decreases |ids|
  {
    if |ids| > 0 {
      assert NoDup(ids[1..]) by {
        forall i, j | 0 <= i < j < |ids[1..]| ensures ids[1..][i] != ids[1..][j] {
          assert ids[1..][i] == ids[i + 1] && ids[1..][j] == ids[j + 1];
        }
      }
      RegroupIdsCount(ids[1..], excluded);
      forall x ensures multiset(RegroupIds(ids, excluded))[x] == if x.0 in ids then multiset(excluded)[x] else 0 {
        assert x.0 in ids <==> x.0 == ids[0] || x.0 in ids[1..];
        if x.0 == ids[0] {
          assert ids[0] !in ids[1..];
        }
      }
    }
  }

  predicate NamesDistinct(selected: seq<FullStopArea>) {
    forall i, j :: 0 <= i < j < |selected| ==> selected[i].Name() != selected[j].Name()
  }

  /** What the encoding needs of one excluded pair to come back unchanged:
      its area is selected under a non-empty name that only digit keys hold,
      its stop point is one of the area's, and the stop point's suffix has no
      separator and is not the end of any other stop point id of the area. */
  predicate Recoverable(e: Exclusion, selected: seq<FullStopArea>, query: Object) {
    match SelectedById(selected, e.0)
    case None => false
    case Some(area) =>
      && area.Name() != ""
      && area.Name() in Values(query)
      && (forall i :: 0 <= i < |query| && query[i].1 == area.Name() ==> |query[i].0| > 0 && AllDigits(query[i].0))
      && (exists sp :: sp in area.details.stopPoints && sp.id == e.1)
      && (forall sp :: sp in area.details.stopPoints && EndsWith(sp.id, Suffix(e.1)) ==> sp.id == e.1)
      && '-' !in Suffix(e.1) && ',' !in Suffix(e.1)
  }

  /** Decoding the encoding gives back the exclusions, grouped by stop area in
      first-seen order, when selected names are distinct and every pair is
      recoverable. */
  lemma RoundTrip(excluded: seq<Exclusion>, selected: seq<FullStopArea>, query: Object)
    requires NamesDistinct(selected)
    requires forall e :: e in excluded ==> Recoverable(e, selected, query)
    ensures Deserialize(Serialize(excluded, selected, query), query, selected) == Regroup(excluded)
  {
    var ids := FilterUnique(AreaIds(excluded));
    DistinctAreaIds(excluded);
    var groups := EncodeGroups(ids, excluded, selected, query);
    GroupsRoundTrip(ids, excluded, selected, query);
    if |ids| == 0 {
      assert Serialize(excluded, selected, query) == "";
      assert Split("", ',') == [""];
      assert DecodeSegment("", query, selected) == [];
    } else {
      SplitJoin(groups, ',');
    }
  }

  /** Every id's group decodes to that area's exclusions, and no group holds a `,`. */
  lemma {:induction false} GroupsRoundTrip(ids: seq<string>, excluded: seq<Exclusion>, selected: seq<FullStopArea>, query: Object)
    requires NamesDistinct(selected)
    requires forall e :: e in excluded ==> Recoverable(e, selected, query)
    requires forall id :: id in ids ==> exists e :: e in excluded && e.0 == id
    ensures |EncodeGroups(ids, excluded, selected, query)| == |ids|
    ensures forall g :: g in EncodeGroups(ids, excluded, selected, query) ==> ',' !in g
    ensures DecodeSegments(EncodeGroups(ids, excluded, selected, query), query, selected) == RegroupIds(ids, excluded)
    decreases |ids|
  {
    if |ids| > 0 {
      assert forall id :: id in ids[1..] ==> id in ids;
      GroupsRoundTrip(ids[1..], excluded, selected, query);
      assert ids[0] in ids;
      var e :| e in excluded && e.0 == ids[0];
      GroupRoundTrip(ids[0], e, excluded, selected, query);
      var rest := EncodeGroups(ids[1..], excluded, selected, query);
      var g := KeyOfArea(excluded, selected, query, ids[0]).value + "-" + Join(Suffixes(OfArea(excluded, ids[0])), '-');
      var all := EncodeGroups(ids, excluded, selected, query);
      assert all == [g] + rest;
      assert all[1..] == rest;
      assert DecodeSegments(all, query, selected) == DecodeSegment(g, query, selected) + DecodeSegments(rest, query, selected);
    }
  }

  lemma GroupRoundTrip(id: string, e0: Exclusion, excluded: seq<Exclusion>, selected: seq<FullStopArea>, query: Object)
    requires NamesDistinct(selected)
    requires forall e :: e in excluded ==> Recoverable(e, selected, query)
    requires e0 in excluded && e0.0 == id
    ensures KeyOfArea(excluded, selected, query, id).Some?
    ensures var g := KeyOfArea(excluded, selected, query, id).value + "-" + Join(Suffixes(OfArea(excluded, id)), '-');
      ',' !in g && DecodeSegment(g, query, selected) == OfArea(excluded, id)
  {
    var area, key := AreaKey(e0, selected, query);
    var mine := OfArea(excluded, id);
    assert e0 in mine;
    var sufs := Suffixes(mine);
    SuffixesFree(mine, selected, query);
    GroupString(key, sufs);
    var g := key + "-" + Join(sufs, '-');
    SelectedByNameIsArea(selected, id, area);
    DecodeSegmentOf(g, key, area, query, selected);
    DecodeTokensRoundTrip(area, mine, selected, query);
  }

  /** The area and key a recoverable pair is encoded under. */
  lemma AreaKey(e: Exclusion, selected: seq<FullStopArea>, query: Object) returns (area: FullStopArea, key: string)
    requires Recoverable(e, selected, query)
    ensures SelectedById(selected, e.0) == Some(area)
    ensures KeyOfValue(query, area.Name()) == Some(key)
    ensures area.Name() != "" && |key| > 0 && AllDigits(key)
  {
    area := SelectedById(selected, e.0).value;
    key := KeyOfValue(query, area.Name()).value;
    var i :| 0 <= i < |query| && query[i] == (key, area.Name());
  }

  lemma SuffixesFree(mine: seq<Exclusion>, selected: seq<FullStopArea>, query: Object)
    requires forall e :: e in mine ==> Recoverable(e, selected, query)
    ensures forall j :: 0 <= j < |Suffixes(mine)| ==> '-' !in Suffixes(mine)[j] && ',' !in Suffixes(mine)[j]
  {
    forall j | 0 <= j < |mine| ensures '-' !in Suffix(mine[j].1) && ',' !in Suffix(mine[j].1) {
      assert mine[j] in mine;
      SuffixFree(mine[j], selected, query);
    }
  }

  lemma SuffixFree(e: Exclusion, selected: seq<FullStopArea>, query: Object)
    requires Recoverable(e, selected, query)
    ensures '-' !in Suffix(e.1) && ',' !in Suffix(e.1)
  {
  }

  lemma DecodeSegmentOf(g: string, key: string, area: FullStopArea, query: Object, selected: seq<FullStopArea>)
    requires LeadingDigits(g) == key && key != ""
    requires Get(query, key) == Some(area.Name()) && area.Name() != ""
    requires SelectedByName(selected, area.Name()) == Some(area)
    ensures DecodeSegment(g, query, selected) == DecodeTokens(area, Split(g, '-')[1..])
  {
  }

  /** A group reads back as its key and its suffixes. */
  lemma GroupString(key: string, sufs: seq<string>)
    requires |key| > 0 && AllDigits(key)
    requires |sufs| > 0
    requires forall j :: 0 <= j < |sufs| ==> '-' !in sufs[j] && ',' !in sufs[j]
    ensures ',' !in key + "-" + Join(sufs, '-')
    ensures LeadingDigits(key + "-" + Join(sufs, '-')) == key
    ensures Split(key + "-" + Join(sufs, '-'), '-')[1..] == sufs
  {
    DigitsFree(key);
    JoinFreeOf(sufs, '-', ',');
    GroupLeading(key, Join(sufs, '-'));
    GroupSplit(key, sufs);
  }

  lemma GroupLeading(key: string, tail: string)
    requires AllDigits(key)
    ensures LeadingDigits(key + "-" + tail) == key
  {
    LeadingDigitsOfDigitsThen(key, "-" + tail);
    assert key + "-" + tail == key + ("-" + tail);
  }

  lemma GroupSplit(key: string, sufs: seq<string>)
    requires AllDigits(key)
    requires |sufs| > 0
    requires forall j :: 0 <= j < |sufs| ==> '-' !in sufs[j]
    ensures Split(key + "-" + Join(sufs, '-'), '-')[1..] == sufs
  {
    DigitsFree(key);
    var parts := [key] + sufs;
    JoinCons(key, sufs, '-');
    assert parts[1..] == sufs;
    SplitJoinParts(parts);
  }

  lemma DigitsFree(key: string)
    requires AllDigits(key)
    ensures ',' !in key && '-' !in key
  {
  }

  lemma SplitJoinParts(parts: seq<string>)
    requires |parts| >= 1
    requires forall j :: 0 <= j < |parts| ==> '-' !in parts[j]
    ensures Split(Join(parts, '-'), '-')[1..] == parts[1..]
  {
    SplitJoin(parts, '-');
  }

  lemma SelectedByNameIsArea(selected: seq<FullStopArea>, id: string, area: FullStopArea)
    requires NamesDistinct(selected)
    requires SelectedById(selected, id) == Some(area)
    ensures SelectedByName(selected, area.Name()) == Some(area)
  {
    var k := FindIndex((s: FullStopArea) => s.Id() == id, selected).value;
    var j := FindIndex((s: FullStopArea) => s.Name() == area.Name(), selected);
    assert selected[k] == area;
    assert j.Some?;
  }

  lemma {:induction false} DecodeTokensRoundTrip(area: FullStopArea, mine: seq<Exclusion>, selected: seq<FullStopArea>, query: Object)
    requires forall e :: e in mine ==> e.0 == area.Id() && Recoverable(e, selected, query)
    requires SelectedById(selected, area.Id()) == Some(area)
    ensures DecodeTokens(area, Suffixes(mine)) == mine
    decreases |mine|
  {
    if |mine| > 0 {
      var e := mine[0];
      assert e in mine;
      assert Suffixes(mine)[1..] == Suffixes(mine[1..]);
      assert forall x :: x in mine[1..] ==> x in mine;
      DecodeTokensRoundTrip(area, mine[1..], selected, query);
      StopPointOfSuffix(area, e, selected, query);
    }
  }

  /** A recoverable pair's suffix finds its own stop point again. */
  lemma StopPointOfSuffix(area: FullStopArea, e: Exclusion, selected: seq<FullStopArea>, query: Object)
    requires e.0 == area.Id() && Recoverable(e, selected, query)
    requires SelectedById(selected, area.Id()) == Some(area)
    ensures StopPointOf(area, Suffix(e.1)).Some? && StopPointOf(area, Suffix(e.1)).value.id == e.1
  {
    var sp0 :| sp0 in area.details.stopPoints && sp0.id == e.1;
    assert EndsWith(sp0.id, Suffix(e.1));
  }
}

=== FILE: duration.dfy ===
/** `duration` (src/store/index.ts): a millisecond count written as French
    years, months, days, hours, minutes and seconds, in a long form
    ("1 an 2 mois 3 jours") or a short one ("1a 2mo 3j"). The divisors are
    fixed: a year is 365.2425 days and a month a twelfth of that. */
module Duration {
  import opened Wrappers
  import opened Text

  const YearMs: nat := 31556952000
  const MonthMs: nat := 2629746000
  const DayMs: nat := 3600000 * 24
  const HourMs: nat := 3600000
  const MinuteMs: nat := 60000
  const SecondMs: nat := 1000

  datatype Parts = Parts(years: nat, months: nat, days: nat, hours: nat, minutes: nat, seconds: nat, rest: nat)

  function Total(p: Parts): nat {
    p.years * YearMs + p.months * MonthMs + p.days * DayMs + p.hours * HourMs
      + p.minutes * MinuteMs + p.seconds * SecondMs + p.rest
  }

  /** Mixed radix: what follows each component is less than its unit. */
  predicate Normal(p: Parts) {
    && p.rest < SecondMs
    && p.seconds * SecondMs + p.rest < MinuteMs
    && p.minutes * MinuteMs + p.seconds * SecondMs + p.rest < HourMs
    && p.hours * HourMs + p.minutes * MinuteMs + p.seconds * SecondMs + p.rest < DayMs
    && p.days * DayMs + p.hours * HourMs + p.minutes * MinuteMs + p.seconds * SecondMs + p.rest < MonthMs
    && p.months * MonthMs + p.days * DayMs + p.hours * HourMs + p.minutes * MinuteMs + p.seconds * SecondMs + p.rest < YearMs
  }

  /** The successive `Math.floor(ms / unit)` and `ms -= ... * unit` steps. */
  function Decompose(ms: nat): (p: Parts)
    ensures Total(p) == ms && Normal(p)
    ensures p.months <= 11 && p.days <= 30 && p.hours <= 23 && p.minutes <= 59 && p.seconds <= 59
  {
    var y := ms / YearMs;
    var r1 := ms - y * YearMs;
    var mo := r1 / MonthMs;
    var r2 := r1 - mo * MonthMs;
    var d := r2 / DayMs;
    var r3 := r2 - d * DayMs;
    var h := r3 / HourMs;
    var r4 := r3 - h * HourMs;
    var mi := r4 / MinuteMs;
    var r5 := r4 - mi * MinuteMs;
    var s := r5 / SecondMs;
    Parts(y, mo, d, h, mi, s, r5 - s * SecondMs)
  }

  /** The decomposition is the only normal one with that total. */
  lemma DecomposeUnique(ms: nat, p: Parts)
    requires Total(p) == ms && Normal(p)
    ensures p == Decompose(ms)
  {
    NormalUnique(p, Decompose(ms));
  }

  lemma NormalUnique(p: Parts, q: Parts)
    requires Total(p) == Total(q) && Normal(p) && Normal(q)
    ensures p == q
  {
    HighUnique(p, q);
    LowUnique(p, q);
  }

  /** What is left below a day, below a month and below a year. */
  function BelowDay(p: Parts): nat {
    p.hours * HourMs + p.minutes * MinuteMs + p.seconds * SecondMs + p.rest
  }

  function BelowMonth(p: Parts): nat {
    p.days * DayMs + BelowDay(p)
  }

  function BelowYear(p: Parts): nat {
    p.months * MonthMs + BelowMonth(p)
  }

  /** Years, months and days. */
  lemma HighUnique(p: Parts, q: Parts)
    requires Total(p) == Total(q) && Normal(p) && Normal(q)
    ensures p.years == q.years && p.months == q.months && p.days == q.days
    ensures BelowDay(p) == BelowDay(q)
  {
    assert Total(p) == p.years * YearMs + BelowYear(p);
    assert Total(q) == q.years * YearMs + BelowYear(q);
    assert BelowYear(p) < YearMs && BelowYear(q) < YearMs;
    DivStep(p.years, BelowYear(p), q.years, BelowYear(q), YearMs);
    assert BelowMonth(p) < MonthMs && BelowMonth(q) < MonthMs;
    DivStep(p.months, BelowMonth(p), q.months, BelowMonth(q), MonthMs);
    assert BelowDay(p) < DayMs && BelowDay(q) < DayMs;
    DivStep(p.days, BelowDay(p), q.days, BelowDay(q), DayMs);
  }

  /** Below a day: hours, minutes, seconds and the rest. */
  lemma LowUnique(p: Parts, q: Parts)
    requires Normal(p) && Normal(q)
    requires BelowDay(p) == BelowDay(q)
    ensures p.hours == q.hours && p.minutes == q.minutes && p.seconds == q.seconds && p.rest == q.rest
  {
    var p4 := p.minutes * MinuteMs + p.seconds * SecondMs + p.rest;
    var q4 := q.minutes * MinuteMs + q.seconds * SecondMs + q.rest;
    DivStep(p.hours, p4, q.hours, q4, HourMs);
    DivStep(p.minutes, p.seconds * SecondMs + p.rest, q.minutes, q.seconds * SecondMs + q.rest, MinuteMs);
    DivStep(p.seconds, p.rest, q.seconds, q.rest, SecondMs);
  }

  /** A quotient and remainder below the divisor are determined by the sum. */
  lemma DivStep(a: nat, r: nat, b: nat, s: nat, u: nat)
    requires r < u && s < u && a * u + r == b * u + s
    ensures a == b && r == s
  {
    MulStrict(a, b, u);
    MulStrict(b, a, u);
  }

  lemma MulStrict(a: nat, b: nat, u: nat)
    ensures a < b ==> a * u + u <= b * u
  {
    if a < b {
      var d := b - a - 1;
      assert b * u == a * u + u + d * u;
    }
  }

  function Abs(x: int): nat {
    if x < 0 then -x else x
  }

  // ---------------------------------------------------------------------
  // Rendering

  datatype Unit = Year | Month | Day | Hour | Minute | Second

  /** The long-form unit word: `s` is added above one, except to `mois`. */
  function UnitWord(u: Unit, n: nat): string {
    match u
    case Year => if n > 1 then "ans" else "an"
    case Month => "mois"
    case Day => if n > 1 then "jours" else "jour"
    case Hour => if n > 1 then "heures" else "heure"
    case Minute => if n > 1 then "minutes" else "minute"
    case Second => if n > 1 then "secondes" else "seconde"
  }

  /** What follows the number: a space and the unit word in long form; `a`,
      `mo`, `j`, `h`, ` min[s]`, `s` in short form. */
  function UnitText(u: Unit, n: nat, short: bool): string {
    if !short then " " + UnitWord(u, n)
    else
      match u
      case Year => "a"
      case Month => "mo"
      case Day => "j"
      case Hour => "h"
      case Minute => if n > 1 then " mins" else " min"
      case Second => "s"
  }

  /** One template slot: the number, its unit and a space, or nothing for 0. */
  function Piece(n: nat, u: Unit, short: bool): string {
    if n > 0 then NatToString(n) + UnitText(u, n, short) + " " else ""
  }

  /** `.replace(/ $/g, "")`: drops one trailing space. */
  function DropTrailingSpace(s: string): string {
    if |s| > 0 && s[|s| - 1] == ' ' then s[..|s| - 1] else s
  }

  /** The template literal before the trailing space is dropped. */
  function Raw(p: Parts, includeSec: bool, short: bool): string {
    Piece(p.years, Year, short) + Piece(p.months, Month, short) + Piece(p.days, Day, short)
      + Piece(p.hours, Hour, short) + Piece(p.minutes, Minute, short)
      + (if includeSec then Piece(p.seconds, Second, short) else "")
  }

  /** `duration(ms, includeSec, short)`: the shown components' words
      separated by single spaces. */
  function Duration(ms: int, includeSec: bool, short: bool): (r: string)
    ensures r == Join(Words(Items(Decompose(Abs(ms)), includeSec), short), ' ')
  {
    var p := Decompose(Abs(ms));
    RawIsSpaced(p, includeSec, short);
    var ws := Words(Items(p, includeSec), short);
    SpacedIsJoin(ws);
    assert |ws| > 0 ==> (Join(ws, ' ') + " ")[..|Join(ws, ' ')|] == Join(ws, ' ');
    DropTrailingSpace(Raw(p, includeSec, short))
  }

  /** `Math.sqrt(ms ** 2)`: the sign is ignored. */
  lemma DurationSign(ms: int, includeSec: bool, short: bool)
    ensures Duration(-ms, includeSec, short) == Duration(ms, includeSec, short)
  {
  }

  // ---------------------------------------------------------------------
  // What the output says

  /** The components the output shows, largest first: the non-zero ones,
      seconds only when asked for. */
  function Items(p: Parts, includeSec: bool): seq<(nat, Unit)> {
    Item(p.years, Year) + Item(p.months, Month) + Item(p.days, Day) + Item(p.hours, Hour)
      + Item(p.minutes, Minute) + (if includeSec then Item(p.seconds, Second) else [])
  }

  function Item(n: nat, u: Unit): seq<(nat, Unit)> {
    if n > 0 then [(n, u)] else []
  }

  function Word(item: (nat, Unit), short: bool): string {
    NatToString(item.0) + UnitText(item.1, item.0, short)
  }

  function Words(items: seq<(nat, Unit)>, short: bool): (ws: seq<string>)
    ensures |ws| == |items|
    ensures forall i :: 0 <= i < |items| ==> ws[i] == Word(items[i], short)
    decreases |items|
  {
    if |items| == 0 then [] else [Word(items[0], short)] + Words(items[1..], short)
  }

  /** Each word followed by a space. */
  function Spaced(ws: seq<string>): string
    decreases |ws|
  {
    if |ws| == 0 then "" else ws[0] + " " + Spaced(ws[1..])
  }

  lemma {:induction false} SpacedConcat(a: seq<string>, b: seq<string>)
    ensures Spaced(a + b) == Spaced(a) + Spaced(b)
    decreases |a|
  {
    if |a| == 0 {
      assert a + b == b;
    } else {
      assert (a + b)[1..] == a[1..] + b;
      SpacedConcat(a[1..], b);
    }
  }

  lemma {:induction false} SpacedIsJoin(ws: seq<string>)
    ensures |ws| > 0 ==> Spaced(ws) == Join(ws, ' ') + " "
    decreases |ws|
  {
    if |ws| > 1 {
      SpacedIsJoin(ws[1..]);
    }
  }

  lemma WordsConcat(a: seq<(nat, Unit)>, b: seq<(nat, Unit)>, short: bool)
    ensures Words(a + b, short) == Words(a, short) + Words(b, short)
  {
  }

  lemma PieceIsSpaced(n: nat, u: Unit, short: bool)
    ensures Piece(n, u, short) == Spaced(Words(Item(n, u), short))
  {
  }

  /** Appending one slot to the template appends its word to the list. */
  lemma SlotStep(a: seq<(nat, Unit)>, n: nat, u: Unit, short: bool)
    ensures Spaced(Words(a + Item(n, u), short)) == Spaced(Words(a, short)) + Piece(n, u, short)
  {
    WordsConcat(a, Item(n, u), short);
    SpacedConcat(Words(a, short), Words(Item(n, u), short));
    PieceIsSpaced(n, u, short);
  }

  lemma RawIsSpaced(p: Parts, includeSec: bool, short: bool)
    ensures Raw(p, includeSec, short) == Spaced(Words(Items(p, includeSec), short))
  {
    var i1 := Item(p.years, Year);
    PieceIsSpaced(p.years, Year, short);
    SlotStep(i1, p.months, Month, short);
    var i2 := i1 + Item(p.months, Month);
    SlotStep(i2, p.days, Day, short);
    var i3 := i2 + Item(p.days, Day);
    SlotStep(i3, p.hours, Hour, short);
    var i4 := i3 + Item(p.hours, Hour);
    SlotStep(i4, p.minutes, Minute, short);
    var i5 := i4 + Item(p.minutes, Minute);
    if includeSec {
      SlotStep(i5, p.seconds, Second, short);
    } else {
      assert i5 + [] == i5;
    }
  }

  /** Every word ends with a letter. */
  lemma WordEnd(item: (nat, Unit), short: bool)
    ensures |Word(item, short)| > 0 && Word(item, short)[|Word(item, short)| - 1] != ' '
  {
    var u := UnitText(item.1, item.0, short);
    assert |u| > 0 && u[|u| - 1] != ' ';
    assert Word(item, short)[|Word(item, short)| - 1] == u[|u| - 1];
  }

  lemma {:induction false} JoinEnd(ws: seq<string>, c: char)
    requires |ws| > 0 && forall i :: 0 <= i < |ws| ==> |ws[i]| > 0 && ws[i][|ws[i]| - 1] != c
    ensures |Join(ws, c)| > 0 && Join(ws, c)[|Join(ws, c)| - 1] != c
    decreases |ws|
  {
    if |ws| > 1 {
      JoinEnd(ws[1..], c);
    }
  }

  /** The output never ends with a space, and it is empty exactly when there
      is no whole second to show, or no whole minute when seconds are left out. */
  lemma DurationEnds(ms: int, includeSec: bool, short: bool)
    ensures var r := Duration(ms, includeSec, short);
      (|r| == 0 || r[|r| - 1] != ' ')
      && (r == "" <==> Abs(ms) < SecondMs || (!includeSec && Abs(ms) < MinuteMs))
  {
    var p := Decompose(Abs(ms));
    var ws := Words(Items(p, includeSec), short);
    assert Duration(ms, includeSec, short) == Join(ws, ' ');
    if |ws| > 0 {
      forall i | 0 <= i < |ws| ensures |ws[i]| > 0 && ws[i][|ws[i]| - 1] != ' ' {
        WordEnd(Items(p, includeSec)[i], short);
      }
      JoinEnd(ws, ' ');
    }
    ItemsEmpty(p, includeSec);
    SmallParts(Abs(ms));
  }

  lemma ItemsEmpty(p: Parts, includeSec: bool)
    ensures |Items(p, includeSec)| == 0 <==>
      (p.years == 0 && p.months == 0 && p.days == 0 && p.hours == 0 && p.minutes == 0
       && (!includeSec || p.seconds == 0))
  {
  }

  /** Below a minute only seconds can be non-zero; below a second nothing. */
  lemma SmallParts(ms: nat)
    ensures var p := Decompose(ms);
      && (ms < MinuteMs <==> p.years == 0 && p.months == 0 && p.days == 0 && p.hours == 0 && p.minutes == 0)
      && (ms < SecondMs <==> p.years == 0 && p.months == 0 && p.days == 0 && p.hours == 0 && p.minutes == 0 && p.seconds == 0)
  {
    SmallPartsOf(Decompose(ms));
  }

  lemma SmallPartsOf(p: Parts)
    requires Normal(p)
    ensures Total(p) < MinuteMs <==> p.years == 0 && p.months == 0 && p.days == 0 && p.hours == 0 && p.minutes == 0
    ensures Total(p) < SecondMs <==> p.years == 0 && p.months == 0 && p.days == 0 && p.hours == 0 && p.minutes == 0 && p.seconds == 0
  {
    MulAtLeast(p.years, YearMs);
    MulAtLeast(p.months, MonthMs);
    MulAtLeast(p.days, DayMs);
    MulAtLeast(p.hours, HourMs);
    MulAtLeast(p.minutes, MinuteMs);
    MulAtLeast(p.seconds, SecondMs);
  }

  lemma MulAtLeast(a: nat, u: nat)
    ensures a > 0 ==> a * u >= u
  {
    MulStrict(0, a, u);
  }

  // ---------------------------------------------------------------------
  // Reading the long form back

  /** Long-form words as separate tokens: each number, then its unit word. */
  function Tokens(items: seq<(nat, Unit)>): seq<string>
    decreases |items|
  {
    if |items| == 0 then [] else [NatToString(items[0].0), UnitWord(items[0].1, items[0].0)] + Tokens(items[1..])
  }

  function UnitOf(word: string): Option<Unit> {
    if word in {"an", "ans"} then Some(Year)
    else if word == "mois" then Some(Month)
    else if word in {"jour", "jours"} then Some(Day)
    else if word in {"heure", "heures"} then Some(Hour)
    else if word in {"minute", "minutes"} then Some(Minute)
    else if word in {"seconde", "secondes"} then Some(Second)
    else None
  }

  /** Number, unit word, number, unit word, ... */
  function ParseTokens(tokens: seq<string>): Option<seq<(nat, Unit)>>
    decreases |tokens|
  {
    if |tokens| == 0 then Some([])
    else if |tokens| == 1 || !Canonical(tokens[0]) then None
    else
      match UnitOf(tokens[1])
      case None => None
      case Some(u) =>
        match ParseTokens(tokens[2..])
        case None => None
        case Some(rest) => Some([(DecimalValue(tokens[0]), u)] + rest)
  }

  /** Reads a long-form duration as its list of (count, unit). */
  function ParseLong(text: string): Option<seq<(nat, Unit)>> {
    if text == "" then Some([]) else ParseTokens(Split(text, ' '))
  }

  lemma {:induction false} JoinWordsIsJoinTokens(items: seq<(nat, Unit)>)
    ensures Join(Words(items, false), ' ') == Join(Tokens(items), ' ')
    decreases |items|
  {
    if |items| > 0 {
      var n, w := NatToString(items[0].0), UnitWord(items[0].1, items[0].0);
      assert Word(items[0], false) == n + " " + w;
      var rest := items[1..];
      JoinWordsIsJoinTokens(rest);
      assert Words(items, false) == [n + " " + w] + Words(rest, false);
      assert Tokens(items) == [n, w] + Tokens(rest);
      JoinPairStep(n, w, Words(rest, false), Tokens(rest));
    }
  }

  /** A word "n w" joins like the two tokens n and w. */
  lemma JoinPairStep(n: string, w: string, words: seq<string>, tokens: seq<string>)
    requires Join(words, ' ') == Join(tokens, ' ')
    requires |words| == 0 <==> |tokens| == 0
    ensures Join([n + " " + w] + words, ' ') == Join([n, w] + tokens, ' ')
  {
    if |words| == 0 {
      JoinPairLast(n, w, words, tokens);
    } else {
      JoinPairMore(n, w, words, tokens);
    }
  }

  lemma JoinPairLast(n: string, w: string, words: seq<string>, tokens: seq<string>)
    requires |words| == 0 && |tokens| == 0
    ensures Join([n + " " + w] + words, ' ') == Join([n, w] + tokens, ' ')
  {
    assert [n + " " + w] + words == [n + " " + w];
    assert [n, w] + tokens == [n, w];
    assert [n, w][1..] == [w];
  }

  lemma JoinPairMore(n: string, w: string, words: seq<string>, tokens: seq<string>)
    requires Join(words, ' ') == Join(tokens, ' ')
    requires |words| > 0 && |tokens| > 0
    ensures Join([n + " " + w] + words, ' ') == Join([n, w] + tokens, ' ')
  {
    var j := Join(tokens, ' ');
    JoinCons(n + " " + w, words, ' ');
    assert [n, w] + tokens == [n] + ([w] + tokens);
    JoinCons(n, [w] + tokens, ' ');
    JoinCons(w, tokens, ' ');
    assert n + " " + w + [' '] + j == n + [' '] + (w + [' '] + j);
  }

  lemma {:induction false} TokensFree(items: seq<(nat, Unit)>)
    ensures forall i :: 0 <= i < |Tokens(items)| ==> ' ' !in Tokens(items)[i]
    decreases |items|
  {
    if |items| > 0 {
      TokensFree(items[1..]);
      NatToStringCanonical(items[0].0);
      var t := Tokens(items);
      assert t == [NatToString(items[0].0), UnitWord(items[0].1, items[0].0)] + Tokens(items[1..]);
      assert forall i :: 2 <= i < |t| ==> t[i] == Tokens(items[1..])[i - 2];
    }
  }

  lemma UnitOfWord(u: Unit, n: nat)
    ensures UnitOf(UnitWord(u, n)) == Some(u)
  {
  }

  lemma {:induction false} ParseTokensRoundTrip(items: seq<(nat, Unit)>)
    requires forall i :: 0 <= i < |items| ==> items[i].0 > 0
    ensures ParseTokens(Tokens(items)) == Some(items)
    decreases |items|
  {
    if |items| > 0 {
      var n, u := items[0].0, items[0].1;
      NatToStringCanonical(n);
      var t := Tokens(items);
      assert t == [NatToString(n), UnitWord(u, n)] + Tokens(items[1..]);
      assert t[0] == NatToString(n) && t[1] == UnitWord(u, n);
      assert t[2..] == Tokens(items[1..]);
      ParseTokensRoundTrip(items[1..]);
      UnitOfWord(u, n);
      assert items == [(n, u)] + items[1..];
    }
  }

  /** The long form, seconds included, reads back as exactly the non-zero
      components with their units, largest first: nothing but the
      milliseconds below a second is lost. */
  lemma LongFormReadsBack(ms: int)
    ensures ParseLong(Duration(ms, true, false)) == Some(Items(Decompose(Abs(ms)), true))
  {
    var items := Items(Decompose(Abs(ms)), true);
    ItemsPositive(Decompose(Abs(ms)), true);
    ParseLongJoin(items);
  }

  lemma ItemsPositive(p: Parts, includeSec: bool)
    ensures forall i :: 0 <= i < |Items(p, includeSec)| ==> Items(p, includeSec)[i].0 > 0
  {
  }

  lemma ParseLongJoin(items: seq<(nat, Unit)>)
    requires forall i :: 0 <= i < |items| ==> items[i].0 > 0
    ensures ParseLong(Join(Words(items, false), ' ')) == Some(items)
  {
    JoinWordsIsJoinTokens(items);
    ParseTokensRoundTrip(items);
    if |items| > 0 {
      TokensFree(items);
      SplitJoin(Tokens(items), ' ');
      WordEnd(items[0], false);
      JoinNonEmptyFirst(Words(items, false), ' ');
    }
  }

  lemma JoinNonEmptyFirst(ws: seq<string>, c: char)
    requires |ws| > 0 && |ws[0]| > 0
    ensures Join(ws, c) != ""
  {
  }
}

=== FILE: jsobject.dfy ===
/** The URL query as the store holds it: a plain JavaScript object from
    string keys to string values. An object is an ordered list of entries
    with distinct keys, listed in JavaScript's enumeration order: canonical
    array-index keys ("0", "1", "12", ...) first, in ascending numeric order,
    then every other key in insertion order. `Object.keys`, `Object.keys(..).find`
    and `forEach` all walk that order. */
module JsObject {
  import opened Wrappers
  import opened Text
  import opened Seqs

  type Entry = (string, string)

  /** A key JavaScript treats as an array index: a canonical numeral below 2^32 - 1. */
  predicate IsArrayIndex(k: string) {
    Canonical(k) && DecimalValue(k) < 4294967295
  }

  /** The enumeration order between an earlier and a later entry. */
  predicate InOrder(e: Entry, f: Entry) {
    && e.0 != f.0
    && (IsArrayIndex(f.0) ==> IsArrayIndex(e.0) && DecimalValue(e.0) < DecimalValue(f.0))
  }

  predicate Valid(q: seq<Entry>) {
    forall i, j :: 0 <= i < j < |q| ==> InOrder(q[i], q[j])
  }

  type Object = q: seq<Entry> | Valid(q) witness []

  lemma SubseqValid(a: seq<Entry>, b: seq<Entry>)
    requires IsSubseq(a, b) && Valid(b)
    ensures Valid(a)
  {
    SubseqPairwise(a, b, InOrder);
  }

  /** `Object.keys(q)`. */
  function Keys(q: Object): (ks: seq<string>)
    ensures |ks| == |q|
    ensures forall i :: 0 <= i < |q| ==> ks[i] == q[i].0
  {
    seq(|q|, i requires 0 <= i < |q| => q[i].0)
  }

  /** `Object.keys(q).map((k) => q[k])`. */
  function Values(q: Object): (vs: seq<string>)
    ensures |vs| == |q|
    ensures forall i :: 0 <= i < |q| ==> vs[i] == q[i].1
  {
    seq(|q|, i requires 0 <= i < |q| => q[i].1)
  }

  predicate HasKey(q: Object, k: string) {
    exists i :: 0 <= i < |q| && q[i].0 == k
  }

  /** `q[k]`, None standing for `undefined`. */
  function Get(q: Object, k: string): (r: Option<string>)
    ensures r.Some? <==> HasKey(q, k)
    ensures forall v :: r == Some(v) <==> (k, v) in q
    decreases |q|
  {
    if |q| == 0 then None
    else if q[0].0 == k then Some(q[0].1)
    else
      assert Valid(q[1..]);
      assert forall e :: e in q[1..] ==> e in q;
      Get(q[1..], k)
  }

  /** `Object.keys(q).find((k) => q[k] === v)`: the first key, in enumeration
      order, whose value is `v`. */
  function KeyOfValue(q: Object, v: string): (r: Option<string>)
    ensures r.Some? ==> Get(q, r.value) == Some(v)
    ensures r.None? <==> v !in Values(q)
    ensures r.Some? ==> exists i :: (0 <= i < |q| && q[i] == (r.value, v)
      && forall j :: 0 <= j < i ==> q[j].1 != v)
  {
    match FindIndex((e: Entry) => e.1 == v, q)
    case None => None
    case Some(i) => Some(q[i].0)
  }

  /** Where JavaScript places a new array-index key: before the first entry
      that is not an array index or has a larger index. */
  function IndexSlot(q: Object, k: string): (p: nat)
    requires IsArrayIndex(k)
    ensures p <= |q|
    ensures forall i :: 0 <= i < p ==> IsArrayIndex(q[i].0) && DecimalValue(q[i].0) <= DecimalValue(k)
    ensures p < |q| ==> !IsArrayIndex(q[p].0) || DecimalValue(q[p].0) > DecimalValue(k)
  {
    match FindIndex((e: Entry) => !IsArrayIndex(e.0) || DecimalValue(e.0) > DecimalValue(k), q)
    case None => |q|
    case Some(p) => p
  }

  lemma InsertValid(q: Object, k: string, v: string)
    requires !HasKey(q, k)
    ensures IsArrayIndex(k) ==> Valid(q[..IndexSlot(q, k)] + [(k, v)] + q[IndexSlot(q, k)..])
    ensures !IsArrayIndex(k) ==> Valid(q + [(k, v)])
  {
    if IsArrayIndex(k) {
      var p := IndexSlot(q, k);
      var r := q[..p] + [(k, v)] + q[p..];
      forall i | 0 <= i < p ensures InOrder(q[i], (k, v)) {
        if DecimalValue(q[i].0) == DecimalValue(k) {
          CanonicalInjective(q[i].0, k);
          assert false;
        }
      }
      forall j | p <= j < |q| ensures InOrder((k, v), q[j]) {
        if IsArrayIndex(q[j].0) && j > p {
          assert InOrder(q[p], q[j]);
        }
      }
      forall i, j | 0 <= i < j < |r| ensures InOrder(r[i], r[j]) {
        if i < p && j < p {
          assert r[i] == q[i] && r[j] == q[j];
        } else if i < p && j == p {
        } else if i < p {
          assert r[i] == q[i] && r[j] == q[j - 1];
        } else if i == p {
          assert r[j] == q[j - 1];
        } else {
          assert r[i] == q[i - 1] && r[j] == q[j - 1];
        }
      }
    } else {
      var r := q + [(k, v)];
      forall i, j | 0 <= i < j < |r| ensures InOrder(r[i], r[j]) {
        if j == |q| {
          assert r[i] == q[i];
        }
      }
    }
  }

  /** Two objects agree on `k` when they hold the same entries for `k`. */
  lemma GetFromEntries(q: Object, r: Object, k: string)
    requires forall v :: (k, v) in r <==> (k, v) in q
    ensures Get(r, k) == Get(q, k)
  {
    if Get(q, k).Some? {
      assert (k, Get(q, k).value) in r;
    }
  }

  /** Overwrites the value of an existing key in place. */
  function Replace(q: Object, k: string, v: string): (r: Object)
    requires HasKey(q, k)
    ensures Keys(r) == Keys(q)
    ensures forall e :: e in r <==> (e in q && e.0 != k) || e == (k, v)
  {
    var r := seq(|q|, i requires 0 <= i < |q| => if q[i].0 == k then (k, v) else q[i]);
    assert forall i, j :: 0 <= i < j < |r| ==> InOrder(q[i], q[j]) ==> InOrder(r[i], r[j]);
    var i :| 0 <= i < |q| && q[i].0 == k;
    assert r[i] == (k, v);
    r
  }

  /** Overwriting `k` leaves every other entry where it was. */
  lemma ReplaceFrame(q: Object, k: string, v: string)
    requires HasKey(q, k)
    ensures Delete(Replace(q, k, v), k) == Delete(q, k)
  {
    DeleteAgrees(Replace(q, k, v), q, k);
  }

  /** Objects with the same keys in the same places that differ only in the
      value of `k` agree once `k` is deleted. */
  lemma DeleteAgrees(a: Object, b: Object, k: string)
    requires |a| == |b|
    requires forall i :: 0 <= i < |a| ==> a[i].0 == b[i].0 && (a[i].0 != k ==> a[i] == b[i])
    ensures Delete(a, k) == Delete(b, k)
  {
    FilterPointwise(KeyIsNot(k), a, b);
  }

  /** Adds an entry for a key that is not there yet, where JavaScript puts it. */
  function Insert(q: Object, k: string, v: string): (r: Object)
    requires !HasKey(q, k)
    ensures |r| == |q| + 1
    ensures forall e :: e in r <==> e in q || e == (k, v)
    ensures !IsArrayIndex(k) ==> r == q + [(k, v)]
    ensures Delete(r, k) == Delete(q, k)
  {
    InsertValid(q, k, v);
    var f := KeyIsNot(k);
    assert Filter(f, [(k, v)]) == [];
    if IsArrayIndex(k) then
      var p := IndexSlot(q, k);
      var r: Object := q[..p] + [(k, v)] + q[p..];
      assert r[p] == (k, v);
      assert q == q[..p] + q[p..];
      FilterConcat(f, q[..p] + [(k, v)], q[p..]);
      FilterConcat(f, q[..p], [(k, v)]);
      FilterConcat(f, q[..p], q[p..]);
      assert Filter(f, q[..p]) + [] == Filter(f, q[..p]);
      r
    else
      var r: Object := q + [(k, v)];
      assert r[|q|] == (k, v);
      FilterConcat(f, q, [(k, v)]);
      assert Filter(f, q) + [] == Filter(f, q);
      r
  }

  /** `q[k] = v`: an existing key keeps its place; a new array-index key is
      slotted in numeric order; any other new key goes last. */
  function Set(q: Object, k: string, v: string): (r: Object)
    ensures Get(r, k) == Some(v)
    ensures forall k' :: k' != k ==> Get(r, k') == Get(q, k')
    ensures HasKey(q, k) ==> Keys(r) == Keys(q)
    ensures !HasKey(q, k) ==> |r| == |q| + 1
    ensures !HasKey(q, k) && !IsArrayIndex(k) ==> r == q + [(k, v)]
    ensures Delete(r, k) == Delete(q, k)
  {
    var r := if HasKey(q, k) then ReplaceFrame(q, k, v); Replace(q, k, v) else Insert(q, k, v);
    forall k' | k' != k ensures Get(r, k') == Get(q, k') {
      GetFromEntries(q, r, k');
    }
    r
  }

  /** Keeps exactly the entries that satisfy `keep`, in order. */
  function Restrict(q: Object, keep: Entry -> bool): (r: Object)
    ensures forall e :: e in r <==> e in q && keep(e)
    ensures IsSubseq(r, q)
  {
    var r := Filter(keep, q);
    SubseqValid(r, q);
    r
  }

  /** The entries whose key is not `k`. */
  function KeyIsNot(k: string): Entry -> bool {
    (e: Entry) => e.0 != k
  }

  /** `delete q[k]`. */
  function Delete(q: Object, k: string): (r: Object)
    ensures Get(r, k) == None
    ensures forall k' :: k' != k ==> Get(r, k') == Get(q, k')
    ensures IsSubseq(r, q)
    ensures HasKey(q, k) ==> |r| == |q| - 1
    ensures !HasKey(q, k) ==> r == q
  {
    var keep := KeyIsNot(k);
    var r := Restrict(q, keep);
    forall k' | k' != k ensures Get(r, k') == Get(q, k') {
      GetFromEntries(q, r, k');
    }
    if HasKey(q, k) then
      DeleteSize(q, k);
      r
    else
      FilterAll(keep, q);
      r
  }

  lemma DeleteSize(q: Object, k: string)
    requires HasKey(q, k)
    ensures |Filter(KeyIsNot(k), q)| == |q| - 1
  {
    var i :| 0 <= i < |q| && q[i].0 == k;
    forall j | 0 <= j < |q| && j != i ensures q[j].0 != k {
      assert InOrder(q[i], q[j]) || InOrder(q[j], q[i]);
    }
    FilterDropsOne(KeyIsNot(k), q, i);
  }

  /** Deleting a key keeps the subsequence order between two objects. */
  lemma DeleteSubseq(a: Object, b: Object, k: string)
    requires IsSubseq(a, b)
    ensures IsSubseq(Delete(a, k), Delete(b, k))
  {
    FilterSubseq(KeyIsNot(k), a, b);
  }

  /** `Object.keys(q).forEach((k) => { if (q[k] === v) delete q[k]; })`. */
  function DeleteWhereValue(q: Object, v: string): (r: Object)
    ensures v !in Values(r)
    ensures forall k :: Get(q, k) != Some(v) ==> Get(r, k) == Get(q, k)
    ensures forall k :: Get(q, k) == Some(v) ==> Get(r, k) == None
    ensures IsSubseq(r, q)
    ensures v !in Values(q) ==> r == q
  {
    var r := Restrict(q, (e: Entry) => e.1 != v);
    DeleteWhereValueFacts(q, v, r);
    if v !in Values(q) then
      assert forall e :: e in q ==> e.1 != v by {
        forall e | e in q ensures e.1 != v {
          var i :| 0 <= i < |q| && q[i] == e;
          assert Values(q)[i] == e.1;
        }
      }
      FilterAll((e: Entry) => e.1 != v, q);
      r
    else r
  }

  lemma DeleteWhereValueFacts(q: Object, v: string, r: Object)
    requires forall e :: e in r <==> e in q && e.1 != v
    ensures v !in Values(r)
    ensures forall k :: Get(q, k) != Some(v) ==> Get(r, k) == Get(q, k)
    ensures forall k :: Get(q, k) == Some(v) ==> Get(r, k) == None
  {
    forall k | Get(q, k) != Some(v) ensures Get(r, k) == Get(q, k) {
      GetFromEntries(q, r, k);
    }
    assert forall i :: 0 <= i < |r| ==> r[i] in r;
  }
}

=== FILE: key_order.dfy ===
/** The order in which `queryUpdated` (src/store/StopsManager.ts) visits the
    query: the keys `parseInt` reads a number from, sorted by that number with
    `Array.prototype.sort`, which is stable, so keys reading the same number
    keep their enumeration order. */
module KeyOrder {
  import opened Wrappers
  import opened Text
  import opened Seqs
  import opened JsObject

  /** `!isNaN(parseInt(k))`. */
  predicate Numeric(k: string) {
    ParseInt(k).Some?
  }

  /** `parseInt(k)`, for a numeric key. */
  function Number(k: string): int {
    ParseInt(k).GetOr(0)
  }

  predicate SortedBy<T>(num: T -> int, ks: seq<T>) {
    forall i, j :: 0 <= i < j < |ks| ==> num(ks[i]) <= num(ks[j])
  }

  /** The elements of `ks` whose number is `n`, in order. */
  function WithNumber<T>(num: T -> int, n: int, ks: seq<T>): seq<T>
    decreases |ks|
  {
    if |ks| == 0 then []
    else if num(ks[0]) == n then [ks[0]] + WithNumber(num, n, ks[1..])
    else WithNumber(num, n, ks[1..])
  }

  lemma {:induction false} WithNumberConcat<T>(num: T -> int, n: int, a: seq<T>, b: seq<T>)
    ensures WithNumber(num, n, a + b) == WithNumber(num, n, a) + WithNumber(num, n, b)
    decreases |a|
  {
    if |a| == 0 {
      assert a + b == b;
    } else {
      assert (a + b)[1..] == a[1..] + b;
      WithNumberConcat(num, n, a[1..], b);
    }
  }

  lemma {:induction false} WithNumberNone<T>(num: T -> int, n: int, ks: seq<T>)
    requires forall i :: 0 <= i < |ks| ==> num(ks[i]) != n
    ensures WithNumber(num, n, ks) == []
    decreases |ks|
  {
    if |ks| > 0 {
      WithNumberNone(num, n, ks[1..]);
    }
  }

  /** Inserts `k` after every element whose number is not larger. */
  function InsertBy<T>(num: T -> int, k: T, ks: seq<T>): (r: seq<T>)
    ensures multiset(r) == multiset(ks) + multiset{k}
    decreases |ks|
  {
    if |ks| == 0 then [k]
    else if num(k) < num(ks[0]) then [k] + ks
    else
      assert ks == [ks[0]] + ks[1..];
      [ks[0]] + InsertBy(num, k, ks[1..])
  }

  lemma {:induction false} InsertSorted<T>(num: T -> int, k: T, ks: seq<T>)
    requires SortedBy(num, ks)
    ensures SortedBy(num, InsertBy(num, k, ks))
    decreases |ks|
  {
    if |ks| > 0 && num(k) >= num(ks[0]) {
      InsertSorted(num, k, ks[1..]);
      var rest := InsertBy(num, k, ks[1..]);
      assert forall x :: x in rest ==> num(ks[0]) <= num(x) by {
        forall x | x in rest ensures num(ks[0]) <= num(x) {
          assert x in multiset(rest);
          assert x in multiset(ks[1..]) || x == k;
        }
      }
      assert forall j :: 0 <= j < |rest| ==> rest[j] in rest;
    }
  }

  /** `ks.sort((a, b) => num(a) - num(b))`, as a stable insertion sort. */
  function SortBy<T>(num: T -> int, ks: seq<T>): (r: seq<T>)
    ensures multiset(r) == multiset(ks)
    ensures SortedBy(num, r)
    decreases |ks|
  {
    if |ks| == 0 then []
    else
      var n := |ks| - 1;
      assert ks == ks[..n] + [ks[n]];
      InsertSorted(num, ks[n], SortBy(num, ks[..n]));
      InsertBy(num, ks[n], SortBy(num, ks[..n]))
  }

  /** Stability of one insertion: among the elements whose number is `n`,
      `k` comes last. */
  lemma {:induction false} InsertStable<T>(num: T -> int, k: T, ks: seq<T>, n: int)
    requires SortedBy(num, ks)
    ensures WithNumber(num, n, InsertBy(num, k, ks)) == WithNumber(num, n, ks) + (if num(k) == n then [k] else [])
    decreases |ks|
  {
    if |ks| == 0 {
    } else if num(k) < num(ks[0]) {
      if num(k) == n {
        WithNumberNone(num, n, ks);
      }
      assert [k] + ks == [k] + ks;
    } else {
      InsertStable(num, k, ks[1..], n);
      assert ([ks[0]] + InsertBy(num, k, ks[1..]))[1..] == InsertBy(num, k, ks[1..]);
    }
  }

  /** The sort is stable: the elements whose number is `n` stay in their
      original order. */
  lemma {:induction false} SortStable<T>(num: T -> int, ks: seq<T>, n: int)
    ensures WithNumber(num, n, SortBy(num, ks)) == WithNumber(num, n, ks)
    decreases |ks|
  {
    if |ks| > 0 {
      var m := |ks| - 1;
      var p, last := ks[..m], ks[m];
      var sp := SortBy(num, p);
      assert SortBy(num, ks) == InsertBy(num, last, sp);
      SortStable(num, p, n);
      InsertStable(num, last, sp, n);
      assert ks == p + [last];
      WithNumberConcat(num, n, p, [last]);
      assert WithNumber(num, n, [last]) == if num(last) == n then [last] else [];
    }
  }

  lemma {:induction false} InsertNoDup<T>(num: T -> int, k: T, ks: seq<T>)
    requires NoDup(ks) && k !in ks
    ensures NoDup(InsertBy(num, k, ks))
    decreases |ks|
  {
    if |ks| > 0 && num(k) >= num(ks[0]) {
      assert NoDup(ks[1..]) by {
        forall i, j | 0 <= i < j < |ks| - 1 ensures ks[1..][i] != ks[1..][j] {
          assert ks[1..][i] == ks[i + 1] && ks[1..][j] == ks[j + 1];
        }
      }
      InsertNoDup(num, k, ks[1..]);
      var rest := InsertBy(num, k, ks[1..]);
      assert InsertBy(num, k, ks) == [ks[0]] + rest;
      assert ks[0] !in rest by {
        assert ks[0] !in ks[1..];
        assert ks[0] !in multiset(rest);
      }
      ConsNoDup(ks[0], rest);
    }
  }

  lemma ConsNoDup<T>(x: T, s: seq<T>)
    requires NoDup(s) && x !in s
    ensures NoDup([x] + s)
  {
    forall i, j | 0 <= i < j < |s| + 1 ensures ([x] + s)[i] != ([x] + s)[j] {
      if i == 0 {
        assert ([x] + s)[j] == s[j - 1];
      } else {
        assert ([x] + s)[i] == s[i - 1] && ([x] + s)[j] == s[j - 1];
      }
    }
  }

  lemma {:induction false} SortNoDup<T>(num: T -> int, ks: seq<T>)
    requires NoDup(ks)
    ensures NoDup(SortBy(num, ks))
    decreases |ks|
  {
    if |ks| > 0 {
      var m := |ks| - 1;
      var p, last := ks[..m], ks[m];
      assert NoDup(p) by {
        forall i, j | 0 <= i < j < m ensures p[i] != p[j] {
          assert p[i] == ks[i] && p[j] == ks[j];
        }
      }
      SortNoDup(num, p);
      var sp := SortBy(num, p);
      assert SortBy(num, ks) == InsertBy(num, last, sp);
      assert last !in p;
      assert last !in sp by {
        assert multiset(sp) == multiset(p);
        assert last !in multiset(p);
      }
      InsertNoDup(num, last, sp);
    }
  }

  /** The keys of `q` that `queryUpdated` visits, in visiting order: exactly
      the numeric keys, each once, by ascending number. */
  function NumericKeys(q: Object): (ks: seq<string>)
    ensures forall k :: k in ks <==> HasKey(q, k) && Numeric(k)
    ensures NoDup(ks)
    ensures SortedBy(Number, ks)
  {
    var all := Keys(q);
    var numeric := Filter(Numeric, all);
    assert NoDup(all) by {
      forall i, j | 0 <= i < j < |all| ensures all[i] != all[j] {
        assert InOrder(q[i], q[j]);
      }
    }
    SubseqPairwise(numeric, all, (a: string, b: string) => a != b);
    SortNoDup(Number, numeric);
    var ks := SortBy(Number, numeric);
    assert forall k :: k in ks <==> k in numeric by {
      forall k ensures k in ks <==> k in numeric {
        assert k in ks <==> k in multiset(ks);
      }
    }
    assert forall k :: k in all <==> HasKey(q, k) by {
      forall k ensures k in all <==> HasKey(q, k) {
        if HasKey(q, k) {
          var i :| 0 <= i < |q| && q[i].0 == k;
          assert all[i] == k;
        }
      }
    }
    ks
  }
}

=== FILE: seqs.dfy ===
/** Order-preserving sequence helpers that stand for the JavaScript array
    methods the store uses: `filter`, `find`, `indexOf`, `flatMap`-style
    concatenation, and the `unique` callback of src/store/index.ts. */
module Seqs {
  import opened Wrappers

  /** `a` is an order-preserving subsequence of `b`. */
  predicate IsSubseq<T(==)>(a: seq<T>, b: seq<T>)
    decreases |b|
  {
    if |a| == 0 then true
    else if |b| == 0 then false
    else if a[0] == b[0] then IsSubseq(a[1..], b[1..])
    else IsSubseq(a, b[1..])
  }

  lemma {:induction false} SubseqRefl<T>(a: seq<T>)
    ensures IsSubseq(a, a)
    decreases |a|
  {
    if |a| > 0 {
      SubseqRefl(a[1..]);
    }
  }

  /** A subsequence of the tail is a subsequence of the whole. */
  lemma {:induction false} SubseqCons<T>(a: seq<T>, x: seq<T>)
    requires |x| > 0 && IsSubseq(a, x[1..])
    ensures IsSubseq(a, x)
    decreases |x|, 0
  {
    if |a| > 0 && a[0] == x[0] {
      SubseqDropHead(a, x[1..]);
    }
  }

  /** Dropping the first element keeps a subsequence. */
  lemma {:induction false} SubseqDropHead<T>(a: seq<T>, y: seq<T>)
    requires |a| > 0 && IsSubseq(a, y)
    ensures IsSubseq(a[1..], y)
    decreases |y|, 1
  {
    if a[0] == y[0] {
      SubseqCons(a[1..], y);
    } else {
      SubseqDropHead(a, y[1..]);
      SubseqCons(a[1..], y);
    }
  }

  lemma {:induction false} SubseqTrans<T>(a: seq<T>, b: seq<T>, c: seq<T>)
    requires IsSubseq(a, b) && IsSubseq(b, c)
    ensures IsSubseq(a, c)
    decreases |c|
  {
    if |a| > 0 {
      if b[0] == c[0] {
        if a[0] == b[0] {
          SubseqTrans(a[1..], b[1..], c[1..]);
        } else {
          SubseqTrans(a, b[1..], c[1..]);
        }
      } else {
        SubseqTrans(a, b, c[1..]);
        SubseqCons(a, c);
      }
    }
  }

  lemma {:induction false} SubseqMembers<T>(a: seq<T>, b: seq<T>)
    requires IsSubseq(a, b)
    ensures forall x :: x in a ==> x in b
    decreases |b|
  {
    if |a| > 0 && |b| > 0 {
      if a[0] == b[0] {
        SubseqMembers(a[1..], b[1..]);
        assert forall x :: x in a ==> x == a[0] || x in a[1..];
      } else {
        SubseqMembers(a, b[1..]);
      }
    }
  }

  /** A relation that holds between every earlier and later element of `b`
      still holds in any subsequence of `b`. */
  lemma {:induction false} SubseqPairwise<T>(a: seq<T>, b: seq<T>, p: (T, T) -> bool)
    requires IsSubseq(a, b)
    requires forall i, j :: 0 <= i < j < |b| ==> p(b[i], b[j])
    ensures forall i, j :: 0 <= i < j < |a| ==> p(a[i], a[j])
    decreases |b|
  {
    if |a| > 0 && |b| > 0 {
      if a[0] == b[0] {
        SubseqPairwise(a[1..], b[1..], p);
        SubseqMembers(a[1..], b[1..]);
        forall i, j | 0 <= i < j < |a| ensures p(a[i], a[j]) {
          if i == 0 {
            assert a[j] in a[1..];
            assert a[j] in b[1..];
            var k :| 0 <= k < |b[1..]| && b[1..][k] == a[j];
            assert b[k + 1] == a[j];
          } else {
            assert a[i] == a[1..][i - 1] && a[j] == a[1..][j - 1];
          }
        }
      } else {
        SubseqPairwise(a, b[1..], p);
      }
    }
  }

  /** `Array.prototype.filter` with a callback that ignores index and array. */
  function Filter<T(!new)>(f: T -> bool, s: seq<T>): (r: seq<T>)
    ensures |r| <= |s|
    ensures forall x :: x in r <==> x in s && f(x)
    ensures forall x ::
      multiset(r)[x] == if f(x) then multiset(s)[x] else 0
    ensures IsSubseq(r, s)
    decreases |s|
  {
    if |s| == 0 then []
    else
      assert s == [s[0]] + s[1..];
      if f(s[0]) then [s[0]] + Filter(f, s[1..]) else Filter(f, s[1..])
  }

  lemma {:induction false} FilterAll<T(!new)>(f: T -> bool, s: seq<T>)
    requires forall x :: x in s ==> f(x)
    ensures Filter(f, s) == s
    decreases |s|
  {
    if |s| > 0 {
      FilterAll(f, s[1..]);
    }
  }

  lemma {:induction false} FilterConcat<T(!new)>(f: T -> bool, a: seq<T>, b: seq<T>)
    ensures Filter(f, a + b) == Filter(f, a) + Filter(f, b)
    decreases |a|
  {
    if |a| == 0 {
      assert a + b == b;
    } else {
      assert (a + b)[1..] == a[1..] + b;
      FilterConcat(f, a[1..], b);
    }
  }

  /** Appending twice is appending the pair. */
  lemma AppendTwo<T>(a: seq<T>, x: T, y: T)
    ensures a + [x] + [y] == a + [x, y]
  {
  }

  /** Two sequences that agree wherever `f` keeps an element, and on which
      `f` agrees everywhere, filter to the same sequence. */
  lemma {:induction false} FilterPointwise<T(!new)>(f: T -> bool, a: seq<T>, b: seq<T>)
    requires |a| == |b|
    requires forall i :: 0 <= i < |a| ==> f(a[i]) == f(b[i]) && (f(a[i]) ==> a[i] == b[i])
    ensures Filter(f, a) == Filter(f, b)
    decreases |a|
  {
    if |a| > 0 {
      assert forall i :: 0 <= i < |a| - 1 ==> a[1..][i] == a[i + 1] && b[1..][i] == b[i + 1];
      FilterPointwise(f, a[1..], b[1..]);
    }
  }

  /** Filtering is monotone for the subsequence order. */
  lemma {:induction false} FilterSubseq<T(!new)>(f: T -> bool, a: seq<T>, b: seq<T>)
    requires IsSubseq(a, b)
    ensures IsSubseq(Filter(f, a), Filter(f, b))
    decreases |b|
  {
    if |a| > 0 {
      if a[0] == b[0] {
        FilterSubseq(f, a[1..], b[1..]);
        if f(a[0]) {
          var fa, fb := Filter(f, a), Filter(f, b);
          assert fa[0] == fb[0] && fa[1..] == Filter(f, a[1..]) && fb[1..] == Filter(f, b[1..]);
        }
      } else {
        FilterSubseq(f, a, b[1..]);
        if f(b[0]) {
          SubseqCons(Filter(f, a), Filter(f, b));
        }
      }
    }
  }

  /** Filtering out exactly one position shortens the sequence by one. */
  lemma FilterDropsOne<T(!new)>(f: T -> bool, s: seq<T>, i: nat)
    requires i < |s| && !f(s[i])
    requires forall j :: 0 <= j < |s| && j != i ==> f(s[j])
    ensures |Filter(f, s)| == |s| - 1
  {
    var a, b := s[..i], s[i + 1..];
    assert s == a + [s[i]] + b;
    FilterConcat(f, a + [s[i]], b);
    FilterConcat(f, a, [s[i]]);
    assert forall x :: x in a ==> f(x);
    assert forall x :: x in b ==> f(x);
    FilterAll(f, a);
    FilterAll(f, b);
    assert Filter(f, [s[i]]) == [];
  }

  /** `arr.forEach((_, i, arr) => arr[i] = step(arr, i))` from index `i` on:
      each element is replaced in place, so step `j` sees the elements before
      `j` already replaced and the others as they were. */
  function ForEachInPlace<T(!new)>(step: (seq<T>, nat) --> T, cur: seq<T>, i: nat): (r: seq<T>)
    requires i <= |cur|
    requires forall c: seq<T>, k: nat :: k < |c| ==> step.requires(c, k)
    ensures |r| == |cur|
    decreases |cur| - i
  {
    if i == |cur| then cur else ForEachInPlace(step, cur[i := step(cur, i)], i + 1)
  }

  /** Step `j` of the in-place loop runs against the array as it stands then:
      the first `j` entries of the final array followed by the rest of the
      original one. */
  lemma {:induction false} ForEachInPlaceSteps<T(!new)>(step: (seq<T>, nat) --> T, cur: seq<T>, i: nat)
    requires i <= |cur|
    requires forall c: seq<T>, k: nat :: k < |c| ==> step.requires(c, k)
    ensures ForEachInPlace(step, cur, i)[..i] == cur[..i]
    ensures forall j :: i <= j < |cur| ==>
      ForEachInPlace(step, cur, i)[j] == step(ForEachInPlace(step, cur, i)[..j] + cur[j..], j)
    decreases |cur| - i
  {
    if i < |cur| {
      var next := cur[i := step(cur, i)];
      var r := ForEachInPlace(step, next, i + 1);
      assert r == ForEachInPlace(step, cur, i);
      ForEachInPlaceSteps(step, next, i + 1);
      assert r[..i] == cur[..i] by {
        assert r[..i] == r[..i + 1][..i];
        assert next[..i + 1][..i] == cur[..i];
      }
      forall j | i <= j < |cur| ensures r[j] == step(r[..j] + cur[j..], j) {
        if j == i {
          assert r[i] == r[..i + 1][i] == next[i];
          assert r[..i] + cur[i..] == cur;
        } else {
          assert next[j..] == cur[j..];
        }
      }
    }
  }

  /** Index of the first element satisfying `f`, as `Array.prototype.findIndex`
      (None standing for -1). */
  function FindIndex<T>(f: T -> bool, s: seq<T>): (r: Option<nat>)
    ensures r.Some? ==> r.value < |s| && f(s[r.value])
    ensures r.Some? ==> forall j :: 0 <= j < r.value ==> !f(s[j])
    ensures r.None? <==> forall j :: 0 <= j < |s| ==> !f(s[j])
    decreases |s|
  {
    if |s| == 0 then None
    else if f(s[0]) then Some(0)
    else
      match FindIndex(f, s[1..])
      case None => None
      case Some(i) => Some(i + 1)
  }

  /** `Array.prototype.find`: the first element satisfying `f`. */
  function Find<T(!new)>(f: T -> bool, s: seq<T>): (r: Option<T>)
    ensures r.Some? ==> r.value in s && f(r.value)
    ensures r.Some? ==> exists i :: 0 <= i < |s| && s[i] == r.value && forall j :: 0 <= j < i ==> !f(s[j])
    ensures r.None? <==> forall x :: x in s ==> !f(x)
  {
    match FindIndex(f, s)
    case None => None
    case Some(i) => Some(s[i])
  }

  /** `Array.prototype.indexOf` (strict equality); -1 when absent. */
  function IndexOf<T(==)>(s: seq<T>, v: T): (r: int)
    ensures -1 <= r < |s|
    ensures r == -1 <==> v !in s
    ensures r >= 0 ==> s[r] == v && forall j :: 0 <= j < r ==> s[j] != v
    decreases |s|
  {
    if |s| == 0 then -1
    else if s[0] == v then 0
    else
      var i := IndexOf(s[1..], v);
      if i == -1 then -1 else i + 1
  }

  /** The `unique` callback of src/store/index.ts: true iff `i` is the index
      of the first occurrence of `v` in `arr`. */
  function Unique<T(==)>(v: T, i: int, arr: seq<T>): bool {
    IndexOf(arr, v) == i
  }

  lemma UniqueIffFirst<T>(arr: seq<T>, i: nat)
    requires i < |arr|
    ensures Unique(arr[i], i, arr) <==> forall j :: 0 <= j < i ==> arr[j] != arr[i]
  {
  }

  /** `arr.filter(unique)` over the indices `from..|arr|`. */
  function FilterUniqueFrom<T(==)>(arr: seq<T>, from: nat): (r: seq<T>)
    requires from <= |arr|
    decreases |arr| - from
  {
    if from == |arr| then []
    else if Unique(arr[from], from, arr) then [arr[from]] + FilterUniqueFrom(arr, from + 1)
    else FilterUniqueFrom(arr, from + 1)
  }

  predicate NoDup<T(==)>(s: seq<T>) {
    forall i, j :: 0 <= i < j < |s| ==> s[i] != s[j]
  }

  /** `arr.filter(unique)`: the first occurrences of the elements of `arr`. */
  function FilterUnique<T(==)>(arr: seq<T>): (r: seq<T>) {
    FilterUniqueFrom(arr, 0)
  }

  lemma FilterUniqueFromFacts<T>(arr: seq<T>, from: nat)
    requires from <= |arr|
    ensures forall x :: x in FilterUniqueFrom(arr, from) <==>
      exists i :: from <= i < |arr| && arr[i] == x && IndexOf(arr, x) == i
    ensures forall k, l :: 0 <= k < l < |FilterUniqueFrom(arr, from)| ==>
      IndexOf(arr, FilterUniqueFrom(arr, from)[k]) < IndexOf(arr, FilterUniqueFrom(arr, from)[l])
  {
    FilterUniqueFromMembers(arr, from);
    FilterUniqueFromOrdered(arr, from);
  }

  lemma {:induction false} FilterUniqueFromMembers<T>(arr: seq<T>, from: nat)
    requires from <= |arr|
    ensures forall x :: x in FilterUniqueFrom(arr, from) <==>
      exists i :: from <= i < |arr| && arr[i] == x && IndexOf(arr, x) == i
    decreases |arr| - from
  {
    if from < |arr| {
      FilterUniqueFromMembers(arr, from + 1);
      var rest := FilterUniqueFrom(arr, from + 1);
      if Unique(arr[from], from, arr) {
        assert FilterUniqueFrom(arr, from) == [arr[from]] + rest;
      } else {
        assert FilterUniqueFrom(arr, from) == rest;
      }
    }
  }

  lemma {:induction false} FilterUniqueFromBound<T>(arr: seq<T>, from: nat)
    requires from <= |arr|
    ensures forall k :: 0 <= k < |FilterUniqueFrom(arr, from)| ==>
      from <= IndexOf(arr, FilterUniqueFrom(arr, from)[k])
    decreases |arr| - from
  {
    if from < |arr| {
      FilterUniqueFromBound(arr, from + 1);
      var rest := FilterUniqueFrom(arr, from + 1);
      if Unique(arr[from], from, arr) {
        assert FilterUniqueFrom(arr, from) == [arr[from]] + rest;
      } else {
        assert FilterUniqueFrom(arr, from) == rest;
      }
    }
  }

  lemma {:induction false} FilterUniqueFromOrdered<T>(arr: seq<T>, from: nat)
    requires from <= |arr|
    ensures forall k, l :: 0 <= k < l < |FilterUniqueFrom(arr, from)| ==>
      IndexOf(arr, FilterUniqueFrom(arr, from)[k]) < IndexOf(arr, FilterUniqueFrom(arr, from)[l])
    decreases |arr| - from
  {
    if from < |arr| {
      FilterUniqueFromOrdered(arr, from + 1);
      FilterUniqueFromBound(arr, from + 1);
      var rest := FilterUniqueFrom(arr, from + 1);
      if Unique(arr[from], from, arr) {
        var r := [arr[from]] + rest;
        assert FilterUniqueFrom(arr, from) == r;
        forall k, l | 0 <= k < l < |r|
          ensures IndexOf(arr, r[k]) < IndexOf(arr, r[l])
        {
          assert r[l] == rest[l - 1];
          if k > 0 {
            assert r[k] == rest[k - 1];
          }
        }
      } else {
        assert FilterUniqueFrom(arr, from) == rest;
      }
    }
  }

  /** `filter(unique)` keeps exactly one copy of every element, in the order
      of their first occurrences. */
  lemma FilterUniqueFirstOccurrences<T>(arr: seq<T>)
    ensures forall x :: x in FilterUnique(arr) <==> x in arr
    ensures NoDup(FilterUnique(arr))
    ensures forall k, l :: 0 <= k < l < |FilterUnique(arr)| ==>
      IndexOf(arr, FilterUnique(arr)[k]) < IndexOf(arr, FilterUnique(arr)[l])
  {
    FilterUniqueFromFacts(arr, 0);
    var r := FilterUnique(arr);
    forall x | x in arr ensures x in r {
      var i := IndexOf(arr, x);
      assert arr[i] == x;
    }
  }
}

=== FILE: stops_manager.dfy ===
/** The stop-selection store (src/store/StopsManager.ts): the selected stop
    areas, the excluded stop points, the last search results and the URL
    query kept in step with the router. The module-level variables become one
    immutable `State`; each exported operation maps a state to the next one.
    `router.push({ query })` appends a copy of the query to `navigation`. */
module StopsManager {
  import opened Wrappers
  import opened Text
  import opened Seqs
  import opened JsObject
  import opened Tbm
  import opened ExclusionCodec
  import opened KeyOrder

  datatype State = State(
    selected: seq<FullStopArea>,
    excluded: seq<Exclusion>,
    stops: seq<StopArea>,
    query: Object,
    internallyUpdated: bool,
    navigation: seq<Object>)

  /** The query key holding the encoded exclusions. */
  const ExclusionsKey: string := "eSP"

  /** `queryInternallyUpdated = true; router.push({ query })`. */
  function Push(st: State): State {
    st.(internallyUpdated := true, navigation := st.navigation + [st.query])
  }

  /** `provideQuery`: the store takes its own copy of the router's query. */
  function ProvideQuery(st: State, q: Object): (r: State)
    ensures r.query == q
    ensures r.selected == st.selected && r.excluded == st.excluded && r.stops == st.stops
    ensures r.internallyUpdated == st.internallyUpdated && r.navigation == st.navigation
  {
    st.(query := q)
  }

  /** `query["eSP"] = serialize(excluded); if (!query["eSP"].length) delete query["eSP"]`:
      the key holds the encoding when it is non-empty and is absent otherwise;
      every other key keeps its value and its place. An existing `eSP` keeps
      its place too; a new one goes last, since `eSP` is no array index. */
  function StoreExclusions(query: Object, excluded: seq<Exclusion>, selected: seq<FullStopArea>): (r: Object)
    ensures Serialize(excluded, selected, query) == "" ==> !HasKey(r, ExclusionsKey)
    ensures Serialize(excluded, selected, query) != "" ==> Get(r, ExclusionsKey) == Some(Serialize(excluded, selected, query))
    ensures forall k :: k != ExclusionsKey ==> Get(r, k) == Get(query, k)
    ensures Delete(r, ExclusionsKey) == Delete(query, ExclusionsKey)
    ensures Serialize(excluded, selected, query) != "" && HasKey(query, ExclusionsKey) ==> Keys(r) == Keys(query)
    ensures Serialize(excluded, selected, query) != "" && !HasKey(query, ExclusionsKey) ==>
      r == query + [(ExclusionsKey, Serialize(excluded, selected, query))]
  {
    var enc := Serialize(excluded, selected, query);
    assert !IsArrayIndex(ExclusionsKey) by {
      assert !IsDigit(ExclusionsKey[0]);
    }
    var q := Set(query, ExclusionsKey, enc);
    if enc == "" then
      var r := Delete(q, ExclusionsKey);
      assert !HasKey(r, ExclusionsKey);
      r
    else q
  }

  // ---------------------------------------------------------------------
  // getWantedStops

  /** `{ ...sp, stopAreaId }`. */
  datatype WantedStop = WantedStop(stopPoint: StopPoint, stopAreaId: string)

  /** The `filter`: the area's stop points not excluded for it, in order,
      each as many times as the area lists it. */
  function Unexcluded(area: FullStopArea, excluded: seq<Exclusion>): (r: seq<StopPoint>)
    ensures forall sp :: sp in r <==> sp in area.details.stopPoints && (area.Id(), sp.id) !in excluded
    ensures forall sp :: multiset(r)[sp] == (if (area.Id(), sp.id) !in excluded then multiset(area.details.stopPoints)[sp] else 0)
    ensures IsSubseq(r, area.details.stopPoints)
  {
    Filter((sp: StopPoint) => (area.Id(), sp.id) !in excluded, area.details.stopPoints)
  }

  /** One area's part of the `reduce`: its unexcluded stop points, in order,
      each tagged with the area's id. */
  function WantedOf(area: FullStopArea, excluded: seq<Exclusion>): (r: seq<WantedStop>)
    ensures |r| == |Unexcluded(area, excluded)|
    ensures forall i :: 0 <= i < |r| ==> r[i] == WantedStop(Unexcluded(area, excluded)[i], area.Id())
    ensures forall w :: w in r <==>
      w.stopAreaId == area.Id() && w.stopPoint in area.details.stopPoints && (area.Id(), w.stopPoint.id) !in excluded
  {
    Tag(Unexcluded(area, excluded), area.Id())
  }

  /** `.map((sp) => ({ ...sp, stopAreaId }))`. */
  function Tag(sps: seq<StopPoint>, id: string): (r: seq<WantedStop>)
    ensures |r| == |sps| && forall i :: 0 <= i < |sps| ==> r[i] == WantedStop(sps[i], id)
    ensures forall w :: w in r <==> w.stopAreaId == id && w.stopPoint in sps
    decreases |sps|
  {
    if |sps| == 0 then [] else [WantedStop(sps[0], id)] + Tag(sps[1..], id)
  }

  /** `getWantedStops`: the stop points of the given areas that are not
      excluded for their area, each tagged with the area's id, area by area. */
  function GetWantedStops(areas: seq<FullStopArea>, excluded: seq<Exclusion>): (r: seq<WantedStop>)
    ensures |r| == UnexcludedCount(areas, excluded)
    ensures forall w :: w in r <==>
      exists a :: a in areas && a.Id() == w.stopAreaId && w.stopPoint in a.details.stopPoints
        && (a.Id(), w.stopPoint.id) !in excluded
    decreases |areas|
  {
    if |areas| == 0 then []
    else
      var init := areas[..|areas| - 1];
      var last := areas[|areas| - 1];
      assert forall a :: a in areas <==> a in init || a == last by {
        assert areas == init + [last];
      }
      GetWantedStops(init, excluded) + WantedOf(last, excluded)
  }

  /** The `reduce` is a fold: the stops of two lists of areas are the stops
      of the first list followed by those of the second. */
  lemma {:induction false} GetWantedStopsConcat(a: seq<FullStopArea>, b: seq<FullStopArea>, excluded: seq<Exclusion>)
    ensures GetWantedStops(a + b, excluded) == GetWantedStops(a, excluded) + GetWantedStops(b, excluded)
    decreases |b|
  {
    if |b| > 0 {
      var b0 := b[..|b| - 1];
      assert (a + b)[..|a + b| - 1] == a + b0;
      assert (a + b)[|a + b| - 1] == b[|b| - 1];
      GetWantedStopsConcat(a, b0, excluded);
    } else {
      assert a + b == a;
    }
  }

  /** With nothing excluded every stop point of every area is wanted, once per area. */
  lemma {:induction false} GetWantedStopsAll(areas: seq<FullStopArea>)
    ensures |GetWantedStops(areas, [])| == StopPointCount(areas)
    decreases |areas|
  {
    if |areas| > 0 {
      var last := areas[|areas| - 1];
      GetWantedStopsAll(areas[..|areas| - 1]);
      FilterAll((sp: StopPoint) => (last.Id(), sp.id) !in [], last.details.stopPoints);
      assert |WantedOf(last, [])| == |last.details.stopPoints|;
    }
  }

  /** The number of unexcluded stop points over all areas. */
  function UnexcludedCount(areas: seq<FullStopArea>, excluded: seq<Exclusion>): nat
    decreases |areas|
  {
    if |areas| == 0 then 0
    else UnexcludedCount(areas[..|areas| - 1], excluded) + |Unexcluded(areas[|areas| - 1], excluded)|
  }

  /** A single area contributes exactly its own tagged stop points; with
      `GetWantedStopsConcat` this fixes every position of the result. */
  lemma GetWantedStopsOne(area: FullStopArea, excluded: seq<Exclusion>)
    ensures GetWantedStops([area], excluded) == WantedOf(area, excluded)
  {
    assert [area][..0] == [];
  }

  function StopPointCount(areas: seq<FullStopArea>): nat
    decreases |areas|
  {
    if |areas| == 0 then 0 else StopPointCount(areas[..|areas| - 1]) + |areas[|areas| - 1].details.stopPoints|
  }

  // ---------------------------------------------------------------------
  // addStop

  /** `stops.find((s) => s.name === name)`. */
  function StopByName(stops: seq<StopArea>, name: string): Option<StopArea> {
    Find((s: StopArea) => s.name == name, stops)
  }

  predicate HasExclusions(excluded: seq<Exclusion>, areaId: string) {
    exists e :: e in excluded && e.0 == areaId
  }

  /** Drops every exclusion of one stop area. */
  function WithoutArea(excluded: seq<Exclusion>, areaId: string): (r: seq<Exclusion>)
    ensures forall e :: e in r <==> e in excluded && e.0 != areaId
    ensures forall e :: multiset(r)[e] == if e.0 != areaId then multiset(excluded)[e] else 0
    ensures IsSubseq(r, excluded)
  {
    Filter((e: Exclusion) => e.0 != areaId, excluded)
  }

  /** `addStop`, returning the new state and the status code: 1 when the
      name is already selected and some of its stop points were excluded
      (they are all restored), -1 when it is selected with nothing excluded,
      -2 when no search result has that name, -3 when its details cannot be
      fetched, 0 when the area is added under the key `String(keys + 1)`. */
  function AddStop(st: State, api: Api, name: string): (r: (State, int))
    ensures r.1 in {-3, -2, -1, 0, 1}
    ensures r.1 < 0 ==> r.0 == st
    ensures r.1 == -1 <==>
      SelectedByName(st.selected, name).Some? && !HasExclusions(st.excluded, SelectedByName(st.selected, name).value.Id())
    ensures r.1 == 1 <==>
      SelectedByName(st.selected, name).Some? && HasExclusions(st.excluded, SelectedByName(st.selected, name).value.Id())
    ensures r.1 == -2 <==> SelectedByName(st.selected, name).None? && forall s :: s in st.stops ==> s.name != name
    ensures r.1 == -3 <==> (SelectedByName(st.selected, name).None? && StopByName(st.stops, name).Some?
      && api.areaInformations(StopByName(st.stops, name).value.id).None?)
    ensures r.1 == 1 ==>
      var id := SelectedByName(st.selected, name).value.Id();
      && (forall e :: e in r.0.excluded <==> e in st.excluded && e.0 != id)
      && (forall e :: multiset(r.0.excluded)[e] == if e.0 != id then multiset(st.excluded)[e] else 0)
      && IsSubseq(r.0.excluded, st.excluded)
      && r.0.selected == st.selected && r.0.stops == st.stops
      && r.0.query == StoreExclusions(st.query, r.0.excluded, st.selected)
      && r.0.internallyUpdated && r.0.navigation == st.navigation + [r.0.query]
    ensures r.1 == 0 ==>
      && |r.0.selected| == |st.selected| + 1 && r.0.selected[..|st.selected|] == st.selected
      && r.0.selected[|st.selected|].Name() == name
      && StopByName(st.stops, name) == Some(r.0.selected[|st.selected|].area)
      && Some(r.0.selected[|st.selected|]) == FetchStopAreaDetails(api, r.0.selected[|st.selected|].area)
      && Get(r.0.query, NatToString(|st.query| + 1)) == Some(name)
      && (forall k :: k != NatToString(|st.query| + 1) ==> Get(r.0.query, k) == Get(st.query, k))
      && Delete(r.0.query, NatToString(|st.query| + 1)) == Delete(st.query, NatToString(|st.query| + 1))
      && r.0.excluded == st.excluded && r.0.stops == st.stops
      && r.0.internallyUpdated && r.0.navigation == st.navigation + [r.0.query]
  {
    match SelectedByName(st.selected, name)
    case Some(already) =>
      if HasExclusions(st.excluded, already.Id()) then
        var excluded := WithoutArea(st.excluded, already.Id());
        (Push(st.(excluded := excluded, query := StoreExclusions(st.query, excluded, st.selected))), 1)
      else (st, -1)
    case None =>
      match StopByName(st.stops, name)
      case None => (st, -2)
      case Some(found) =>
        match FetchStopAreaDetails(api, found)
        case None => (st, -3)
        case Some(full) =>
          var pushed := Push(st.(query := Set(st.query, NatToString(|st.query| + 1), full.Name())));
          (pushed.(selected := st.selected + [full]), 0)
  }

  // ---------------------------------------------------------------------
  // removeStopArea and removeStopPoint

  /** `removeStopArea`: the area leaves the selection, its exclusions are
      dropped (re-encoding `eSP`) and every query key naming it is deleted;
      the router is told only if the query or the exclusions changed. */
  function RemoveStopArea(st: State, area: FullStopArea): (r: State)
    ensures forall s :: s in r.selected <==> s in st.selected && s.Id() != area.Id()
    ensures IsSubseq(r.selected, st.selected)
    ensures forall e :: e in r.excluded <==> e in st.excluded && e.0 != area.Id()
    ensures forall e :: multiset(r.excluded)[e] == if e.0 != area.Id() then multiset(st.excluded)[e] else 0
    ensures IsSubseq(r.excluded, st.excluded)
    ensures HasExclusions(st.excluded, area.Id()) ==>
      var enc := Serialize(r.excluded, r.selected, st.query);
      Get(r.query, ExclusionsKey) == if enc == "" || enc == area.Name() then None else Some(enc)
    ensures !HasExclusions(st.excluded, area.Id()) ==>
      Get(r.query, ExclusionsKey) ==
        if Get(st.query, ExclusionsKey) == Some(area.Name()) then None else Get(st.query, ExclusionsKey)
    ensures area.Name() !in Values(r.query)
    ensures forall k :: k != ExclusionsKey && Get(st.query, k) != Some(area.Name()) ==> Get(r.query, k) == Get(st.query, k)
    ensures forall k :: k != ExclusionsKey && Get(st.query, k) == Some(area.Name()) ==> !HasKey(r.query, k)
    ensures IsSubseq(Delete(r.query, ExclusionsKey), Delete(st.query, ExclusionsKey))
    ensures r.stops == st.stops
    ensures HasExclusions(st.excluded, area.Id()) || area.Name() in Values(st.query) ==>
      r.internallyUpdated && r.navigation == st.navigation + [r.query]
    ensures !(HasExclusions(st.excluded, area.Id()) || area.Name() in Values(st.query)) ==>
      r.query == st.query && r.excluded == st.excluded
      && r.internallyUpdated == st.internallyUpdated && r.navigation == st.navigation
  {
    var selected := Filter((s: FullStopArea) => s.Id() != area.Id(), st.selected);
    var had := HasExclusions(st.excluded, area.Id());
    var excluded := if had then WithoutArea(st.excluded, area.Id()) else st.excluded;
    assert IsSubseq(excluded, st.excluded) by {
      SubseqRefl(st.excluded);
    }
    var q1 := if had then StoreExclusions(st.query, excluded, selected) else st.query;
    var named := area.Name() in Values(q1);
    var q2 := DeleteWhereValue(q1, area.Name());
    DeleteSubseq(q2, q1, ExclusionsKey);
    var next := st.(selected := selected, excluded := excluded, query := q2);
    if had || named then Push(next) else next
  }

  /** Removing the same area twice is the same as removing it once. */
  lemma RemoveStopAreaIdempotent(st: State, area: FullStopArea)
    ensures RemoveStopArea(RemoveStopArea(st, area), area) == RemoveStopArea(st, area)
  {
    var r1 := RemoveStopArea(st, area);
    FilterAll((s: FullStopArea) => s.Id() != area.Id(), r1.selected);
  }

  /** Every stop point of the area is excluded (for any area). */
  predicate AllExcluded(area: FullStopArea, excluded: seq<Exclusion>) {
    forall s :: s in area.details.stopPoints ==> exists e :: e in excluded && e.1 == s.id
  }

  /** `removeStopPoint`: records the exclusion and re-encodes `eSP`; when
      that leaves no stop point of the area unexcluded, the whole area is
      removed as by `removeStopArea`. Excluding twice changes nothing. */
  function RemoveStopPoint(st: State, area: FullStopArea, sp: StopPoint): (r: State)
    ensures (area.Id(), sp.id) in st.excluded ==> r == st
    ensures (area.Id(), sp.id) !in st.excluded ==> r.internallyUpdated && |r.navigation| > |st.navigation| && r.stops == st.stops
    ensures (area.Id(), sp.id) !in st.excluded && !AllExcluded(area, st.excluded + [(area.Id(), sp.id)]) ==>
      && r.excluded == st.excluded + [(area.Id(), sp.id)]
      && r.selected == st.selected
      && r.query == StoreExclusions(st.query, r.excluded, st.selected)
      && r.navigation == st.navigation + [r.query]
    ensures (area.Id(), sp.id) !in st.excluded && AllExcluded(area, st.excluded + [(area.Id(), sp.id)]) ==>
      var q1 := StoreExclusions(st.query, st.excluded + [(area.Id(), sp.id)], st.selected);
      var enc := Serialize(r.excluded, r.selected, q1);
      && (forall s :: s in r.selected <==> s in st.selected && s.Id() != area.Id())
      && IsSubseq(r.selected, st.selected)
      && (forall e :: e in r.excluded <==> e in st.excluded && e.0 != area.Id())
      && (forall e :: multiset(r.excluded)[e] == if e.0 != area.Id() then multiset(st.excluded)[e] else 0)
      && r.excluded == WithoutArea(st.excluded, area.Id())
      && area.Name() !in Values(r.query)
      && (forall k :: k != ExclusionsKey && Get(st.query, k) != Some(area.Name()) ==> Get(r.query, k) == Get(st.query, k))
      && (forall k :: k != ExclusionsKey && Get(st.query, k) == Some(area.Name()) ==> !HasKey(r.query, k))
      && IsSubseq(Delete(r.query, ExclusionsKey), Delete(st.query, ExclusionsKey))
      && Get(r.query, ExclusionsKey) == (if enc == "" || enc == area.Name() then None else Some(enc))
      && r.navigation == st.navigation + [q1, r.query]
  {
    var pair := (area.Id(), sp.id);
    if pair in st.excluded then st
    else
      var excluded := st.excluded + [pair];
      var next := Push(st.(excluded := excluded, query := StoreExclusions(st.query, excluded, st.selected)));
      if AllExcluded(area, excluded) then
        assert Pushed(st, pair, next);
        CascadeSelection(st, area, pair, next);
        CascadeQuery(st, area, pair, next);
        CascadeExcluded(st, area, pair, next);
        CascadeKeys(st, area, next);
        CascadeOrder(st, area, next);
        CascadeEncoding(st, area, pair, next);
        RemoveStopArea(next, area)
      else next
  }

  /** The state right after `removeStopPoint` has recorded `pair` and pushed. */
  ghost predicate Pushed(st: State, pair: Exclusion, next: State) {
    && next.selected == st.selected && next.stops == st.stops
    && next.excluded == st.excluded + [pair]
    && (forall k :: k != ExclusionsKey ==> Get(next.query, k) == Get(st.query, k))
    && next.internallyUpdated && next.navigation == st.navigation + [next.query]
  }

  /** When the last stop point of an area is excluded, `removeStopArea`
      drops the area and its pairs and leaves every other area and pair. */
  lemma CascadeSelection(st: State, area: FullStopArea, pair: Exclusion, next: State)
    requires pair.0 == area.Id()
    requires Pushed(st, pair, next)
    ensures var r := RemoveStopArea(next, area);
      && r.stops == st.stops
      && (forall s :: s in r.selected <==> s in st.selected && s.Id() != area.Id())
      && IsSubseq(r.selected, st.selected)
      && (forall e :: e in r.excluded <==> e in st.excluded && e.0 != area.Id())
      && (forall e :: multiset(r.excluded)[e] == if e.0 != area.Id() then multiset(st.excluded)[e] else 0)
  {
    CascadeExcluded(st, area, pair, next);
  }

  /** ... so the remaining exclusions are the old ones of the other areas,
      in their order. */
  lemma CascadeExcluded(st: State, area: FullStopArea, pair: Exclusion, next: State)
    requires pair.0 == area.Id() && next.excluded == st.excluded + [pair]
    ensures RemoveStopArea(next, area).excluded == WithoutArea(st.excluded, area.Id())
  {
    assert HasExclusions(next.excluded, area.Id()) by {
      assert pair in next.excluded;
    }
    WithoutAreaAppend(st.excluded, pair);
  }

  /** ... and it leaves no key naming the area and pushes a second time. */
  lemma CascadeQuery(st: State, area: FullStopArea, pair: Exclusion, next: State)
    requires pair.0 == area.Id()
    requires Pushed(st, pair, next)
    ensures var r := RemoveStopArea(next, area);
      && r.internallyUpdated
      && area.Name() !in Values(r.query)
      && r.navigation == st.navigation + [next.query, r.query]
  {
    assert HasExclusions(next.excluded, area.Id()) by {
      assert pair in next.excluded;
    }
    var r := RemoveStopArea(next, area);
    assert r.navigation == next.navigation + [r.query];
    AppendTwo(st.navigation, next.query, r.query);
  }

  /** The keys other than `eSP` that did not name the area keep their
      values, and those that did are gone. */
  lemma CascadeKeys(st: State, area: FullStopArea, next: State)
    requires forall k :: k != ExclusionsKey ==> Get(next.query, k) == Get(st.query, k)
    ensures var r := RemoveStopArea(next, area);
      && (forall k :: k != ExclusionsKey && Get(st.query, k) != Some(area.Name()) ==> Get(r.query, k) == Get(st.query, k))
      && (forall k :: k != ExclusionsKey && Get(st.query, k) == Some(area.Name()) ==> !HasKey(r.query, k))
  {
    var r := RemoveStopArea(next, area);
    FrameThrough(st.query, next.query, r.query, area.Name());
  }

  /** Removing the keys that hold `name` from a query that agrees with `a`
      away from `eSP` removes the keys that hold `name` in `a`. */
  lemma FrameThrough(a: Object, b: Object, c: Object, name: string)
    requires forall k :: k != ExclusionsKey ==> Get(b, k) == Get(a, k)
    requires forall k :: k != ExclusionsKey && Get(b, k) != Some(name) ==> Get(c, k) == Get(b, k)
    requires forall k :: k != ExclusionsKey && Get(b, k) == Some(name) ==> !HasKey(c, k)
    ensures forall k :: k != ExclusionsKey && Get(a, k) != Some(name) ==> Get(c, k) == Get(a, k)
    ensures forall k :: k != ExclusionsKey && Get(a, k) == Some(name) ==> !HasKey(c, k)
  {
  }

  /** Apart from `eSP`, the cascade's query is an in-order sub-list of the
      query before `removeStopPoint`. */
  lemma CascadeOrder(st: State, area: FullStopArea, next: State)
    requires Delete(next.query, ExclusionsKey) == Delete(st.query, ExclusionsKey)
    ensures IsSubseq(Delete(RemoveStopArea(next, area).query, ExclusionsKey), Delete(st.query, ExclusionsKey))
  {
  }

  lemma CascadeEncoding(st: State, area: FullStopArea, pair: Exclusion, next: State)
    requires pair.0 == area.Id() && pair in next.excluded
    ensures var r := RemoveStopArea(next, area);
      var enc := Serialize(r.excluded, r.selected, next.query);
      Get(r.query, ExclusionsKey) == (if enc == "" || enc == area.Name() then None else Some(enc))
  {
    assert HasExclusions(next.excluded, area.Id());
  }

  /** Excluding one stop point and adding the area's name again restores all
      of the area's stop points: `addStop` answers 1 and drops exactly the
      area's exclusions. */
  lemma RemoveThenAddAgain(st: State, api: Api, area: FullStopArea, sp: StopPoint)
    requires SelectedByName(st.selected, area.Name()) == Some(area)
    requires (area.Id(), sp.id) !in st.excluded
    requires !AllExcluded(area, st.excluded + [(area.Id(), sp.id)])
    ensures AddStop(RemoveStopPoint(st, area, sp), api, area.Name()).1 == 1
    ensures forall e :: e in AddStop(RemoveStopPoint(st, area, sp), api, area.Name()).0.excluded <==>
      e in st.excluded && e.0 != area.Id()
    ensures AddStop(RemoveStopPoint(st, area, sp), api, area.Name()).0.excluded == WithoutArea(st.excluded, area.Id())
  {
    var mid := RemoveStopPoint(st, area, sp);
    assert (area.Id(), sp.id) in mid.excluded;
    WithoutAreaAppend(st.excluded, (area.Id(), sp.id));
  }

  /** Dropping an area's pairs forgets a pair of that area appended last. */
  lemma WithoutAreaAppend(excluded: seq<Exclusion>, pair: Exclusion)
    ensures WithoutArea(excluded + [pair], pair.0) == WithoutArea(excluded, pair.0)
  {
    var f := (e: Exclusion) => e.0 != pair.0;
    FilterConcat(f, excluded, [pair]);
    assert Filter(f, [pair]) == [];
    assert WithoutArea(excluded, pair.0) + [] == WithoutArea(excluded, pair.0);
  }

  // ---------------------------------------------------------------------
  // queryUpdated

  /** One iteration of the loop over the numeric keys of `to`: a name that is
      already selected is skipped; otherwise it is searched and its details
      fetched, and on any failure the key is deleted and the router told. */
  function VisitKey(st: State, api: Api, to: Object, k: string): (r: State)
    ensures r.stops == st.stops && r.excluded == st.excluded
    ensures |st.selected| <= |r.selected| <= |st.selected| + 1 && r.selected[..|st.selected|] == st.selected
    ensures forall k' :: k' != k ==> Get(r.query, k') == Get(st.query, k')
    ensures IsSubseq(r.query, st.query)
    ensures HasKey(r.query, k) ==> SelectedByName(r.selected, NameAt(to, k)).Some?
    ensures r.navigation == st.navigation ==> r.query == st.query && r.internallyUpdated == st.internallyUpdated
    ensures r.navigation != st.navigation ==>
      r.query == Delete(st.query, k) && r.navigation == st.navigation + [r.query] && r.internallyUpdated
  {
    var name := Get(to, k).GetOr("");
    assert st.selected[..|st.selected|] == st.selected;
    SubseqRefl(st.query);
    if SelectedByName(st.selected, name).Some? then st
    else
      match Load(api, name)
      case None => Push(st.(query := Delete(st.query, k)))
      case Some(full) =>
        assert full in st.selected + [full];
        assert (st.selected + [full])[..|st.selected|] == st.selected;
        st.(selected := st.selected + [full])
  }

  /** `fetchStops(name).find((s) => s.name === name)`, then its details. */
  function Load(api: Api, name: string): (r: Option<FullStopArea>)
    ensures r.Some? ==> r.value.Name() == name
    ensures r.None? <==> (StopByName(FetchStops(api, name), name).None?
      || api.areaInformations(StopByName(FetchStops(api, name), name).value.id).None?)
  {
    match StopByName(FetchStops(api, name), name)
    case None => None
    case Some(found) => FetchStopAreaDetails(api, found)
  }

  function VisitKeys(st: State, api: Api, to: Object, keys: seq<string>): (r: State)
    ensures r.stops == st.stops && r.excluded == st.excluded
    ensures |st.selected| <= |r.selected| && r.selected[..|st.selected|] == st.selected
    ensures forall k :: k !in keys ==> Get(r.query, k) == Get(st.query, k)
    ensures IsSubseq(r.query, st.query)
    ensures LastPush(st, r)
    decreases |keys|
  {
    if |keys| == 0 then
      assert st.selected[..|st.selected|] == st.selected;
      SubseqRefl(st.query);
      assert LastPush(st, st);
      st
    else
      var m := VisitKey(st, api, to, keys[0]);
      var r := VisitKeys(m, api, to, keys[1..]);
      SubseqTrans(r.query, m.query, st.query);
      VisitKeyLastPush(st, api, to, keys[0]);
      LastPushTrans(st, m, r);
      assert r.selected[..|st.selected|] == r.selected[..|m.selected|][..|st.selected|];
      r
  }

  /** The router's history only grows, and its last entry is the query
      whenever the query has changed. */
  predicate LastPush(before: State, after: State) {
    && before.navigation <= after.navigation
    && (after.navigation == before.navigation ==> after.query == before.query)
    && (after.navigation != before.navigation ==>
      |before.navigation| < |after.navigation| && after.navigation[|after.navigation| - 1] == after.query)
  }

  lemma VisitKeyLastPush(st: State, api: Api, to: Object, k: string)
    ensures LastPush(st, VisitKey(st, api, to, k))
  {
    var m := VisitKey(st, api, to, k);
    if m.navigation != st.navigation {
      assert m.navigation == st.navigation + [m.query];
    }
  }

  lemma LastPushTrans(a: State, b: State, c: State)
    requires LastPush(a, b) && LastPush(b, c)
    ensures LastPush(a, c)
  {
    if c.navigation == a.navigation {
      assert |b.navigation| == |a.navigation|;
      assert b.navigation == c.navigation[..|b.navigation|];
    }
  }

  /** Every entry pushed since `before` lies between the query of `after`
      and that of `before`, in the sub-list order. */
  predicate PushesBetween(before: State, after: State) {
    forall i :: |before.navigation| <= i < |after.navigation| ==>
      IsSubseq(after.query, after.navigation[i]) && IsSubseq(after.navigation[i], before.query)
  }

  lemma PushesTrans(a: State, b: State, c: State)
    requires LastPush(a, b) && LastPush(b, c)
    requires IsSubseq(b.query, a.query) && IsSubseq(c.query, b.query)
    requires PushesBetween(a, b) && PushesBetween(b, c)
    ensures PushesBetween(a, c)
  {
    forall i | |a.navigation| <= i < |c.navigation|
      ensures IsSubseq(c.query, c.navigation[i]) && IsSubseq(c.navigation[i], a.query)
    {
      if i < |b.navigation| {
        assert c.navigation[i] == b.navigation[i];
        SubseqTrans(c.query, b.query, b.navigation[i]);
      } else {
        SubseqTrans(c.navigation[i], b.query, a.query);
      }
    }
  }

  lemma VisitKeyPushes(st: State, api: Api, to: Object, k: string)
    ensures PushesBetween(st, VisitKey(st, api, to, k))
  {
    var m := VisitKey(st, api, to, k);
    if m.navigation != st.navigation {
      assert m.navigation == st.navigation + [m.query];
      SubseqRefl(m.query);
    }
  }

  /** Every entry the loop pushes lies between the final query and the
      query it started from, in the sub-list order. */
  lemma {:induction false} VisitKeysPushes(st: State, api: Api, to: Object, keys: seq<string>)
    ensures PushesBetween(st, VisitKeys(st, api, to, keys))
    decreases |keys|
  {
    if |keys| > 0 {
      var m := VisitKey(st, api, to, keys[0]);
      var r := VisitKeys(m, api, to, keys[1..]);
      assert r == VisitKeys(st, api, to, keys);
      VisitKeyLastPush(st, api, to, keys[0]);
      VisitKeyPushes(st, api, to, keys[0]);
      VisitKeysPushes(m, api, to, keys[1..]);
      PushesTrans(st, m, r);
    }
  }

  /** What the loop keeps: the query only loses visited keys, one router
      entry per lost key; the selection only grows; every visited key still
      present names a selected area. */
  lemma {:induction false} VisitKeysFacts(st: State, api: Api, to: Object, keys: seq<string>)
    requires NoDup(keys)
    requires forall k :: k in keys ==> HasKey(st.query, k)
    ensures var r := VisitKeys(st, api, to, keys);
      && r.stops == st.stops && r.excluded == st.excluded
      && |st.selected| <= |r.selected| && r.selected[..|st.selected|] == st.selected
      && (forall e :: e in r.query ==> e in st.query)
      && (forall k :: k !in keys ==> Get(r.query, k) == Get(st.query, k))
      && |r.query| <= |st.query|
      && (|r.query| == |st.query| ==> r.query == st.query)
      && |r.navigation| == |st.navigation| + (|st.query| - |r.query|)
      && r.internallyUpdated == (st.internallyUpdated || |r.query| < |st.query|)
      && (forall k :: k in keys && HasKey(r.query, k) ==> SelectedByName(r.selected, Get(to, k).GetOr("")).Some?)
    decreases |keys|
  {
    if |keys| > 0 {
      var k := keys[0];
      var mid := VisitKey(st, api, to, k);
      VisitKeyFacts(st, api, to, k);
      assert NoDup(keys[1..]) by {
        forall i, j | 0 <= i < j < |keys| - 1 ensures keys[1..][i] != keys[1..][j] {
          assert keys[1..][i] == keys[i + 1] && keys[1..][j] == keys[j + 1];
        }
      }
      assert k !in keys[1..];
      forall k' | k' in keys[1..] ensures HasKey(mid.query, k') {
        assert Get(mid.query, k') == Get(st.query, k');
      }
      VisitKeysFacts(mid, api, to, keys[1..]);
      var r := VisitKeys(mid, api, to, keys[1..]);
      assert r == VisitKeys(st, api, to, keys);
      PrefixOfPrefix(st.selected, mid.selected, r.selected);
      if HasKey(r.query, k) {
        SelectedGrows(mid.selected, r.selected, Get(to, k).GetOr(""));
      }
    }
  }

  /** One visit either leaves the query alone or deletes the visited key and
      tells the router; an area it adds is appended under the key's name. */
  lemma VisitKeyFacts(st: State, api: Api, to: Object, k: string)
    requires HasKey(st.query, k)
    ensures VisitKey(st, api, to, k).stops == st.stops && VisitKey(st, api, to, k).excluded == st.excluded
    ensures |st.selected| <= |VisitKey(st, api, to, k).selected|
    ensures VisitKey(st, api, to, k).selected[..|st.selected|] == st.selected
    ensures forall e :: e in VisitKey(st, api, to, k).query ==> e in st.query
    ensures forall k' :: k' != k ==> Get(VisitKey(st, api, to, k).query, k') == Get(st.query, k')
    ensures var m := VisitKey(st, api, to, k);
      || (m.query == st.query && m.navigation == st.navigation && m.internallyUpdated == st.internallyUpdated)
      || (|m.query| == |st.query| - 1 && m.navigation == st.navigation + [m.query] && m.internallyUpdated)
    ensures HasKey(VisitKey(st, api, to, k).query, k) ==>
      SelectedByName(VisitKey(st, api, to, k).selected, Get(to, k).GetOr("")).Some?
  {
    VisitKeySelection(st, api, to, k);
    VisitKeyQuery(st, api, to, k);
    assert SelectionKept(st, VisitKey(st, api, to, k));
  }

  /** What visiting one key does to the selection. */
  predicate SelectionKept(st: State, m: State) {
    && m.stops == st.stops && m.excluded == st.excluded
    && |st.selected| <= |m.selected|
    && m.selected[..|st.selected|] == st.selected
  }

  lemma VisitKeySelection(st: State, api: Api, to: Object, k: string)
    requires HasKey(st.query, k)
    ensures SelectionKept(st, VisitKey(st, api, to, k))
    ensures HasKey(VisitKey(st, api, to, k).query, k) ==>
      SelectedByName(VisitKey(st, api, to, k).selected, Get(to, k).GetOr("")).Some?
  {
    var name := Get(to, k).GetOr("");
    if SelectedByName(st.selected, name).Some? {
      VisitKeyKnown(st, api, to, k);
    } else if Load(api, name).None? {
      VisitKeyDropped(st, api, to, k);
    } else {
      VisitKeyAdded(st, api, to, k);
    }
  }

  lemma VisitKeyKnown(st: State, api: Api, to: Object, k: string)
    requires SelectedByName(st.selected, Get(to, k).GetOr("")).Some?
    ensures VisitKey(st, api, to, k) == st
    ensures SelectionKept(st, VisitKey(st, api, to, k))
    ensures SelectedByName(VisitKey(st, api, to, k).selected, Get(to, k).GetOr("")).Some?
  {
    assert st.selected[..|st.selected|] == st.selected;
  }

  lemma VisitKeyQuery(st: State, api: Api, to: Object, k: string)
    requires HasKey(st.query, k)
    ensures forall e :: e in VisitKey(st, api, to, k).query ==> e in st.query
    ensures forall k' :: k' != k ==> Get(VisitKey(st, api, to, k).query, k') == Get(st.query, k')
    ensures var m := VisitKey(st, api, to, k);
      || (m.query == st.query && m.navigation == st.navigation && m.internallyUpdated == st.internallyUpdated)
      || (|m.query| == |st.query| - 1 && m.navigation == st.navigation + [m.query] && m.internallyUpdated)
  {
    var name := Get(to, k).GetOr("");
    if SelectedByName(st.selected, name).Some? {
      VisitKeyKnown(st, api, to, k);
    } else if Load(api, name).None? {
      VisitKeyDropped(st, api, to, k);
    } else {
      VisitKeyAdded(st, api, to, k);
    }
  }

  lemma VisitKeyDropped(st: State, api: Api, to: Object, k: string)
    requires HasKey(st.query, k)
    requires SelectedByName(st.selected, Get(to, k).GetOr("")).None? && Load(api, Get(to, k).GetOr("")).None?
    ensures var m := VisitKey(st, api, to, k);
      && m == Push(st.(query := Delete(st.query, k)))
      && (forall e :: e in m.query ==> e in st.query)
      && |m.query| == |st.query| - 1
      && !HasKey(m.query, k)
    ensures SelectionKept(st, VisitKey(st, api, to, k))
  {
    DeleteFacts(st, k);
    assert st.selected[..|st.selected|] == st.selected;
  }

  lemma VisitKeyAdded(st: State, api: Api, to: Object, k: string)
    requires SelectedByName(st.selected, Get(to, k).GetOr("")).None? && Load(api, Get(to, k).GetOr("")).Some?
    ensures var m := VisitKey(st, api, to, k);
      && m == st.(selected := st.selected + [Load(api, Get(to, k).GetOr("")).value])
    ensures SelectionKept(st, VisitKey(st, api, to, k))
    ensures SelectedByName(VisitKey(st, api, to, k).selected, Get(to, k).GetOr("")).Some?
  {
    var m := VisitKey(st, api, to, k);
    var full := Load(api, Get(to, k).GetOr("")).value;
    assert m.selected == st.selected + [full];
    assert m.selected[..|st.selected|] == st.selected;
    assert m.selected[|st.selected|] == full;
    SelectedByNameFinds(m.selected, full);
  }

  lemma SelectedByNameFinds(selected: seq<FullStopArea>, a: FullStopArea)
    requires a in selected
    ensures SelectedByName(selected, a.Name()).Some?
  {
  }

  lemma DeleteFacts(st: State, k: string)
    requires HasKey(st.query, k)
    ensures forall e :: e in Delete(st.query, k) ==> e in st.query
    ensures |Delete(st.query, k)| == |st.query| - 1
    ensures !HasKey(Delete(st.query, k), k)
  {
    SubseqMembers(Delete(st.query, k), st.query);
  }

  lemma SliceAfterAppend<T>(x: seq<T>, p: seq<T>, a: T)
    requires |p| + 1 <= |x| && x[..|p| + 1] == p + [a]
    ensures x[..|p|] == p
    ensures x[|p|..] == [a] + x[|p| + 1..]
  {
    assert x[..|p|] == x[..|p| + 1][..|p|];
    assert x[|p|] == x[..|p| + 1][|p|];
  }

  lemma PrefixOfPrefix<T>(a: seq<T>, b: seq<T>, c: seq<T>)
    requires |a| <= |b| && b[..|a|] == a
    requires |b| <= |c| && c[..|b|] == b
    ensures c[..|a|] == a
  {
    assert c[..|a|] == c[..|b|][..|a|];
  }

  /** A name found in the selection is still found once areas are appended. */
  lemma SelectedGrows(a: seq<FullStopArea>, b: seq<FullStopArea>, name: string)
    requires |a| <= |b| && b[..|a|] == a
    requires SelectedByName(a, name).Some?
    ensures SelectedByName(b, name).Some?
  {
    var s := SelectedByName(a, name).value;
    var i :| 0 <= i < |a| && a[i] == s;
    assert b[i] == s;
  }

  /** When every visited key already names a selected area the loop does nothing. */
  lemma {:induction false} VisitKeysNoop(st: State, api: Api, to: Object, keys: seq<string>)
    requires forall k :: k in keys ==> SelectedByName(st.selected, Get(to, k).GetOr("")).Some?
    ensures VisitKeys(st, api, to, keys) == st
    decreases |keys|
  {
    if |keys| > 0 {
      assert keys[0] in keys;
      assert forall k :: k in keys[1..] ==> k in keys;
      VisitKeysNoop(st, api, to, keys[1..]);
    }
  }

  /** The value of key `k` of the router's query, as the loop reads it. */
  function NameAt(to: Object, k: string): string {
    Get(to, k).GetOr("")
  }

  /** An area the loop loaded itself: what `Load` gives for its name, a name
      no area of `before` had. */
  predicate Fetched(before: seq<FullStopArea>, api: Api, a: FullStopArea) {
    SelectedByName(before, a.Name()).None? && Load(api, a.Name()) == Some(a)
  }

  /** The position in `keys` of the first key whose value is `name`
      (`|keys|` when there is none). */
  function FirstKeyNaming(to: Object, keys: seq<string>, name: string): (p: nat)
    ensures p <= |keys|
    ensures p < |keys| ==> NameAt(to, keys[p]) == name
    ensures forall j :: 0 <= j < p ==> NameAt(to, keys[j]) != name
    decreases |keys|
  {
    if |keys| == 0 then 0
    else if NameAt(to, keys[0]) == name then 0
    else 1 + FirstKeyNaming(to, keys[1..], name)
  }

  /** `added` are areas the loop over `keys` loaded itself, each named by
      some key, in the order the loop first met their names. */
  ghost predicate LoadedInOrder(before: seq<FullStopArea>, api: Api, to: Object, keys: seq<string>,
                                added: seq<FullStopArea>) {
    AllFetched(before, api, to, keys, added) && InKeyOrder(to, keys, added)
  }

  ghost predicate AllFetched(before: seq<FullStopArea>, api: Api, to: Object, keys: seq<string>,
                             added: seq<FullStopArea>) {
    forall i :: 0 <= i < |added| ==>
      Fetched(before, api, added[i]) && FirstKeyNaming(to, keys, added[i].Name()) < |keys|
  }

  ghost predicate InKeyOrder(to: Object, keys: seq<string>, added: seq<FullStopArea>) {
    forall i, j :: 0 <= i < j < |added| ==>
      FirstKeyNaming(to, keys, added[i].Name()) < FirstKeyNaming(to, keys, added[j].Name())
  }

  /** The loop appends, after the areas it started with, exactly areas it
      loaded itself, in the order it met their names. */
  lemma {:induction false} VisitKeysLoads(st: State, api: Api, to: Object, keys: seq<string>)
    ensures var r := VisitKeys(st, api, to, keys);
      LoadedInOrder(st.selected, api, to, keys, r.selected[|st.selected|..])
    decreases |keys|
  {
    var r := VisitKeys(st, api, to, keys);
    if |keys| == 0 {
      assert r == st;
    } else {
      var mid := VisitKey(st, api, to, keys[0]);
      VisitKeysLoads(mid, api, to, keys[1..]);
      assert r == VisitKeys(mid, api, to, keys[1..]);
      LoadedStep(st.selected, mid.selected, r.selected, api, to, keys);
    }
  }

  /** One step of `VisitKeysLoads`: the selection before the visit of
      `keys[0]`, after it, and at the end of the loop. */
  lemma LoadedStep(before: seq<FullStopArea>, mid: seq<FullStopArea>, after: seq<FullStopArea>,
                   api: Api, to: Object, keys: seq<string>)
    requires |keys| > 0
    requires SelectedByName(before, NameAt(to, keys[0])).Some? || Load(api, NameAt(to, keys[0])).None? ==> mid == before
    requires SelectedByName(before, NameAt(to, keys[0])).None? && Load(api, NameAt(to, keys[0])).Some? ==>
      mid == before + [Load(api, NameAt(to, keys[0])).value]
    requires |mid| <= |after| && after[..|mid|] == mid
    requires LoadedInOrder(mid, api, to, keys[1..], after[|mid|..])
    ensures LoadedInOrder(before, api, to, keys, after[|before|..])
  {
    var v := NameAt(to, keys[0]);
    var rest := after[|mid|..];
    if SelectedByName(before, v).Some? || Load(api, v).None? {
      LoadedShift(before, api, to, keys, rest);
    } else {
      var a := Load(api, v).value;
      SliceAfterAppend(after, before, a);
      LoadedPrepend(before, api, to, keys, a, rest);
    }
  }

  /** A visit that loads nothing: the loop's later loads are loads of names
      other than the visited one, met one key later. */
  lemma LoadedShift(before: seq<FullStopArea>, api: Api, to: Object, keys: seq<string>, rest: seq<FullStopArea>)
    requires |keys| > 0
    requires SelectedByName(before, NameAt(to, keys[0])).Some? || Load(api, NameAt(to, keys[0])).None?
    requires LoadedInOrder(before, api, to, keys[1..], rest)
    ensures LoadedInOrder(before, api, to, keys, rest)
  {
    forall i | 0 <= i < |rest|
      ensures FirstKeyNaming(to, keys, rest[i].Name()) == 1 + FirstKeyNaming(to, keys[1..], rest[i].Name())
    {
      assert Fetched(before, api, rest[i]);
      assert NameAt(to, keys[0]) != rest[i].Name();
    }
  }

  /** A visit that loads `a`: `a` comes first, and the later loads are of
      other names, met later. */
  lemma LoadedPrepend(before: seq<FullStopArea>, api: Api, to: Object, keys: seq<string>,
                      a: FullStopArea, rest: seq<FullStopArea>)
    requires |keys| > 0 && a.Name() == NameAt(to, keys[0])
    requires Fetched(before, api, a)
    requires LoadedInOrder(before + [a], api, to, keys[1..], rest)
    ensures LoadedInOrder(before, api, to, keys, [a] + rest)
  {
    forall i | 0 <= i < |rest|
      ensures Fetched(before, api, rest[i])
      ensures FirstKeyNaming(to, keys, rest[i].Name()) == 1 + FirstKeyNaming(to, keys[1..], rest[i].Name())
    {
      assert Fetched(before + [a], api, rest[i]);
      NotSelectedInPrefix(before, a, rest[i].Name());
    }
    PrependFetched(before, api, to, keys, a, rest);
    PrependOrder(to, keys, a, rest);
  }

  lemma PrependFetched(before: seq<FullStopArea>, api: Api, to: Object, keys: seq<string>,
                       a: FullStopArea, rest: seq<FullStopArea>)
    requires |keys| > 0 && a.Name() == NameAt(to, keys[0])
    requires Fetched(before, api, a)
    requires forall i :: 0 <= i < |rest| ==>
      Fetched(before, api, rest[i]) && FirstKeyNaming(to, keys, rest[i].Name()) < |keys|
    ensures AllFetched(before, api, to, keys, [a] + rest)
  {
    var added := [a] + rest;
    forall i | 0 <= i < |added| ensures Fetched(before, api, added[i]) && FirstKeyNaming(to, keys, added[i].Name()) < |keys| {
      if i > 0 {
        assert added[i] == rest[i - 1];
      }
    }
  }

  lemma PrependOrder(to: Object, keys: seq<string>, a: FullStopArea, rest: seq<FullStopArea>)
    requires |keys| > 0 && a.Name() == NameAt(to, keys[0])
    requires InKeyOrder(to, keys[1..], rest)
    requires forall i :: 0 <= i < |rest| ==>
      FirstKeyNaming(to, keys, rest[i].Name()) == 1 + FirstKeyNaming(to, keys[1..], rest[i].Name())
    ensures InKeyOrder(to, keys, [a] + rest)
  {
    var added := [a] + rest;
    assert FirstKeyNaming(to, keys, a.Name()) == 0;
    forall i, j | 0 <= i < j < |added|
      ensures FirstKeyNaming(to, keys, added[i].Name()) < FirstKeyNaming(to, keys, added[j].Name())
    {
      var y := rest[j - 1];
      assert added[j] == y;
      if i > 0 {
        var x := rest[i - 1];
        assert added[i] == x;
        assert FirstKeyNaming(to, keys[1..], x.Name()) < FirstKeyNaming(to, keys[1..], y.Name());
      }
    }
  }

  /** A name not found in `before + [a]` is not found in `before` and is not `a`'s. */
  lemma NotSelectedInPrefix(before: seq<FullStopArea>, a: FullStopArea, name: string)
    requires SelectedByName(before + [a], name).None?
    ensures SelectedByName(before, name).None? && a.Name() != name
  {
    assert a in before + [a];
    forall s | s in before ensures s.Name() != name {
      assert s in before + [a];
    }
  }

  /** Loads in order stay in order in any sub-list, such as the areas the
      final filter keeps. */
  lemma LoadedSubseq(before: seq<FullStopArea>, api: Api, to: Object, keys: seq<string>,
                     a: seq<FullStopArea>, b: seq<FullStopArea>)
    requires IsSubseq(a, b) && LoadedInOrder(before, api, to, keys, b)
    ensures LoadedInOrder(before, api, to, keys, a)
  {
    SubseqMembers(a, b);
    SubseqPairwise(a, b, (x: FullStopArea, y: FullStopArea) =>
      FirstKeyNaming(to, keys, x.Name()) < FirstKeyNaming(to, keys, y.Name()));
    forall i | 0 <= i < |a| ensures Fetched(before, api, a[i]) && FirstKeyNaming(to, keys, a[i].Name()) < |keys| {
      assert a[i] in b;
      var j :| 0 <= j < |b| && b[j] == a[i];
    }
  }

  /** A numeric key survives the loop iff its name was selected already or
      can be loaded: a key is only deleted by its own visit. */
  lemma {:induction false} VisitKeysKeeps(st: State, api: Api, to: Object, keys: seq<string>)
    requires NoDup(keys)
    requires forall k :: k in keys ==> HasKey(st.query, k)
    ensures forall k :: k in keys ==>
      (SelectedByName(st.selected, NameAt(to, k)).Some? || Load(api, NameAt(to, k)).Some? <==>
        HasKey(VisitKeys(st, api, to, keys).query, k))
    decreases |keys|
  {
    if |keys| > 0 {
      var k0 := keys[0];
      var mid := VisitKey(st, api, to, k0);
      var r := VisitKeys(mid, api, to, keys[1..]);
      assert r == VisitKeys(st, api, to, keys);
      VisitKeyFacts(st, api, to, k0);
      assert NoDup(keys[1..]) by {
        forall i, j | 0 <= i < j < |keys| - 1 ensures keys[1..][i] != keys[1..][j] {
          assert keys[1..][i] == keys[i + 1] && keys[1..][j] == keys[j + 1];
        }
      }
      assert k0 !in keys[1..];
      forall k' | k' in keys[1..] ensures HasKey(mid.query, k') {
        assert Get(mid.query, k') == Get(st.query, k');
      }
      VisitKeysFacts(mid, api, to, keys[1..]);
      VisitKeysKeeps(mid, api, to, keys[1..]);
      VisitKeyLoads(st, api, to, k0);
      forall k | k in keys
        ensures SelectedByName(st.selected, NameAt(to, k)).Some? || Load(api, NameAt(to, k)).Some? <==> HasKey(r.query, k)
      {
        if k == k0 {
          VisitKeyKeeps(st, api, to, k0);
        } else {
          assert k in keys[1..];
          KeepsThroughVisit(st.selected, mid.selected, api, NameAt(to, k));
        }
      }
    }
  }

  /** One visit appends at most an area it loaded itself. */
  lemma VisitKeyLoads(st: State, api: Api, to: Object, k: string)
    ensures var m := VisitKey(st, api, to, k);
      && |st.selected| <= |m.selected| && m.selected[..|st.selected|] == st.selected
      && forall i :: |st.selected| <= i < |m.selected| ==> Fetched(st.selected, api, m.selected[i])
  {
    var v := NameAt(to, k);
    if SelectedByName(st.selected, v).Some? || Load(api, v).None? {
      VisitKeyLoadsNothing(st, api, to, k);
    } else {
      VisitKeyLoadsOne(st, api, to, k);
    }
  }

  lemma VisitKeyLoadsNothing(st: State, api: Api, to: Object, k: string)
    requires SelectedByName(st.selected, NameAt(to, k)).Some? || Load(api, NameAt(to, k)).None?
    ensures VisitKey(st, api, to, k).selected == st.selected
    ensures st.selected[..|st.selected|] == st.selected
  {
  }

  lemma VisitKeyLoadsOne(st: State, api: Api, to: Object, k: string)
    requires SelectedByName(st.selected, NameAt(to, k)).None? && Load(api, NameAt(to, k)).Some?
    ensures var m := VisitKey(st, api, to, k);
      && |m.selected| == |st.selected| + 1 && m.selected[..|st.selected|] == st.selected
      && Fetched(st.selected, api, m.selected[|st.selected|])
  {
    var a := Load(api, NameAt(to, k)).value;
    var m := VisitKey(st, api, to, k);
    assert m.selected == st.selected + [a];
    assert m.selected[..|st.selected|] == st.selected;
  }

  /** The visit of `k` itself keeps `k` iff its name was selected or loads. */
  lemma VisitKeyKeeps(st: State, api: Api, to: Object, k: string)
    requires HasKey(st.query, k)
    ensures SelectedByName(st.selected, NameAt(to, k)).Some? || Load(api, NameAt(to, k)).Some? <==>
      HasKey(VisitKey(st, api, to, k).query, k)
  {
    if !(SelectedByName(st.selected, NameAt(to, k)).Some? || Load(api, NameAt(to, k)).Some?) {
      VisitKeyDropped(st, api, to, k);
    }
  }

  /** Whether a later key's name counts as selected-or-loadable does not
      depend on the visits before it. */
  lemma KeepsThroughVisit(before: seq<FullStopArea>, after: seq<FullStopArea>, api: Api, name: string)
    requires |before| <= |after| && after[..|before|] == before
    requires forall i :: |before| <= i < |after| ==> Fetched(before, api, after[i])
    ensures SelectedByName(before, name).Some? || Load(api, name).Some? <==>
      SelectedByName(after, name).Some? || Load(api, name).Some?
  {
    if SelectedByName(before, name).Some? {
      SelectedGrows(before, after, name);
    } else if SelectedByName(after, name).Some? {
      var a := SelectedByName(after, name).value;
      var i := FoundAt(after, name);
      assert forall j :: 0 <= j < |before| ==> after[j] == before[j] by {
        forall j | 0 <= j < |before| ensures after[j] == before[j] {
          assert after[..|before|][j] == after[j];
        }
      }
      assert a !in before;
      assert i >= |before|;
      assert Fetched(before, api, after[i]);
    }
  }

  /** A position where the area found by name sits. */
  lemma FoundAt(selected: seq<FullStopArea>, name: string) returns (i: nat)
    requires SelectedByName(selected, name).Some?
    ensures i < |selected| && selected[i] == SelectedByName(selected, name).value
    ensures selected[i].Name() == name
  {
    i :| 0 <= i < |selected| && selected[i] == SelectedByName(selected, name).value;
  }

  /** `queryUpdated`: the router reports a new query. The echo of the
      store's own last push is ignored once; otherwise the store adopts the
      query, loads every stop named under a numeric key (dropping the keys it
      cannot load), keeps only the selected areas still named in the query,
      and decodes the exclusions from `eSP`. */
  function QueryUpdated(st: State, api: Api, to: Object): (r: State)
    ensures st.internallyUpdated ==> r == st.(internallyUpdated := false)
    ensures !st.internallyUpdated ==>
      && r.stops == st.stops
      && (forall e :: e in r.query ==> e in to)
      && IsSubseq(r.query, to)
      && (forall k :: HasKey(to, k) && !HasKey(r.query, k) ==> Numeric(k))
      && (forall s :: s in r.selected ==> s.Name() in Values(r.query))
      && (forall k :: HasKey(r.query, k) && Numeric(k) ==> SelectedByName(r.selected, Get(r.query, k).value).Some?)
      && r.excluded == Deserialize(Get(r.query, ExclusionsKey).GetOr(""), r.query, r.selected)
      && (r.internallyUpdated <==> r.query != to)
      && |r.navigation| == |st.navigation| + (|to| - |r.query|)
    ensures !st.internallyUpdated ==>
      && st.navigation <= r.navigation
      && (r.query != to ==> |st.navigation| < |r.navigation| && r.navigation[|r.navigation| - 1] == r.query)
      && (forall i :: |st.navigation| <= i < |r.navigation| ==>
            IsSubseq(r.query, r.navigation[i]) && IsSubseq(r.navigation[i], to))
    ensures !st.internallyUpdated ==> forall k :: HasKey(to, k) && Numeric(k) ==>
      (HasKey(r.query, k) <==> SelectedByName(st.selected, NameAt(to, k)).Some? || Load(api, NameAt(to, k)).Some?)
    ensures !st.internallyUpdated ==> forall s :: s in st.selected ==> (s in r.selected <==> s.Name() in Values(r.query))
    ensures !st.internallyUpdated ==>
      var kept := StillNamed(st.selected, Values(r.query));
      && |kept| <= |r.selected| && r.selected[..|kept|] == kept
      && LoadedInOrder(st.selected, api, to, NumericKeys(to), r.selected[|kept|..])
    ensures !st.internallyUpdated ==> forall k :: HasKey(r.query, k) && Numeric(k) && SelectedByName(st.selected, NameAt(to, k)).None? ==>
      SelectedByName(r.selected, NameAt(to, k)) == Load(api, NameAt(to, k))
  {
    if st.internallyUpdated then st.(internallyUpdated := false)
    else
      var keys := NumericKeys(to);
      var start := st.(query := to);
      VisitKeysFacts(start, api, to, keys);
      var visited := VisitKeys(start, api, to, keys);
      VisitKeysPushes(start, api, to, keys);
      QueryUpdatedHistory(st, to, visited);
      var selected := StillNamed(visited.selected, Values(visited.query));
      QueryUpdatedFacts(to, keys, visited, selected);
      QueryUpdatedKeys(st, api, to, keys, visited);
      QueryUpdatedSelection(st, api, to, keys, visited, selected);
      QueryUpdatedLoaded(st, api, to, keys, visited, selected);
      var esp := Get(visited.query, ExclusionsKey).GetOr("");
      visited.(selected := selected, excluded := Deserialize(esp, visited.query, selected))
  }

  /** The router's history after the loop: the old entries, then one entry
      per deleted key, each between the final query and `to`, the last one
      being the final query. */
  lemma QueryUpdatedHistory(st: State, to: Object, visited: State)
    requires LastPush(st.(query := to), visited) && PushesBetween(st.(query := to), visited)
    ensures st.navigation <= visited.navigation
    ensures visited.query != to ==>
      |st.navigation| < |visited.navigation| && visited.navigation[|visited.navigation| - 1] == visited.query
    ensures forall i :: |st.navigation| <= i < |visited.navigation| ==>
      IsSubseq(visited.query, visited.navigation[i]) && IsSubseq(visited.navigation[i], to)
  {
  }

  /** The final `filter`: the areas whose name is still a query value. */
  function StillNamed(selected: seq<FullStopArea>, values: seq<string>): (r: seq<FullStopArea>)
    ensures forall s :: s in r <==> s in selected && s.Name() in values
    ensures IsSubseq(r, selected)
  {
    Filter((s: FullStopArea) => s.Name() in values, selected)
  }

  lemma StillNamedConcat(a: seq<FullStopArea>, b: seq<FullStopArea>, values: seq<string>)
    ensures StillNamed(a + b, values) == StillNamed(a, values) + StillNamed(b, values)
  {
    FilterConcat((s: FullStopArea) => s.Name() in values, a, b);
  }

  lemma QueryUpdatedKeys(st: State, api: Api, to: Object, keys: seq<string>, visited: State)
    requires keys == NumericKeys(to)
    requires visited == VisitKeys(st.(query := to), api, to, keys)
    ensures forall k :: HasKey(to, k) && Numeric(k) ==>
      (HasKey(visited.query, k) <==> SelectedByName(st.selected, NameAt(to, k)).Some? || Load(api, NameAt(to, k)).Some?)
  {
    VisitKeysKeeps(st.(query := to), api, to, keys);
  }

  /** After the filter, the old areas still named come first, in order, then
      the loaded areas still named, in the order the loop met them. */
  lemma QueryUpdatedSelection(st: State, api: Api, to: Object, keys: seq<string>, visited: State, selected: seq<FullStopArea>)
    requires visited == VisitKeys(st.(query := to), api, to, keys)
    requires selected == StillNamed(visited.selected, Values(visited.query))
    ensures forall s :: s in st.selected ==> (s in selected <==> s.Name() in Values(visited.query))
    ensures var kept := StillNamed(st.selected, Values(visited.query));
      && |kept| <= |selected| && selected[..|kept|] == kept
      && LoadedInOrder(st.selected, api, to, keys, selected[|kept|..])
  {
    var values := Values(visited.query);
    VisitKeysLoads(st.(query := to), api, to, keys);
    var added := visited.selected[|st.selected|..];
    assert visited.selected == st.selected + added;
    StillNamedConcat(st.selected, added, values);
    var kept := StillNamed(st.selected, values);
    var late := StillNamed(added, values);
    assert selected[..|kept|] == kept && selected[|kept|..] == late by {
      assert selected == kept + late;
    }
    LoadedSubseq(st.selected, api, to, keys, late, added);
  }

  /** A surviving key whose name was not selected before names the very
      area `Load` returns for it. */
  lemma QueryUpdatedLoaded(st: State, api: Api, to: Object, keys: seq<string>, visited: State, selected: seq<FullStopArea>)
    requires forall e :: e in visited.query ==> e in to
    requires forall k :: HasKey(visited.query, k) && Numeric(k) ==> SelectedByName(selected, Get(visited.query, k).value).Some?
    requires var kept := StillNamed(st.selected, Values(visited.query));
      && |kept| <= |selected| && selected[..|kept|] == kept
      && LoadedInOrder(st.selected, api, to, keys, selected[|kept|..])
    ensures forall k :: HasKey(visited.query, k) && Numeric(k) && SelectedByName(st.selected, NameAt(to, k)).None? ==>
      SelectedByName(selected, NameAt(to, k)) == Load(api, NameAt(to, k))
  {
    var kept := StillNamed(st.selected, Values(visited.query));
    forall k | HasKey(visited.query, k) && Numeric(k) && SelectedByName(st.selected, NameAt(to, k)).None?
      ensures SelectedByName(selected, NameAt(to, k)) == Load(api, NameAt(to, k))
    {
      var v := Get(visited.query, k).value;
      assert (k, v) in to;
      assert NameAt(to, k) == v;
      LoadedFound(st.selected, api, to, keys, selected, kept, v);
    }
  }

  lemma LoadedFound(before: seq<FullStopArea>, api: Api, to: Object, keys: seq<string>,
                    sel: seq<FullStopArea>, kept: seq<FullStopArea>, name: string)
    requires |kept| <= |sel| && sel[..|kept|] == kept && forall x :: x in kept ==> x in before
    requires LoadedInOrder(before, api, to, keys, sel[|kept|..])
    requires SelectedByName(sel, name).Some? && SelectedByName(before, name).None?
    ensures SelectedByName(sel, name) == Load(api, name)
  {
    var i := FoundAt(sel, name);
    var a := sel[i];
    assert a !in before;
    assert forall j :: 0 <= j < |kept| ==> sel[j] in before by {
      forall j | 0 <= j < |kept| ensures sel[j] in before {
        assert sel[..|kept|][j] == sel[j];
      }
    }
    assert i >= |kept|;
    assert sel[|kept|..][i - |kept|] == a;
    assert Fetched(before, api, a);
  }

  lemma QueryUpdatedFacts(to: Object, keys: seq<string>, visited: State, selected: seq<FullStopArea>)
    requires forall k :: k in keys <==> HasKey(to, k) && Numeric(k)
    requires forall e :: e in visited.query ==> e in to
    requires forall k :: k !in keys ==> Get(visited.query, k) == Get(to, k)
    requires forall k :: k in keys && HasKey(visited.query, k) ==> SelectedByName(visited.selected, Get(to, k).GetOr("")).Some?
    requires forall s :: s in selected <==> s in visited.selected && s.Name() in Values(visited.query)
    ensures forall k :: HasKey(to, k) && !HasKey(visited.query, k) ==> Numeric(k)
    ensures forall s :: s in selected ==> s.Name() in Values(visited.query)
    ensures forall k :: HasKey(visited.query, k) && Numeric(k) ==> SelectedByName(selected, Get(visited.query, k).value).Some?
  {
    forall k | HasKey(visited.query, k) && Numeric(k)
      ensures SelectedByName(selected, Get(visited.query, k).value).Some?
    {
      var v := Get(visited.query, k).value;
      assert (k, v) in to;
      assert Get(to, k) == Some(v);
      assert HasKey(to, k);
      var s :| s in visited.selected && s.Name() == v;
      var i :| 0 <= i < |visited.query| && visited.query[i] == (k, v);
      assert Values(visited.query)[i] == v;
      assert s in selected;
    }
  }

  /** Replaying the same router query changes nothing further: a second
      `queryUpdated` with `to` only clears the echo flag. */
  lemma QueryUpdatedIdempotent(st: State, api: Api, to: Object)
    requires !st.internallyUpdated
    ensures QueryUpdated(QueryUpdated(st, api, to), api, to) == QueryUpdated(st, api, to).(internallyUpdated := false)
  {
    var r1 := QueryUpdated(st, api, to);
    if !r1.internallyUpdated {
      assert r1.query == to;
      var keys := NumericKeys(to);
      var start := r1.(query := to);
      assert start == r1;
      forall k | k in keys ensures SelectedByName(r1.selected, Get(to, k).GetOr("")).Some? {
        assert HasKey(r1.query, k) && Numeric(k);
      }
      VisitKeysNoop(r1, api, to, keys);
      var values := Values(to);
      FilterAll((s: FullStopArea) => s.Name() in values, r1.selected);
      assert StillNamed(r1.selected, values) == r1.selected;
    }
  }

  // ---------------------------------------------------------------------
  // The slot chosen by addStop

  /** `addStop` as written names the new key after the number of keys, so
      after an earlier area was removed the key can already be in use and the
      area under it is silently replaced: from the selection {B} with the
      query {"2": "B"} (left by removing A from {"1": "A", "2": "B"}), adding
      C overwrites "2", and B, still selected, is no longer in the query. */
  lemma AddStopOverwritesSlot()
    ensures var b := FullStopArea(StopArea("stop_area:B", "B", StopAreaResult, "", ""),
                                  StopAreaDetails("", "", "", "", "B", []));
      var c := StopArea("stop_area:C", "C", StopAreaResult, "", "");
      var api := Api((text: string) => [], (id: string) => Some(StopAreaDetails("", "", "", "", "C", [])));
      var st := State([b], [], [c], [("2", "B")], false, []);
      var r := AddStop(st, api, "C");
      && r.1 == 0
      && b in r.0.selected
      && Get(r.0.query, "2") == Some("C")
      && "B" !in Values(r.0.query)
  {
    var b := FullStopArea(StopArea("stop_area:B", "B", StopAreaResult, "", ""),
                          StopAreaDetails("", "", "", "", "B", []));
    var c := StopArea("stop_area:C", "C", StopAreaResult, "", "");
    var api := Api((text: string) => [], (id: string) => Some(StopAreaDetails("", "", "", "", "C", [])));
    var q: Object := [("2", "B")];
    var st := State([b], [], [c], q, false, []);
    assert NatToString(2) == "2";
    assert SelectedByName(st.selected, "C").None?;
    assert StopByName(st.stops, "C") == Some(c);
    var r := AddStop(st, api, "C");
    assert |r.0.query| == 1;
    assert Get(r.0.query, "2") == Some("C");
    assert r.0.query == [("2", "C")];
  }

  /** The largest number written as a plain digit key of `ks` (0 if none). */
  function MaxDigitKey(ks: seq<string>): (m: nat)
    ensures forall i :: 0 <= i < |ks| && |ks[i]| > 0 && AllDigits(ks[i]) ==> DecimalValue(ks[i]) <= m
    decreases |ks|
  {
    if |ks| == 0 then 0
    else
      var rest := MaxDigitKey(ks[1..]);
      var here := if |ks[0]| > 0 && AllDigits(ks[0]) then DecimalValue(ks[0]) else 0;
      if here > rest then here else rest
  }

  /** The next key past every numeric slot in use; the evident intent of
      `String(Object.keys(query).length + 1)`, which it equals while the
      slots are "1".."n" and no other key is present. */
  function FreshSlot(q: Object): (k: string)
    ensures !HasKey(q, k)
    ensures Canonical(k)
  {
    var m := MaxDigitKey(Keys(q));
    var k := NatToString(m + 1);
    NatToStringCanonical(m + 1);
    assert forall i :: 0 <= i < |q| ==> q[i].0 != k by {
      forall i | 0 <= i < |q| ensures q[i].0 != k {
        assert Keys(q)[i] == q[i].0;
      }
    }
    k
  }

  /** `addStop` with the new area written to a fresh slot: no key already in
      the query is replaced, so every area named before is still named. */
  function AddStopFreshSlot(st: State, api: Api, name: string): (r: (State, int))
    ensures r.1 in {-3, -2, -1, 0, 1}
    ensures r.1 != 0 ==> r == AddStop(st, api, name)
    ensures r.1 == 0 ==>
      && |r.0.query| == |st.query| + 1
      && (forall k :: HasKey(st.query, k) ==> Get(r.0.query, k) == Get(st.query, k))
      && (forall v :: v in Values(st.query) ==> v in Values(r.0.query))
      && name in Values(r.0.query)
      && |r.0.selected| == |st.selected| + 1 && r.0.selected[..|st.selected|] == st.selected
      && r.0.selected[|st.selected|].Name() == name
      && r.0.internallyUpdated && r.0.navigation == st.navigation + [r.0.query]
  {
    if SelectedByName(st.selected, name).Some? then AddStop(st, api, name)
    else
      match StopByName(st.stops, name)
      case None => AddStop(st, api, name)
      case Some(found) =>
        match FetchStopAreaDetails(api, found)
        case None => AddStop(st, api, name)
        case Some(full) =>
          var slot := FreshSlot(st.query);
          var q := Set(st.query, slot, full.Name());
          ValuesKept(st.query, q, slot);
          var pushed := Push(st.(query := q));
          (pushed.(selected := st.selected + [full]), 0)
  }

  lemma ValuesKept(q: Object, r: Object, slot: string)
    requires !HasKey(q, slot)
    requires forall k :: k != slot ==> Get(r, k) == Get(q, k)
    requires HasKey(r, slot)
    ensures forall k :: HasKey(q, k) ==> Get(r, k) == Get(q, k)
    ensures forall v :: v in Values(q) ==> v in Values(r)
    ensures Get(r, slot).value in Values(r)
  {
    forall v | v in Values(q) ensures v in Values(r) {
      var i :| 0 <= i < |q| && Values(q)[i] == v;
      assert q[i] in q;
      assert Get(q, q[i].0) == Some(v);
      assert Get(r, q[i].0) == Some(v);
      var j :| 0 <= j < |r| && r[j] == (q[i].0, v);
      assert Values(r)[j] == v;
    }
    var w := Get(r, slot).value;
    var j :| 0 <= j < |r| && r[j] == (slot, w);
    assert Values(r)[j] == w;
  }
}

=== FILE: tbm.dfy ===
/** The pure parts of the transit-API client (src/store/TBM/index.ts): the
    records the API returns, the `stop_area` filter of the stop search, the
    stop-point and route pruning applied to stop-area details, the waiting
    time parser of the real-time passes, and the departure-time arithmetic of
    vehicle journeys. The HTTP calls themselves are the oracle functions of
    `Api`, which already return `[]` or None where the source's try/catch does. */
module Tbm {
  import opened Wrappers
  import opened Text
  import opened Seqs

  /** The `type` field of a search result: "line" or "stop_area". */
  datatype ResultType = LineResult | StopAreaResult

  datatype StopArea = StopArea(id: string, name: string, kind: ResultType, mode: string, url: string)

  datatype Line = Line(id: string, isChartered: bool, isHidden: bool, isSpecial: bool, name: string)

  datatype Route = Route(id: string, line: Line, name: string)

  datatype StopPoint = StopPoint(hasWheelchairBoarding: bool, id: string, name: string, routes: seq<Route>)

  datatype StopAreaDetails = StopAreaDetails(
    city: string, id: string, latitude: string, longitude: string, name: string,
    stopPoints: seq<StopPoint>)

  /** A search result enriched with its details (`StopArea & { details }`). */
  datatype FullStopArea = FullStopArea(area: StopArea, details: StopAreaDetails) {
    function Id(): string { area.id }
    function Name(): string { area.name }
  }

  /** The two remote endpoints the store reads: the stop search
      (`get-schedule/<text>`, [] on any failure) and the stop-area details
      (`network/stoparea-informations/<id>`, None on failure or empty data). */
  datatype Api = Api(
    schedule: string -> seq<StopArea>,
    areaInformations: string -> Option<StopAreaDetails>)

  /** The filter of `fetchStops`: only the results of type "stop_area", in order. */
  function StopAreasOnly(results: seq<StopArea>): (r: seq<StopArea>)
    ensures forall a :: a in r <==> a in results && a.kind == StopAreaResult
    ensures forall a :: multiset(r)[a] == if a.kind == StopAreaResult then multiset(results)[a] else 0
    ensures IsSubseq(r, results)
  {
    Filter((a: StopArea) => a.kind == StopAreaResult, results)
  }

  function FetchStops(api: Api, text: string): (r: seq<StopArea>)
    ensures forall a :: a in r <==> a in api.schedule(text) && a.kind == StopAreaResult
    ensures forall a :: multiset(r)[a] == if a.kind == StopAreaResult then multiset(api.schedule(text))[a] else 0
    ensures IsSubseq(r, api.schedule(text))
  {
    StopAreasOnly(api.schedule(text))
  }

  /** `sp.routes.find((r2) => r2.id === routeId)` is truthy. */
  predicate Serves(sp: StopPoint, routeId: string) {
    exists r :: r in sp.routes && r.id == routeId
  }

  /** Another stop point of `arr`, with more routes, also serves `r`. */
  predicate Overshadowed(sp: StopPoint, r: Route, arr: seq<StopPoint>) {
    exists sp2 :: sp2 in arr && sp.id != sp2.id && Serves(sp2, r.id) && |sp2.routes| > |sp.routes|
  }

  /** The first step of the pruning in `fetchStopAreaDetails`: a stop point
      stays when one of its routes is not served by a different stop point
      with more routes. */
  function KeepStopPoints(arr: seq<StopPoint>): (r: seq<StopPoint>)
    ensures IsSubseq(r, arr)
    ensures forall sp :: sp in r <==>
      sp in arr && exists x :: x in sp.routes && !Overshadowed(sp, x, arr)
  {
    Filter((sp: StopPoint) => exists x :: x in sp.routes && !Overshadowed(sp, x, arr), arr)
  }

  /** Route `x` of a stop point that had `len` routes is dropped because of
      `sp2`: `sp2` serves it and has fewer routes. */
  predicate DropsRoute(sp2: StopPoint, x: Route, len: nat) {
    Serves(sp2, x.id) && |sp2.routes| < len
  }

  /** The `forEach` body at index `i`, run against the array as it stands. */
  function PruneAt(cur: seq<StopPoint>, i: nat): (sp: StopPoint)
    requires i < |cur|
  {
    var len := |cur[i].routes|;
    cur[i].(routes := Filter((x: Route) => !exists j :: 0 <= j < |cur| && DropsRoute(cur[j], x, len),
                             cur[i].routes))
  }

  /** One route of stop point `i`: kept iff no stop point in the step-`i`
      snapshot other than `i` itself drops it. */
  lemma PruneAtRoute(snap: seq<StopPoint>, i: nat, x: Route)
    requires i < |snap| && x in snap[i].routes
    ensures x in PruneAt(snap, i).routes <==>
      && !(exists j :: 0 <= j < i && DropsRoute(snap[j], x, |snap[i].routes|))
      && !(exists j :: i < j < |snap| && DropsRoute(snap[j], x, |snap[i].routes|))
  {
    var len := |snap[i].routes|;
    assert !DropsRoute(snap[i], x, len);
    assert (exists j :: 0 <= j < |snap| && DropsRoute(snap[j], x, len)) <==>
      (exists j :: 0 <= j < i && DropsRoute(snap[j], x, len))
      || (exists j :: i < j < |snap| && DropsRoute(snap[j], x, len));
  }

  /** The second step of the pruning: stop points keep their number, order
      and every field but `routes`; a route of stop point `i` is dropped iff
      an earlier stop point as already pruned, or a later one as received,
      serves it with fewer routes than stop point `i` had. A stop point never
      drops a route because of itself. */
  function PruneRoutes(sps: seq<StopPoint>): (r: seq<StopPoint>)
    ensures |r| == |sps|
    ensures forall i :: 0 <= i < |sps| ==> r[i] == sps[i].(routes := r[i].routes)
    ensures forall i :: 0 <= i < |sps| ==> IsSubseq(r[i].routes, sps[i].routes)
    ensures forall i, x :: 0 <= i < |sps| && x in sps[i].routes ==>
      (x in r[i].routes <==>
        && !(exists j :: 0 <= j < i && DropsRoute(r[j], x, |sps[i].routes|))
        && !(exists j :: i < j < |sps| && DropsRoute(sps[j], x, |sps[i].routes|)))
  {
    var r := ForEachInPlace(PruneAt, sps, 0);
    PruneRoutesSteps(sps, r);
    r
  }

  lemma PruneRoutesSteps(sps: seq<StopPoint>, r: seq<StopPoint>)
    requires r == ForEachInPlace(PruneAt, sps, 0)
    ensures |r| == |sps|
    ensures forall i :: 0 <= i < |sps| ==> r[i] == sps[i].(routes := r[i].routes)
    ensures forall i :: 0 <= i < |sps| ==> IsSubseq(r[i].routes, sps[i].routes)
    ensures forall i, x :: 0 <= i < |sps| && x in sps[i].routes ==>
      (x in r[i].routes <==>
        && !(exists j :: 0 <= j < i && DropsRoute(r[j], x, |sps[i].routes|))
        && !(exists j :: i < j < |sps| && DropsRoute(sps[j], x, |sps[i].routes|)))
  {
    ForEachInPlaceSteps(PruneAt, sps, 0);
    forall i | 0 <= i < |sps|
      ensures r[i] == sps[i].(routes := r[i].routes)
      ensures IsSubseq(r[i].routes, sps[i].routes)
      ensures forall x :: x in sps[i].routes ==>
        (x in r[i].routes <==>
          && !(exists j :: 0 <= j < i && DropsRoute(r[j], x, |sps[i].routes|))
          && !(exists j :: i < j < |sps| && DropsRoute(sps[j], x, |sps[i].routes|)))
    {
      PruneRoutesAt(sps, r, i);
    }
  }

  lemma PruneRoutesAt(sps: seq<StopPoint>, r: seq<StopPoint>, i: nat)
    requires |r| == |sps| && i < |sps|
    requires r[i] == PruneAt(r[..i] + sps[i..], i)
    ensures r[i] == sps[i].(routes := r[i].routes)
    ensures IsSubseq(r[i].routes, sps[i].routes)
    ensures forall x :: x in sps[i].routes ==>
      (x in r[i].routes <==>
        && !(exists j :: 0 <= j < i && DropsRoute(r[j], x, |sps[i].routes|))
        && !(exists j :: i < j < |sps| && DropsRoute(sps[j], x, |sps[i].routes|)))
  {
    var snap := r[..i] + sps[i..];
    assert snap[i] == sps[i];
    PruneStepShape(snap, i, sps[i], r[i]);
    assert forall j :: 0 <= j < i ==> snap[j] == r[j];
    assert forall j :: i < j < |sps| ==> snap[j] == sps[j];
    forall x | x in sps[i].routes
      ensures x in r[i].routes <==>
        && !(exists j :: 0 <= j < i && DropsRoute(r[j], x, |sps[i].routes|))
        && !(exists j :: i < j < |sps| && DropsRoute(sps[j], x, |sps[i].routes|))
    {
      PruneAtRoute(snap, i, x);
    }
  }

  lemma PruneStepShape(snap: seq<StopPoint>, i: nat, sp: StopPoint, out: StopPoint)
    requires i < |snap| && snap[i] == sp && out == PruneAt(snap, i)
    ensures out == sp.(routes := out.routes)
    ensures IsSubseq(out.routes, sp.routes)
  {
  }

  /** The stop points `fetchStopAreaDetails` keeps, with their routes pruned. */
  function PruneStopPoints(arr: seq<StopPoint>): (r: seq<StopPoint>)
    ensures |r| == |KeepStopPoints(arr)| <= |arr|
    ensures forall i :: 0 <= i < |r| ==>
      && r[i] == KeepStopPoints(arr)[i].(routes := r[i].routes)
      && IsSubseq(r[i].routes, KeepStopPoints(arr)[i].routes)
  {
    PruneRoutes(KeepStopPoints(arr))
  }

  /** `fetchStopAreaDetails(stop)`: the details of `stop`, pruned, attached to it. */
  function FetchStopAreaDetails(api: Api, stop: StopArea): (r: Option<FullStopArea>)
    ensures r.None? <==> api.areaInformations(stop.id).None?
    ensures r.Some? ==> r.value.area == stop
    ensures r.Some? ==>
      r.value.details == api.areaInformations(stop.id).value.(stopPoints := r.value.details.stopPoints)
    ensures r.Some? ==>
      r.value.details.stopPoints == PruneRoutes(KeepStopPoints(api.areaInformations(stop.id).value.stopPoints))
  {
    match api.areaInformations(stop.id)
    case None => None
    case Some(d) => Some(FullStopArea(stop, d.(stopPoints := PruneStopPoints(d.stopPoints))))
  }

  // ---------------------------------------------------------------------
  // Clock strings: `s.match(/\d{2}/g)?.reduce((acc, v, i) => acc + v * 60 ** (2 - i) * 1000, 0)`.

  function Pow(b: nat, e: nat): (p: nat)
    ensures b > 0 ==> p > 0
    decreases e
  {
    if e == 0 then 1 else b * Pow(b, e - 1)
  }

  /** `60 ** e` for an integer exponent, which is fractional when `e < 0`
      (from the fourth two-digit group on). */
  function Pow60(e: int): (p: real)
    ensures p > 0.0
  {
    if e >= 0 then Pow(60, e) as real else 1.0 / (Pow(60, -e) as real)
  }

  /** The weight of the `i`-th two-digit group: hours, minutes, seconds, ... */
  function GroupMillis(groups: seq<string>, i: nat): (t: real)
    requires i < |groups| && AllDigits(groups[i])
    ensures t >= 0.0
    ensures t == 0.0 <==> DecimalValue(groups[i]) == 0
  {
    DecimalValue(groups[i]) as real * Pow60(2 - i) * 1000.0
  }

  /** The `reduce` over the two-digit groups from index `i`, starting at `acc`. */
  function ReduceGroups(groups: seq<string>, i: nat, acc: real): (t: real)
    requires i <= |groups|
    requires forall j :: 0 <= j < |groups| ==> AllDigits(groups[j])
    ensures t >= acc
    ensures i < |groups| ==> t >= acc + GroupMillis(groups, i)
    decreases |groups| - i
  {
    if i == |groups| then acc else ReduceGroups(groups, i + 1, acc + GroupMillis(groups, i))
  }

  /** The groups' weights are non-negative, so the total is 0 exactly when
      every group reads "00". */
  lemma {:induction false} ReduceGroupsZero(groups: seq<string>, i: nat, acc: real)
    requires i <= |groups| && acc >= 0.0
    requires forall j :: 0 <= j < |groups| ==> AllDigits(groups[j])
    ensures ReduceGroups(groups, i, acc) >= acc
    ensures ReduceGroups(groups, i, acc) == 0.0 <==>
      acc == 0.0 && forall j :: i <= j < |groups| ==> DecimalValue(groups[j]) == 0
    decreases |groups| - i
  {
    if i < |groups| {
      ReduceGroupsZero(groups, i + 1, acc + GroupMillis(groups, i));
    }
  }

  function ClockMillis(groups: seq<string>): real
    requires forall j :: 0 <= j < |groups| ==> AllDigits(groups[j])
  {
    ReduceGroups(groups, 0, 0.0)
  }

  /** The `waittime` of a real-time pass (`fetchRouteRealtime`): the clock
      string in milliseconds, None standing for the `Infinity` the source
      uses when there is no two-digit group or the total is 0. */
  function WaitTime(s: string): (r: Option<real>)
    ensures r.Some? ==> r.value > 0.0
    ensures r.None? <==> forall g :: g in TwoDigitMatches(s) ==> DecimalValue(g) == 0
  {
    var groups := TwoDigitMatches(s);
    ReduceGroupsZero(groups, 0, 0.0);
    if |groups| == 0 then None
    else
      var t := ClockMillis(groups);
      if t == 0.0 then None else Some(t)
  }

  predicate TwoDigits(s: string) {
    |s| == 2 && AllDigits(s)
  }

  /** The groups of an "HH:MM:SS" string are its three fields. */
  lemma ClockGroups(hh: string, mm: string, ss: string)
    requires TwoDigits(hh) && TwoDigits(mm) && TwoDigits(ss)
    ensures TwoDigitMatches(hh + ":" + mm + ":" + ss) == [hh, mm, ss]
  {
    var w := ":" + ss;
    var u := mm + w;
    var t := ":" + u;
    assert hh + ":" + mm + ":" + ss == hh + t;
    MatchesPair(hh, t);
    MatchesColon(u);
    MatchesPair(mm, w);
    MatchesColon(ss);
    MatchesPair(ss, []);
    assert ss + [] == ss;
  }

  lemma MatchesPair(a: string, rest: string)
    requires TwoDigits(a)
    ensures TwoDigitMatches(a + rest) == [a] + TwoDigitMatches(rest)
  {
    var s := a + rest;
    assert s[..2] == a && s[2..] == rest;
    assert IsDigit(s[0]) && IsDigit(s[1]);
  }

  lemma MatchesColon(rest: string)
    ensures TwoDigitMatches(":" + rest) == TwoDigitMatches(rest)
  {
    var s := ":" + rest;
    assert s[1..] == rest;
    assert !IsDigit(s[0]);
  }

  /** On "HH:MM:SS" the wait time is `(HH * 3600 + MM * 60 + SS) * 1000` ms,
      or None (`Infinity`) when that is 0. */
  lemma WaitTimeOfClock(hh: string, mm: string, ss: string)
    requires TwoDigits(hh) && TwoDigits(mm) && TwoDigits(ss)
    ensures var total := (DecimalValue(hh) * 3600 + DecimalValue(mm) * 60 + DecimalValue(ss)) * 1000;
      WaitTime(hh + ":" + mm + ":" + ss) == if total == 0 then None else Some(total as real)
  {
    var s := hh + ":" + mm + ":" + ss;
    ClockGroups(hh, mm, ss);
    ClockMillisOfThree(hh, mm, ss);
    WaitTimeOfGroups(s);
  }

  lemma WaitTimeOfGroups(s: string)
    requires |TwoDigitMatches(s)| > 0
    ensures var t := ClockMillis(TwoDigitMatches(s));
      WaitTime(s) == if t == 0.0 then None else Some(t)
  {
  }

  lemma ClockMillisOfThree(hh: string, mm: string, ss: string)
    requires AllDigits(hh) && AllDigits(mm) && AllDigits(ss)
    ensures ClockMillis([hh, mm, ss]) ==
      ((DecimalValue(hh) * 3600 + DecimalValue(mm) * 60 + DecimalValue(ss)) * 1000) as real
  {
    var groups := [hh, mm, ss];
    assert groups[0] == hh && groups[1] == mm && groups[2] == ss;
    ClockMillisOfGroups(groups);
  }

  lemma ClockMillisOfGroups(groups: seq<string>)
    requires |groups| == 3 && forall j :: 0 <= j < 3 ==> AllDigits(groups[j])
    ensures ClockMillis(groups) ==
      ((DecimalValue(groups[0]) * 3600 + DecimalValue(groups[1]) * 60 + DecimalValue(groups[2])) * 1000) as real
  {
    var h, m, s := DecimalValue(groups[0]), DecimalValue(groups[1]), DecimalValue(groups[2]);
    Pow60Small();
    var a0 := GroupMillis(groups, 0);
    var a1 := GroupMillis(groups, 1);
    var a2 := GroupMillis(groups, 2);
    assert a0 == h as real * 3600000.0;
    assert a1 == m as real * 60000.0;
    assert a2 == s as real * 1000.0;
    assert ReduceGroups(groups, 3, a0 + a1 + a2) == a0 + a1 + a2;
    assert ReduceGroups(groups, 2, a0 + a1) == a0 + a1 + a2;
    assert ReduceGroups(groups, 1, 0.0 + a0) == a0 + a1 + a2;
  }

  lemma Pow60Small()
    ensures Pow60(2) == 3600.0 && Pow60(1) == 60.0 && Pow60(0) == 1.0
  {
    assert Pow(60, 2) == 3600 by {
      assert Pow(60, 1) == 60;
    }
  }

  /** The scheduled departure of a vehicle-journey stop in milliseconds of
      the day (`fetchVehicleJourney`); None standing for the `NaN` of a string
      with no two-digit group. */
  function ScheduleMillis(departure: string): (r: Option<real>)
    ensures r.Some? ==> r.value >= 0.0
    ensures r.None? <==> |TwoDigitMatches(departure)| == 0
  {
    var groups := TwoDigitMatches(departure);
    ReduceGroupsZero(groups, 0, 0.0);
    if |groups| == 0 then None else Some(ClockMillis(groups))
  }

  const DayMillis: int := 24 * 60 * 60 * 1000

  /** `HMSdiff`: the scheduled time minus the reference time of day, moved to
      the next day when negative. */
  function HmsDiff(schedule: real, reference: int): (d: real)
    ensures d == schedule - reference as real || d == schedule - reference as real + DayMillis as real
    ensures d >= 0.0 ==> d == schedule - reference as real || schedule < reference as real
    ensures 0.0 <= schedule < DayMillis as real && 0 <= reference < DayMillis ==>
      0.0 <= d < DayMillis as real
  {
    var d := schedule - reference as real;
    if d < 0.0 then d + DayMillis as real else d
  }

  /** `Math.trunc`. */
  function Trunc(x: real): (n: int)
    ensures x >= 0.0 ==> n as real <= x < n as real + 1.0
    ensures x < 0.0 ==> n as real - 1.0 < x <= n as real
  {
    if x >= 0.0 then x.Floor else -((-x).Floor)
  }

  /** The largest time value ECMAScript dates can hold (8.64e15 ms). */
  const MaxTime: int := 8640000000000000

  /** `new Date(x).getTime()`: ECMAScript TimeClip, None standing for an
      invalid date. */
  function TimeClip(x: real): (r: Option<int>)
    ensures r.Some? <==> -MaxTime as real <= x <= MaxTime as real
    ensures r.Some? ==> r.value == Trunc(x)
  {
    if -MaxTime as real <= x <= MaxTime as real then Some(Trunc(x)) else None
  }

  /** One entry of a vehicle journey (the fields the model uses). */
  datatype JourneyStop = JourneyStop(
    stopPointId: string, arrivalTime: string, departureTime: string, headsign: string)

  /** The journey entry with its departure as an absolute timestamp in ms. */
  datatype TimedJourneyStop = TimedJourneyStop(stop: JourneyStop, departure: Option<int>)

  /** `vehicleJourney.splice(0, indexOf(ref))`: the journey from the first
      entry at the reference stop point on, or whole when none is there. */
  function CutAtReference(journey: seq<JourneyStop>, referenceStopPoint: string): (r: seq<JourneyStop>)
    ensures (forall s :: s in journey ==> s.stopPointId != referenceStopPoint) ==> r == journey
    ensures |r| <= |journey|
    ensures (exists s :: s in journey && s.stopPointId == referenceStopPoint) ==>
      && |r| > 0 && r[0].stopPointId == referenceStopPoint
      && journey == journey[..|journey| - |r|] + r
      && forall s :: s in journey[..|journey| - |r|] ==> s.stopPointId != referenceStopPoint
  {
    match FindIndex((s: JourneyStop) => s.stopPointId == referenceStopPoint, journey)
    case None => journey
    case Some(i) =>
      assert journey == journey[..i] + journey[i..];
      journey[i..]
  }

  /** The departure of one journey entry: the reference instant plus the
      wrapped difference of times of day. `referenceSeconds` is the reference
      schedule's `timestamp`; `referenceDayMillis` its local time of day. */
  function DepartureTime(referenceSeconds: int, referenceDayMillis: int, departure: string): (r: Option<int>)
    ensures ScheduleMillis(departure).None? ==> r.None?
    ensures r.Some? && 0 <= referenceDayMillis < DayMillis && ScheduleMillis(departure).value < DayMillis as real ==>
      referenceSeconds * 1000 <= r.value <= referenceSeconds * 1000 + DayMillis
    ensures && 0 <= referenceSeconds && referenceSeconds * 1000 + DayMillis <= MaxTime
            && 0 <= referenceDayMillis < DayMillis
            && ScheduleMillis(departure).Some? && ScheduleMillis(departure).value < DayMillis as real ==>
      r == Some(referenceSeconds * 1000 + Trunc(HmsDiff(ScheduleMillis(departure).value, referenceDayMillis)))
  {
    match TimeClip(referenceSeconds as real * 1000.0)
    case None => None
    case Some(start) =>
      match ScheduleMillis(departure)
      case None => None
      case Some(s) =>
        var d := HmsDiff(s, referenceDayMillis);
        TruncOfInt(referenceSeconds * 1000);
        TruncBetween(start, d, start as real + d);
        TruncShift(start, d);
        TimeClip(start as real + d)
  }

  lemma TruncOfInt(n: int)
    ensures Trunc(n as real) == n
  {
  }

  /** Moving a non-negative value by a non-negative whole number moves its
      truncation by the same amount. */
  lemma TruncShift(a: int, d: real)
    ensures 0 <= a && 0.0 <= d ==> Trunc(a as real + d) == a + Trunc(d)
  {
  }

  /** Truncating a point of `[a, a + DayMillis]` stays in that range. */
  lemma TruncBetween(a: int, d: real, x: real)
    requires x == a as real + d
    ensures 0.0 <= d <= DayMillis as real ==> a <= Trunc(x) <= a + DayMillis
  {
  }

  /** The pure part of `fetchVehicleJourney`. */
  function TimeJourney(journey: seq<JourneyStop>, referenceStopPoint: string,
                       referenceSeconds: int, referenceDayMillis: int): (r: seq<TimedJourneyStop>)
    ensures |r| == |CutAtReference(journey, referenceStopPoint)|
    ensures forall i :: 0 <= i < |r| ==>
      r[i].stop == CutAtReference(journey, referenceStopPoint)[i]
      && r[i].departure == DepartureTime(referenceSeconds, referenceDayMillis, r[i].stop.departureTime)
  {
    var cut := CutAtReference(journey, referenceStopPoint);
    seq(|cut|, i requires 0 <= i < |cut| =>
      TimedJourneyStop(cut[i], DepartureTime(referenceSeconds, referenceDayMillis, cut[i].departureTime)))
  }
}

=== FILE: text.dfy ===
/** The JavaScript string operations the store relies on, over `seq<char>`:
    `split`, `join`, `endsWith`, `substring`, the `/^\d+/` and `/\d{2}/g`
    regular expressions, `String(n)` for non-negative integers and
    `parseInt` without a radix. */
module Text {
  import opened Wrappers

  predicate IsDigit(c: char) {
    '0' <= c <= '9'
  }

  predicate AllDigits(s: string) {
    forall i :: 0 <= i < |s| ==> IsDigit(s[i])
  }

  function DigitValue(c: char): nat
    requires IsDigit(c)
  {
    (c as int - '0' as int) as nat
  }

  function DigitChar(d: nat): (c: char)
    requires d < 10
    ensures IsDigit(c) && DigitValue(c) == d
  {
    ('0' as int + d) as char
  }

  /** The value of a string of decimal digits (0 for the empty string). */
  function DecimalValue(s: string): nat
    requires AllDigits(s)
    decreases |s|
  {
    if |s| == 0 then 0
    else DecimalValue(s[..|s| - 1]) * 10 + DigitValue(s[|s| - 1])
  }

  /** A decimal numeral as JavaScript prints one: digits only, no leading zero. */
  predicate Canonical(s: string) {
    |s| >= 1 && AllDigits(s) && (|s| == 1 || s[0] != '0')
  }

  /** `String(n)` for a non-negative integer. */
  function NatToString(n: nat): (s: string)
    decreases n
  {
    if n < 10 then [DigitChar(n)]
    else NatToString(n / 10) + [DigitChar(n % 10)]
  }

  /** `String(n)` prints a canonical numeral that reads back as `n`. */
  lemma {:induction false} NatToStringCanonical(n: nat)
    ensures Canonical(NatToString(n))
    ensures DecimalValue(NatToString(n)) == n
    decreases n
  {
    if n >= 10 {
      NatToStringCanonical(n / 10);
      var s := NatToString(n);
      assert s[..|s| - 1] == NatToString(n / 10);
    }
  }

  lemma {:induction false} DecimalValueZero(s: string)
    requires AllDigits(s)
    requires DecimalValue(s) == 0
    ensures forall i :: 0 <= i < |s| ==> s[i] == '0'
    decreases |s|
  {
    if |s| > 0 {
      DecimalValueZero(s[..|s| - 1]);
      assert forall i :: 0 <= i < |s| - 1 ==> s[..|s| - 1][i] == s[i];
    }
  }

  /** Every canonical numeral is the printing of its own value, so two
      canonical numerals with the same value are the same string. */
  lemma {:induction false} CanonicalIsNatToString(s: string)
    requires Canonical(s)
    ensures s == NatToString(DecimalValue(s))
    decreases |s|
  {
    if |s| >= 2 {
      var p := s[..|s| - 1];
      assert p[0] == s[0];
      assert Canonical(p);
      if DecimalValue(p) == 0 {
        DecimalValueZero(p);
        assert false;
      }
      CanonicalIsNatToString(p);
      var v := DecimalValue(s);
      assert v / 10 == DecimalValue(p) && v % 10 == DigitValue(s[|s| - 1]);
      assert s == p + [s[|s| - 1]];
    }
  }

  lemma CanonicalInjective(a: string, b: string)
    requires Canonical(a) && Canonical(b)
    requires DecimalValue(a) == DecimalValue(b)
    ensures a == b
  {
    CanonicalIsNatToString(a);
    CanonicalIsNatToString(b);
  }

  /** The match of `/^\d+/`, or "" when the string does not start with a digit. */
  function LeadingDigits(s: string): (r: string)
    ensures r <= s && AllDigits(r)
    ensures |r| < |s| ==> !IsDigit(s[|r|])
    decreases |s|
  {
    if |s| > 0 && IsDigit(s[0]) then [s[0]] + LeadingDigits(s[1..]) else ""
  }

  lemma {:induction false} LeadingDigitsOfDigitsThen(d: string, rest: string)
    requires AllDigits(d)
    requires |rest| == 0 || !IsDigit(rest[0])
    ensures LeadingDigits(d + rest) == d
    decreases |d|
  {
    if |d| > 0 {
      assert (d + rest)[1..] == d[1..] + rest;
      LeadingDigitsOfDigitsThen(d[1..], rest);
    } else {
      assert d + rest == rest;
    }
  }

  /** Index of the first occurrence of `c`, if any. */
  function IndexOfChar(s: string, c: char): (r: Option<nat>)
    ensures r.Some? ==> r.value < |s| && s[r.value] == c && c !in s[..r.value]
    ensures r.None? <==> c !in s
    decreases |s|
  {
    if |s| == 0 then None
    else if s[0] == c then Some(0)
    else
      match IndexOfChar(s[1..], c)
      case None => None
      case Some(i) => Some(i + 1)
  }

  /** `s.split(c)` for a one-character separator: never empty, and "" splits
      into [""]. */
  function Split(s: string, c: char): (r: seq<string>)
    ensures |r| >= 1
    ensures forall i :: 0 <= i < |r| ==> c !in r[i]
    decreases |s|
  {
    match IndexOfChar(s, c)
    case None => [s]
    case Some(i) => [s[..i]] + Split(s[i + 1..], c)
  }

  /** `parts.join(c)`. */
  function Join(parts: seq<string>, c: char): string
    decreases |parts|
  {
    if |parts| == 0 then ""
    else if |parts| == 1 then parts[0]
    else parts[0] + [c] + Join(parts[1..], c)
  }

  /** Joining a part in front of a non-empty list. */
  lemma JoinCons(p: string, rest: seq<string>, c: char)
    requires |rest| > 0
    ensures Join([p] + rest, c) == p + [c] + Join(rest, c)
  {
    assert ([p] + rest)[1..] == rest;
  }

  lemma {:induction false} JoinFreeOf(parts: seq<string>, c: char, d: char)
    requires forall i :: 0 <= i < |parts| ==> d !in parts[i]
    requires c != d
    ensures d !in Join(parts, c)
    decreases |parts|
  {
    if |parts| >= 2 {
      JoinFreeOf(parts[1..], c, d);
    }
  }

  /** Splitting undoes joining when no part contains the separator. */
  lemma {:induction false} SplitJoin(parts: seq<string>, c: char)
    requires |parts| >= 1
    requires forall i :: 0 <= i < |parts| ==> c !in parts[i]
    ensures Split(Join(parts, c), c) == parts
    decreases |parts|
  {
    if |parts| >= 2 {
      var s := Join(parts, c);
      var p := parts[0];
      var rest := Join(parts[1..], c);
      assert s == p + [c] + rest;
      assert s[..|p|] == p;
      assert s[|p| + 1..] == rest;
      assert s[|p|] == c;
      assert s[..|p|] == p;
      assert IndexOfChar(s, c) == Some(|p|);
      SplitJoin(parts[1..], c);
    }
  }

  /** Joining the parts of a split gives the string back. */
  lemma {:induction false} JoinSplit(s: string, c: char)
    ensures Join(Split(s, c), c) == s
    decreases |s|
  {
    var k := IndexOfChar(s, c);
    if k.Some? {
      var i := k.value;
      var tail := s[i + 1..];
      JoinSplit(tail, c);
      SplitAt(s, c, i);
      JoinSplitStep(s[..i], c, Split(tail, c), tail);
      assert Join(Split(s, c), c) == s[..i] + [c] + tail;
      assert s == s[..i] + [c] + tail;
    } else {
      assert Split(s, c) == [s];
    }
  }

  lemma SplitAt(s: string, c: char, i: nat)
    requires IndexOfChar(s, c) == Some(i)
    ensures Split(s, c) == [s[..i]] + Split(s[i + 1..], c)
  {
  }

  lemma JoinSplitStep(head: string, c: char, parts: seq<string>, tail: string)
    requires |parts| >= 1 && Join(parts, c) == tail
    ensures Join([head] + parts, c) == head + [c] + tail
  {
    JoinCons(head, parts, c);
  }

  /** `s.endsWith(suffix)`. */
  predicate EndsWith(s: string, suffix: string) {
    |suffix| <= |s| && s[|s| - |suffix|..] == suffix
  }

  /** `s.substring(start)` for a non-negative start: "" when start passes the end. */
  function SubstringFrom(s: string, start: nat): (r: string)
    ensures start <= |s| ==> r == s[start..]
    ensures start > |s| ==> r == ""
  {
    if start <= |s| then s[start..] else ""
  }

  /** The characters JavaScript's `parseInt` skips at the start: the
      WhiteSpace and LineTerminator code points of ECMAScript. */
  predicate IsJsSpace(c: char) {
    || c == '\t' || c == '\n' || c == '\U{000B}' || c == '\U{000C}' || c == '\r'
    || c == ' ' || c == '\U{00A0}' || c == '\U{1680}'
    || ('\U{2000}' <= c <= '\U{200A}')
    || c == '\U{2028}' || c == '\U{2029}' || c == '\U{202F}' || c == '\U{205F}'
    || c == '\U{3000}' || c == '\U{FEFF}'
  }

  function TrimStart(s: string): (r: string)
    ensures |r| <= |s|
    ensures |r| > 0 ==> !IsJsSpace(r[0])
    decreases |s|
  {
    if |s| > 0 && IsJsSpace(s[0]) then TrimStart(s[1..]) else s
  }

  /** What `TrimStart` keeps is a suffix of its input. */
  lemma {:induction false} TrimStartSuffix(s: string)
    ensures TrimStart(s) == s[|s| - |TrimStart(s)|..]
    decreases |s|
  {
    if |s| > 0 && IsJsSpace(s[0]) {
      TrimStartSuffix(s[1..]);
      assert s[1..][|s| - 1 - |TrimStart(s)|..] == s[|s| - |TrimStart(s)|..];
    }
  }

  predicate IsHexDigit(c: char) {
    IsDigit(c) || ('a' <= c <= 'f') || ('A' <= c <= 'F')
  }

  function HexDigitValue(c: char): nat
    requires IsHexDigit(c)
  {
    if IsDigit(c) then DigitValue(c)
    else if 'a' <= c <= 'f' then (c as int - 'a' as int + 10) as nat
    else (c as int - 'A' as int + 10) as nat
  }

  function LeadingHexDigits(s: string): (r: string)
    ensures r <= s && forall i :: 0 <= i < |r| ==> IsHexDigit(r[i])
    decreases |s|
  {
    if |s| > 0 && IsHexDigit(s[0]) then [s[0]] + LeadingHexDigits(s[1..]) else ""
  }

  function HexValue(s: string): nat
    requires forall i :: 0 <= i < |s| ==> IsHexDigit(s[i])
    decreases |s|
  {
    if |s| == 0 then 0
    else HexValue(s[..|s| - 1]) * 16 + HexDigitValue(s[|s| - 1])
  }

  /** `parseInt(s)` with no radix: leading white space, an optional sign, a
      `0x`/`0X` prefix selecting base 16, then the longest run of digits of
      that base. None stands for NaN; -0 is 0. */
  function ParseInt(s: string): (r: Option<int>)
    ensures r.Some? ==> exists i :: 0 <= i < |s| && IsDigit(s[i])
  {
    TrimStartSuffix(s);
    var t := TrimStart(s);
    var u := if |t| > 0 && (t[0] == '-' || t[0] == '+') then t[1..] else t;
    assert u == s[|s| - |u|..];
    match ParseMagnitude(u)
    case None => None
    case Some(v) =>
      assert s[|s| - |u|] == u[0];
      var n: int := if |t| > 0 && t[0] == '-' then -(v as int) else v;
      Some(n)
  }

  /** What `parseInt` reads after the sign: a `0x`/`0X` prefix selects base
      16, otherwise base 10; None when no digit of that base follows. */
  function ParseMagnitude(u: string): (r: Option<nat>)
    ensures r.Some? ==> |u| > 0 && IsDigit(u[0])
  {
    if |u| >= 2 && u[0] == '0' && (u[1] == 'x' || u[1] == 'X') then
      var z := LeadingHexDigits(u[2..]);
      if |z| == 0 then None else Some(HexValue(z))
    else
      var z := LeadingDigits(u);
      if |z| == 0 then None else Some(DecimalValue(z))
  }

  lemma {:induction false} LeadingDigitsAll(s: string)
    requires AllDigits(s)
    ensures LeadingDigits(s) == s
  {
    LeadingDigitsOfDigitsThen(s, "");
    assert s + "" == s;
  }

  /** On a non-empty digit string `parseInt` reads the plain decimal value. */
  lemma ParseIntDigits(s: string)
    requires |s| >= 1 && AllDigits(s)
    ensures ParseInt(s) == Some(DecimalValue(s))
  {
    assert IsDigit(s[0]) && !IsJsSpace(s[0]);
    assert TrimStart(s) == s;
    assert s[0] != '-' && s[0] != '+';
    assert !(|s| >= 2 && s[0] == '0' && (s[1] == 'x' || s[1] == 'X')) by {
      if |s| >= 2 { assert IsDigit(s[1]); }
    }
    LeadingDigitsAll(s);
    assert ParseMagnitude(s) == Some(DecimalValue(s));
  }

  /** The successive matches of `/\d{2}/g`: leftmost, non-overlapping pairs of
      digits, scanning resumes just after each match. */
  function TwoDigitMatches(s: string): (r: seq<string>)
    ensures forall i :: 0 <= i < |r| ==> |r[i]| == 2 && AllDigits(r[i])
    decreases |s|
  {
    if |s| < 2 then []
    else if IsDigit(s[0]) && IsDigit(s[1]) then [s[..2]] + TwoDigitMatches(s[2..])
    else TwoDigitMatches(s[1..])
  }
}

=== FILE: wrappers.dfy ===
/** The Some/None datatype used wherever the source returns `undefined`,
    `null`, `NaN` or `Infinity` to mean "no value". */
module Wrappers {

  datatype Option<+T> = None | Some(value: T) {

    /** Returns the value in Some, or `default` for None. */
    function GetOr(default: T): T {
      match this
      case Some(v) => v
      case None => default
    }
  }
}
